=== FILE: README.md ===
# Endobella core in Dafny

A functional model of the core of Endobella. Endobella is a Django back end for a
health-content site and shop, with a small Next.js front end. The model covers:

- **Accounts** (`Accounts`): a user store keyed by lower-cased email. It keeps the
  constraints the database puts on the user table: a unique primary key, a unique
  email even when case is ignored, and the `varchar` bounds of the email (254) and the
  first and last names (150). It also models the `UserManager` that creates
  users and superusers.
- **Authentication serializers** (`AuthSerializers`): the lower-casing email field,
  required and optional `CharField`s with their trimming, the activation password
  check, the email-login input, the token serializers (email and password, or
  uid and token), and the user serializer's field list.
- **Authentication views** (`AuthViews`): activation, activation-link validation,
  resending activation, password-reset requests, email login, token-by-link, the
  email-and-password token endpoint, sign-up and user deletion. Each is a transition
  `Step(response, store)` on the user store. A router sends requests to them.
- **Records** (`Base`): the shared `BaseModel` stamps (uuid key, `created_at`,
  `updated_at`) and the `SeoGaioBase` columns with their bounds.
- **Articles** (`Articles`, `ArticleViews`): the article row, including its defaults,
  choice fields, slug derivation on `save`, unique slug and absolute URL. The public
  read-only API adds the published-only queryset, the filter parameters parsed from
  the query string (with their 400 refusals), search, ordering, and lookup by slug.
- **Shop** (`Shop`, `ShopDelete`, `ShopSchema`):
  - categories in a hierarchy, tags, products, variants, images and reviews, with
    every unique, foreign-key and range constraint;
  - inserts that keep those constraints;
  - deletes with `CASCADE` and `SET_NULL`;
  - the variant a product presents, its JSON-LD document, and a variant's label.
- **Colour-mode button** (`ModeSwitch`): the system/light/dark cycle of the front
  end's button and the icon it shows.

Everything the code reaches outside itself becomes a parameter:

- the clock;
- primary keys (uuid4 generation is random);
- `slugify`;
- the email-format validator;
- the password validators;
- the activation-token generator and the uid decoder;
- JWT minting.

The oracles are collected in `AuthSerializers.Oracles`. Strings are `seq<char>`.
Prices are whole hundredths.

`Text` holds the string helpers: ASCII lower-casing, Python's `strip()`,
code-point order, `join` and `split`. `Wrappers` holds `Option` and `Result`.

## Model

| member | source | states |
|---|---|---|
| Accounts.UpdateKeepsValid | backend/endobella/auth/models.py:41-57 | Rewriting a user without changing its email or key, into a row that still fits its columns, keeps emails unique ignoring case, primary keys unique and every row within its bounds |
| Accounts.EmailsUniqueIgnoringCase | backend/endobella/auth/models.py:52-57 | In a valid store, two different users' emails differ even after lower-casing (the `Lower("email")` unique constraint) |
| Accounts.NormalizeEmail | backend/endobella/auth/models.py:33-36 | A missing or empty email becomes "", any other email is lower-cased, and the length and case-folded value are kept |
| Accounts.NormalizeEmailIdempotent | backend/endobella/auth/models.py:33-36 | Normalizing twice is the same as normalizing once |
| Accounts.CreateUser | backend/endobella/auth/models.py:12-20 | A falsy email raises "The Email is required". An email longer than the 254-character column, or a first or last name longer than 150, is refused as too long. Otherwise the insert succeeds exactly when the normalized email and the key are free. The new user is filed under the normalized email with a fresh stamp and the flags and names given. A hashed password is set only for a truthy password. Other users are untouched and the store stays valid |
| Accounts.CreateSuperuser | backend/endobella/auth/models.py:22-31 | An explicit `is_staff=False` is refused first, then an explicit `is_superuser=False`. Otherwise the user is created as staff and superuser, active unless told otherwise |
| Accounts.Name | backend/endobella/auth/models.py:62-64 | The name is the first name, one space, then the last name |
| AuthSerializers.CharField | endobelle-backend/endobella/auth/serializers.py:63-65 | A missing value is "required" and one that strips to nothing is "blank". Otherwise the stripped input is accepted exactly when it holds no null character, the validator every DRF `CharField` carries |
| AuthSerializers.OptionalCharField | endobelle-backend/endobella/auth/serializers.py:83 | `redirect_url` stays absent when absent. A value that strips to nothing is the empty string, since blanks are allowed. Any other value is stripped and refused exactly when it holds a null character |
| AuthSerializers.EmailField | endobelle-backend/endobella/auth/serializers.py:32-35 | Accepted exactly when the stripped input is non-blank, holds no null character and is an email, and then yields the stripped input. A refusal reports every failing validator's message, the null-character message before the format message |
| AuthSerializers.LowercaseEmailToInternal | endobelle-backend/endobella/auth/serializers.py:33-35 | The checks run on the stripped input, then the result is lower-cased. Accepted exactly when the stripped input is non-blank and its lower-cased form holds no null character and is an email. The value is then that lower-cased form. A refusal reports every failing validator's message in order |
| AuthSerializers.LowercaseEmailToRepresentation | endobelle-backend/endobella/auth/serializers.py:37-39 | The representation is lower-case, equal to the value up to case, and an already lower-case value is shown unchanged |
| AuthSerializers.RepresentationOfInternal | endobelle-backend/endobella/auth/serializers.py:32-39 | Representing a value the field accepted gives that same value back (round trip) |
| AuthSerializers.StrippedInput | endobelle-backend/endobella/auth/serializers.py:63-65 | A missing value is "required", and one that strips to nothing is "blank". Any other value is stripped, is not empty, and goes on to the validators |
| AuthSerializers.FailingChecks | endobelle-backend/endobella/auth/serializers.py:42-50 | The failing validators, each at most once and in the order DRF runs them. Uniqueness is included exactly when the email is taken, the null-character check exactly when it holds one, and the format check exactly when it is malformed |
| AuthSerializers.MessagesNameChecks | endobelle-backend/endobella/auth/serializers.py:42-50 | Each reported message is its validator's message, and different validators report different messages, so the messages name the failing validators |
| AuthSerializers.ValidateNewEmail | endobelle-backend/endobella/auth/serializers.py:42-50 | A missing or blank email fails with its one message. Otherwise every validator runs on the stripped, lower-cased email and every failure is reported, in order: "already exists" exactly when a stored user has that email, then "null characters" exactly when it holds one, then "invalid" exactly when the format check fails. Accepted exactly when none fails. An accepted email is lower-case and not yet in the store |
| AuthSerializers.TakenMalformedEmailGetsBoth | endobelle-backend/endobella/auth/serializers.py:42-50 | Posting a stored email that is also malformed gets both the "already exists" and the "invalid" message, in that order, with the null-character message between them when the email holds a null character |
| AuthSerializers.ValidatedEmailCanBeCreated | endobelle-backend/endobella/auth/serializers.py:42-50 | For an email the creation serializer accepted, `create_user` succeeds exactly when the primary key is free and the email and names fit their columns. The email never trips the manager's or the database's uniqueness, but the serializer's field sets no length limit, so only the column bounds the email to 254 characters |
| AuthSerializers.ActivateValidate | endobelle-backend/endobella/auth/serializers.py:67-74 | The attributes pass exactly when the password validators give no message, and pass unchanged. A failure reports the messages under `password` only |
| AuthSerializers.EmailLoginValidate | endobelle-backend/endobella/auth/serializers.py:81-83 | Accepted exactly when both the lower-casing email field and the optional redirect field accept. The email is then lower-case, and the redirect is absent exactly when it was not sent. Errors name `email` exactly when the email field fails and `redirect_url` exactly when the redirect field fails |
| AuthSerializers.FieldErrors | endobelle-backend/endobella/auth/serializers.py:62-65 | The error body names exactly the fields that failed |
| AuthSerializers.LinkFields | endobelle-backend/endobella/auth/serializers.py:62 | The uid and token pass exactly when both required fields pass. Each failing field appears in the errors |
| AuthSerializers.LinkUser | endobelle-backend/endobella/auth/serializers.py:86 | The link names a stored user exactly when both fields pass, the uid decodes to a stored key, and the token checks for that user. Failures name `uid` or `token` |
| AuthSerializers.TokenPayload | endobelle-backend/endobella/auth/serializers.py:98-103 | The token body has exactly the keys `refresh` and `access`, holding the minted pair |
| AuthSerializers.TokenByLinkValidate | endobelle-backend/endobella/auth/serializers.py:90-103 | A bad link fails as the link check does. `no_active_account` is given exactly when the link's user is inactive. Otherwise the result is that user's token pair |
| AuthSerializers.ObtainPair | endobelle-backend/endobella/auth/serializers.py:86-103 | A pair with keys `refresh` and `access` is returned exactly when both fields pass, a user has the stripped email, the stripped password checks and the user is active. A failure is a field error exactly when a field fails, and otherwise `no_active_account` |
| AuthSerializers.UserJson | endobelle-backend/endobella/auth/serializers.py:25-29 | Serializing with a field list succeeds exactly when every name is a user column. The data then pairs each name, in order, with that column's value |
| AuthSerializers.UserFieldsDoNotBuild | endobelle-backend/endobella/auth/serializers.py:22 | The declared field list does not build, since the user has no `dt_created` or `dt_updated` column. The same list with the model's `created_at` and `updated_at` does build |
| AuthSerializers.Serialize | endobelle-backend/endobella/auth/serializers.py:22-29 | The user's data under the model's column names: key, email, first and last name, `created_at` and `updated_at`, each with its value |
| AuthSerializers.CredentialFields | endobelle-backend/endobella/auth/serializers.py:86 | The email and password fields pass exactly when both are sent, non-blank and free of null characters after stripping, and then yield their stripped forms. The errors name `email` exactly when the email fails and `password` exactly when the password fails |
| AuthViews.ActivationGate | backend/endobella/auth/views.py:58-77 | The checks that come before activation writes anything. Success names a stored key and the serializer's trimmed password. A refusal is 400 or 403 |
| AuthViews.ActivationChecksInOrder | backend/endobella/auth/views.py:59-77 | The refusals come in the source's order: invalid link 400, then already active 400, then password already set 403, then validator messages 400 |
| AuthViews.TokenResponse | backend/endobella/auth/views.py:82-93 | Answers 200 with the serialized user exactly when the token serializer accepts the user's email and the password and the field list builds. Answers 500 exactly when it accepts but the list does not build, 400 exactly when a field fails, and 401 exactly when no active user matches |
| AuthViews.Activation | backend/endobella/auth/views.py:58-93 | Corrected activation: a refused request leaves the store unchanged. An accepted one sets the validated password, marks the user active and saves it, touching no other user, and serializes the user with the model's own column names. The store stays valid |
| AuthViews.ActivationGrantsTokens | backend/endobella/auth/views.py:76-93 | For a user whose email key has no surrounding whitespace, when the checks pass, corrected activation answers 200 with a token body keyed `refresh` and `access`. When the key holds a null character, the token serializer's email field refuses it and the answer is 400 |
| AuthViews.ActivatedStoreFacts | backend/endobella/auth/views.py:79-81 | The activated user keeps its key and email and is active with the new password, and the store stays valid |
| AuthViews.ActivatedCanLogIn | backend/endobella/auth/views.py:82-85 | An active user whose stored password is the trimmed password gets a token pair |
| AuthViews.TokenResponseAfterActivation | backend/endobella/auth/views.py:79-85 | After activation with a stripped, non-empty, null-free password, the token step grants a pair for a null-free email key and answers 400 for a key holding a null character |
| AuthViews.ActivationAsWritten | backend/endobella/auth/views.py:76-93 | Activation as the view writes it. A refused request changes nothing. Once the checks pass, the raw `request.data["password"]` is stored and the user activated, whatever the answer. The answer is 400, 401 or 500 and never 200, because the user serializer's declared fields do not build. The store stays valid with the same users |
| AuthViews.PaddedPasswordLocksOut | backend/endobella/auth/views.py:76-85 | As written, a password with surrounding spaces activates the account with the untrimmed password stored. For a stripped, null-free key the same request answers 401, and no login can ever match the stored password |
| AuthViews.PaddedActivationRefused | backend/endobella/auth/views.py:78-85 | After storing a padded password, the token step refuses the user |
| AuthViews.PaddedLoginRefused | backend/endobella/auth/views.py:82-85 | A stored padded password can never be matched through the trimming token serializer |
| AuthViews.NoTrimmedStringIsPadded | backend/endobella/auth/views.py:82-85 | A string with surrounding spaces is the trimmed form of no login input |
| AuthViews.PaddedPasswordExample | backend/endobella/auth/views.py:76-93 | Concrete case: with password " x", Ann's activation answers 401, leaves her active, and stores " x" |
| AuthViews.SecondActivationFails | backend/endobella/auth/views.py:63-74 | Once activation has answered 200, activating the same user again is refused and changes nothing |
| AuthViews.SecondActivationFailsAsWritten | backend/endobella/auth/views.py:59-67 | As written, once a first activation's checks pass, whatever it answered, a second activation of the same user gets 400 and writes nothing |
| AuthViews.ValidateActivationLink | backend/endobella/auth/views.py:101-111 | Never writes. For a valid link to an inactive user it answers 200 with the user's data when the field list builds and 500 when it does not. Every other request gets 400 |
| AuthViews.LinkCheckFailsAsWritten | backend/endobella/auth/views.py:110-111 | With the declared field list the link check never answers 200. It answers 500 exactly where the model's column names give 200, and that 200 carries the serialized user |
| AuthViews.ResendActivation | backend/endobella/auth/views.py:114-127 | Never writes. Answers 204 exactly when the email is well-formed and an inactive user has exactly the trimmed email sent (no case folding), and 400 otherwise |
| AuthViews.ResendMissesUpperCase | backend/endobella/auth/views.py:114-124 | An email sent with an upper-case letter is never found, since stored emails are lower-case and the lookup does not fold case: 400 |
| AuthViews.ResendFindsInactive | backend/endobella/auth/views.py:114-127 | An inactive user's email, sent exactly as stored, gets 204 |
| AuthViews.ResetPassword | backend/endobella/auth/views.py:146-155 | Never writes. Answers 204 for every well-formed email, known or not, and 400 otherwise |
| AuthViews.EmailLogin | backend/endobella/auth/views.py:165-179 | Corrected: never writes. Bad input gives 400, and an email no stored user has after lower-casing gives 404. Otherwise 204 with the stored user's data under the model's column names and the stripped redirect |
| AuthViews.Rendered | backend/endobella/auth/views.py:179 | A body holding a model instance cannot be rendered as JSON and becomes a 500; every other response is rendered unchanged |
| AuthViews.EmailLoginAsWritten | backend/endobella/auth/views.py:165-179 | As written: never writes; answers 500 exactly when the corrected view answers 204, and otherwise exactly as the corrected view |
| AuthViews.KnownEmailFailsAsWritten | backend/endobella/auth/views.py:175-179 | The well-formed email of a stored user gets 500 as written, and 204 with the user's data in the corrected form |
| AuthViews.CreateByToken | backend/endobella/auth/views.py:186-200 | Never writes. A bad link gives 400 and an inactive user gives 401 `no_active_account`. Otherwise 200 with the user's data and a token pair when the field list builds, and 500 when it does not |
| AuthViews.TokenByLinkFailsAsWritten | backend/endobella/auth/views.py:194-196 | With the declared field list, create-by-token never answers 200. It answers 500 exactly where the model's column names give 200 |
| AuthViews.TokenCreate | endobelle-backend/endobella/auth/urls.py:14 | `jwt/create/` never writes. It answers 200 with exactly the keys `refresh` and `access` when both fields pass, a user has the stripped email, the stripped password checks and the user is active. It answers 400 exactly when a field fails, and 401 otherwise |
| AuthViews.SignUpAsWritten | endobelle-backend/endobella/auth/serializers.py:42-59 | As written, sign-up answers 500 and creates nobody, because the creation serializer's declared field list does not build |
| AuthViews.DestroyAsWritten | backend/endobella/auth/views.py:26-34 | As written, deleting a user never writes. It answers 401 exactly when the request is not authenticated, and 500 for every authenticated request, because the lookup uses a `hid` field the user model lacks |
| AuthViews.Destroy | backend/endobella/auth/views.py:26-34 | Corrected deletion with the primary-key lookup: 401 when unauthenticated, then 404 for any key but the caller's, then 400 unless the stripped current password checks. Otherwise 204, with only the caller removed, and the store stays valid |
| AuthViews.DestroyFailsAsWritten | backend/endobella/auth/views.py:28 | Where corrected deletion removes the caller, the view as written answers 500 and the caller stays |
| AuthViews.Handle | endobelle-backend/endobella/auth/urls.py:9-27 | The views as written, routed, including sign-up, the email-and-password token endpoint and user deletion: any request keeps the store valid and its set of users |
| AuthViews.OnlyActivationWrites | backend/endobella/auth/views.py:101-200 | As written, every endpoint except activation leaves the store exactly as it was |
| AuthViews.RequestsKeepStoreValid | endobelle-backend/endobella/auth/urls.py:13-27 | Any sequence of requests to the views as written keeps the store valid with the same users |
| Base.Inserted | backend/endobella/common/models.py:7-9 | A first save stamps the given key, with creation and update time both now |
| Base.SavesKeepIdentity | backend/endobella/common/models.py:7-9 | However many saves follow, the key and `created_at` are those of the first save, and `updated_at` is the last save's time |
| Base.CreatedNotAfterUpdated | backend/endobella/common/models.py:8-9 | With a clock that does not go back, `created_at <= updated_at` after any number of saves |
| Base.SeoValidationImpliesStorable | backend/endobella/common/models.py:15-45 | SEO fields that pass validation fit their columns. Fitting the columns fails validation on at most two fields: `content_abstract`, the only bounded `TextField`, and `canonical_url`, exactly when it is not blank and the `URLField`'s URL validator refuses it |
| Base.DefaultSeoValid | backend/endobella/common/models.py:15-45 | The SEO defaults validate, whatever the URL validator, since a blank URL skips it, and leave the page indexable |
| Articles.ParseCategory | backend/endobella/articles/models.py:13-16 | A parsed category choice prints back as the stored value |
| Articles.CategoryRoundTrip | backend/endobella/articles/models.py:13-16 | Every category parses back from its value, and every value fits the column |
| Articles.ParseType | backend/endobella/articles/models.py:18-22 | A parsed type choice prints back as the stored value |
| Articles.TypeRoundTrip | backend/endobella/articles/models.py:18-22 | Every type parses back from its value, and every value fits the column |
| Articles.DraftDefaults | backend/endobella/articles/models.py:24-60 | A minimal new article is a published, unfeatured knowledge-base `Article` with a table of contents, no author, no publish date and no tags. It keeps the given title, slug and excerpt, and its SEO fields validate |
| Articles.DraftChoicesKept | backend/endobella/articles/models.py:29-60 | Every choice the caller gives overrides the column default |
| Articles.ValidatedIsStorable | backend/endobella/articles/models.py:24-41 | An article passing full validation fits every column exactly when its `featured_image` path fits the 100 characters, since validation does not check that path. It keeps the excerpt bound, has a non-empty title, slug, image and excerpt (none is declared blankable), a slug `validate_slug` accepts, and an author (the foreign key is nullable but not blankable) |
| Articles.IndexOfId | backend/endobella/common/models.py:7 | Finds the row with a primary key exactly when one exists |
| Articles.SavedSlug | backend/endobella/articles/models.py:74-77 | A given slug is kept. An empty one becomes `slugify(title)` |
| Articles.Save | backend/endobella/articles/models.py:74-77 | A save succeeds exactly when no other row holds the saved slug and the row fits its columns, including the 100-character `featured_image` path |
| Articles.SaveKeepsValid | backend/endobella/articles/models.py:74-77 | A successful save keeps primary keys and slugs unique and every row storable |
| Articles.SaveEffect | backend/endobella/articles/models.py:74-77 | An update keeps the table's length, the row's position and `created_at`. An insert appends a row stamped now. The saved row is the row given, with the saved slug and its stamp, and every other row is unchanged |
| Articles.SaveKeepsGivenSlug | backend/endobella/articles/models.py:75-76 | A non-empty slug is never replaced on save |
| Articles.AbsoluteUrl | backend/endobella/articles/models.py:79-80 | The URL is the slug wrapped in two slashes |
| Articles.UrlRoundTrip | backend/endobella/articles/models.py:79-80 | The slug can be read back from the URL |
| Articles.UrlInjective | backend/endobella/articles/models.py:79-80 | Different slugs give different URLs |
| Articles.UrlsUnique | backend/endobella/articles/models.py:79-80 | In a valid table every article has its own URL |
| Articles.DeleteAuthor | backend/endobella/articles/models.py:26-28 | `SET_NULL`: each of the deleted user's articles has its author set to none and is otherwise unchanged; every other article is unchanged |
| Articles.DeleteAuthorKeepsValid | backend/endobella/articles/models.py:26-28 | Deleting an author keeps the table valid |
| ArticleViews.Published | backend/endobella/articles/views.py:23 | The queryset holds exactly the published articles of the table |
| ArticleViews.NoFilterMatchesAll | backend/endobella/articles/views.py:7-19 | Sending no filter parameter lets every article through |
| ArticleViews.Filtered | backend/endobella/articles/views.py:7-19 | Keeps exactly the articles equal to every field of a parsed filter. A field the query did not send, or sent empty, filters nothing |
| ArticleViews.TextFilter | backend/endobella/articles/views.py:11-13 | A text parameter that strips to nothing filters nothing. Any other value filters on its stripped form |
| ArticleViews.BoolFilter | backend/endobella/articles/views.py:15-16 | A boolean parameter means true exactly for "True", "true" or "2", and false exactly for "False", "false" or "3". Any other value filters nothing and is never an error |
| ArticleViews.DateFilter | backend/endobella/articles/views.py:14 | A valid date parameter filters on the date its stripped value parses to. It filters nothing exactly when absent or empty |
| ArticleViews.TypeFilter | backend/endobella/articles/views.py:17 | A valid type parameter filters on the choice whose stored value it is, unstripped. It filters nothing exactly when absent or empty |
| ArticleViews.AuthorFilter | backend/endobella/articles/views.py:18 | A valid author parameter filters on the stored user whose key it parses to. It filters nothing exactly when absent or empty |
| ArticleViews.QueryErrors | backend/endobella/articles/views.py:7-19 | Exactly the parameters the filter form refuses: a stripped text value with a null character, a non-empty date that is blank or does not parse, a type outside the choices, or an author that is not a stored user's key |
| ArticleViews.ParseFilter | backend/endobella/articles/views.py:7-19 | Fails exactly when some parameter is refused, naming every refused one. Otherwise the filter each parameter gives |
| ArticleViews.EmptyQueryFiltersNothing | backend/endobella/articles/views.py:7-19 | A query whose parameters are all absent or empty parses to the empty filter |
| ArticleViews.FilterRoundTrip | backend/endobella/articles/views.py:7-19 | Sending a filter and parsing the query gives the filter back. The text values must be sendable as they are, the date and author written in a form that parses back, and the author stored |
| ArticleViews.Searched | backend/endobella/articles/views.py:26 | Keeps exactly the articles where every search term occurs, ignoring case, in the title, excerpt or content |
| ArticleViews.ParseField | backend/endobella/articles/views.py:27 | A parsed column name is one of the four allowed and prints back as sent |
| ArticleViews.ParseOrdering | backend/endobella/articles/views.py:27-28 | Never empty; a missing or empty `ordering` parameter means `-created_at` |
| ArticleViews.ParseKey | backend/endobella/articles/views.py:27 | A term accepted as a key is exactly that key's text |
| ArticleViews.NoValidKeys | backend/endobella/articles/views.py:27 | No key survives exactly when no stripped comma-separated term names an allowed column |
| ArticleViews.KeyRoundTrip | backend/endobella/articles/views.py:27 | Every key's text is one comma-free term that parses back to the key |
| ArticleViews.InvalidTermDropped | backend/endobella/articles/views.py:27-28 | A term naming no allowed column followed by a valid key orders by that key alone (`bogus,title` orders by title): invalid terms are dropped and valid ones kept |
| ArticleViews.FieldRoundTrip | backend/endobella/articles/views.py:27 | Every allowed column parses back from its name |
| ArticleViews.OrderingRoundTrip | backend/endobella/articles/views.py:27 | Every non-empty comma-separated list of keys is understood as sent, in order |
| ArticleViews.UnknownColumnUsesDefault | backend/endobella/articles/views.py:27-28 | When no comma-separated term names an allowed column, the default order applies |
| ArticleViews.LeqTotal | backend/endobella/articles/views.py:27 | Under any list of keys, any two articles are comparable |
| ArticleViews.LeqTransitive | backend/endobella/articles/views.py:27 | The lexicographic order over the keys is transitive |
| ArticleViews.Insert | backend/endobella/articles/views.py:27-28 | Inserting into a sorted list gives a sorted permutation of the list plus the row |
| ArticleViews.Sort | backend/endobella/articles/views.py:27-28 | The ordered list is a sorted permutation of its input |
| ArticleViews.SortedHeadIsLeast | backend/endobella/articles/views.py:27-28 | The first row of an ordered list may come before every row of it |
| ArticleViews.List | backend/endobella/articles/views.py:22-29 | `GET /articles/` is sorted by the requested ordering |
| ArticleViews.ListMembership | backend/endobella/articles/views.py:22-29 | An article is listed exactly when it is stored, published, passes the filters and matches the search |
| ArticleViews.ListView | backend/endobella/articles/views.py:22-29 | Answers 400 exactly when some filter parameter is refused, naming every refused one. Otherwise it lists, in the requested order, exactly the published articles of the table that pass the parsed filter and the search |
| ArticleViews.PaddedTypeRefused | backend/endobella/articles/views.py:17 | An `article_type` sent with a leading space (" Article") is refused with 400, because the choice filter does not strip |
| ArticleViews.DefaultListNewestFirst | backend/endobella/articles/views.py:28 | Without an ordering, no listed article is newer than the first |
| ArticleViews.TitleOrderingExample | endobelle-backend/tests/test_articles.py:72-100 | By title, "Another Article" comes first ascending and "Test Article" comes first descending |
| ArticleViews.Detail | backend/endobella/articles/views.py:22-29 | A found article has the asked slug and is in the filtered, searched list of published articles |
| ArticleViews.DetailView | backend/endobella/articles/views.py:22-29 | Answers 400 exactly when some filter parameter is refused, naming every refused one. A found article is stored, published, has the slug, and passes the parsed filter and the search |
| ArticleViews.DetailFindsPublished | endobelle-backend/endobella/common/mixins.py:7-10 | A stored article is found by its slug exactly when it is published, passes every sent filter and matches every search term; any other is not found |
| ArticleViews.DetailUnknownSlug | endobelle-backend/tests/test_articles.py:27-30 | A slug no article has gives not found |
| ArticleViews.SavedArticleIsFound | backend/endobella/articles/views.py:23-25 | A published article that was just saved is found under its saved slug when no filter or search is sent |
| Shop.NewNamed | endobelle-backend/endobella/shop/models.py:12-30 | A new named row keeps the given slug, or takes `slugify(name)` when it is empty, and carries a fresh stamp |
| Shop.BrandVoiceStorable | endobelle-backend/endobella/shop/models.py:113-124 | Each brand voice fits the 20-character column, and distinct voices are stored distinctly |
| Shop.EmptyShopValid | endobelle-backend/endobella/shop/models.py:12-304 | The empty shop meets every constraint |
| Shop.AddCategory | endobelle-backend/endobella/shop/models.py:33-51 | Adding a category succeeds exactly when the key and slug are free, the row fits, and the parent exists. Only the category table gains the row |
| Shop.AddCategoryKeepsValid | endobelle-backend/endobella/shop/models.py:33-51 | A successful category insert keeps the shop valid |
| Shop.AddTag | endobelle-backend/endobella/shop/models.py:54-61 | Adding a tag succeeds exactly when the key and slug are free and the row fits |
| Shop.AddTagKeepsValid | endobelle-backend/endobella/shop/models.py:54-61 | A successful tag insert keeps the shop valid |
| Shop.AddProduct | endobelle-backend/endobella/shop/models.py:64-124 | Adding a product succeeds exactly when the key and slug are free, the row fits, and its category and tags exist |
| Shop.AddProductKeepsValid | endobelle-backend/endobella/shop/models.py:64-124 | A successful product insert keeps the shop valid |
| Shop.AddVariant | endobelle-backend/endobella/shop/models.py:211-259 | A variant is refused for any of: a taken key, a missing product, a taken SKU, a taken (product, size, colour), a second default, or an out-of-range price or stock |
| Shop.AddVariantKeepsValid | endobelle-backend/endobella/shop/models.py:211-259 | A successful variant insert keeps the shop valid |
| Shop.SecondDefaultRefused | endobelle-backend/endobella/shop/models.py:252-257 | A second default variant of the same product is refused |
| Shop.AddImage | endobelle-backend/endobella/shop/models.py:266-280 | An image is accepted exactly when its key is free, its product exists, its file path fits the 100-character `ImageField` column and its alt text fits |
| Shop.AddImageKeepsValid | endobelle-backend/endobella/shop/models.py:266-280 | A successful image insert keeps the shop valid |
| Shop.AddReview | endobelle-backend/endobella/shop/models.py:286-304 | `save()`: a review is stored exactly when its key is free, its product exists, the rating fits the column (0 to 32767), and the user has not reviewed the product |
| Shop.AddValidatedReview | endobelle-backend/endobella/shop/models.py:294-297 | `full_clean()` then `save()`: stored exactly when the rating is 1 to 5 and the save accepts, with the same result; a rating outside 1 to 5 is refused |
| Shop.ValidatedReviewsStayRated | endobelle-backend/endobella/shop/models.py:294-297 | Validated saves keep every stored rating within 1 to 5 |
| Shop.AddReviewKeepsValid | endobelle-backend/endobella/shop/models.py:286-304 | A successful review insert keeps the shop valid |
| Shop.SecondReviewRefused | endobelle-backend/endobella/shop/models.py:304 | A user's second review of the same product is refused |
| ShopDelete.Cascade | endobelle-backend/endobella/shop/models.py:39-46 | The categories a cascading delete removes contain the start set, are categories, and hold every child of their members |
| ShopDelete.CascadeLeast | endobelle-backend/endobella/shop/models.py:39-46 | The cascade removes no more than it must: it lies inside every child-closed superset |
| ShopDelete.DeleteCategory | endobelle-backend/endobella/shop/models.py:39-87 | Deleting a category removes its whole subtree and sets the category of their products to null. Nothing else changes |
| ShopDelete.DeleteCategoryRemovesSubtree | endobelle-backend/endobella/shop/models.py:39-87 | The category is gone, and so is every category whose parent is gone, so the whole subtree goes; no product remains in a removed category |
| ShopDelete.DeleteCategoryKeepsValid | endobelle-backend/endobella/shop/models.py:39-87 | Deleting a category leaves no dangling parent or product category, so the shop stays valid |
| ShopDelete.DeleteProduct | endobelle-backend/endobella/shop/models.py:218-293 | Deleting a product removes exactly its variants, images and reviews. Everything else is unchanged |
| ShopDelete.DeleteProductKeepsValid | endobelle-backend/endobella/shop/models.py:218-293 | Deleting a product keeps the shop valid |
| ShopDelete.DeleteTag | endobelle-backend/endobella/shop/models.py:88-93 | Deleting a tag removes it and its links to products, and nothing else |
| ShopDelete.DeleteTagKeepsValid | endobelle-backend/endobella/shop/models.py:88-93 | Deleting a tag keeps the shop valid |
| ShopDelete.DeleteReviewer | endobelle-backend/endobella/shop/models.py:294 | Deleting a user removes exactly that user's reviews, and nothing else |
| ShopDelete.DeleteReviewerKeepsValid | endobelle-backend/endobella/shop/models.py:294 | Deleting a reviewer keeps the shop valid |
| ShopSchema.AttrLeqTotal | endobelle-backend/endobella/shop/models.py:259 | The variant order by size, then colour, is total |
| ShopSchema.AttrLeqTransitive | endobelle-backend/endobella/shop/models.py:259 | The variant order is transitive |
| ShopSchema.AttrLeqAntisymmetric | endobelle-backend/endobella/shop/models.py:259 | Variants that are each no later than the other share size and colour |
| ShopSchema.FirstExists | endobelle-backend/endobella/shop/models.py:161 | Every non-empty set of variants has a first member in the variant order |
| ShopSchema.FirstUnique | endobelle-backend/endobella/shop/models.py:251-259 | Because (product, size, colour) is unique, a product's first variant is unique |
| ShopSchema.ChosenVariant | endobelle-backend/endobella/shop/models.py:160-162 | The presented variant is absent exactly when the product has no variants. It belongs to the product, and is the default variant if there is one, else the first in the order |
| ShopSchema.DefaultIsChosen | endobelle-backend/endobella/shop/models.py:160-161 | A default variant is always the one presented |
| ShopSchema.FirstIsChosen | endobelle-backend/endobella/shop/models.py:161 | Without a default, the presented variant comes no later than any variant of the product |
| ShopSchema.RatingTruthyIffReviewed | endobelle-backend/endobella/shop/models.py:193-195 | With validated ratings (1 to 5), the average rating is truthy exactly when the product has reviews |
| ShopSchema.ZeroRatingsAreFalsy | endobelle-backend/endobella/shop/models.py:193-195 | A product whose reviews all rate 0 (a rating `save()` stores) has a falsy average |
| ShopSchema.Description | endobelle-backend/endobella/shop/models.py:173 | The short description, or the long one when the short is empty |
| ShopSchema.Offered | endobelle-backend/endobella/shop/models.py:166-191 | The product document names the product, describes it, and offers the variant's SKU and price. It is in stock exactly when the product is available and the variant has stock |
| ShopSchema.SchemaAsWritten | endobelle-backend/endobella/shop/models.py:158-202 | As written: the document is empty exactly when the product has no variant |
| ShopSchema.ProductSchemaOf | endobelle-backend/endobella/shop/models.py:158-202 | Corrected: empty exactly when there is no variant, and otherwise always a product document |
| ShopSchema.ReviewHidesProduct | endobelle-backend/endobella/shop/models.py:193-200 | As written, a product with a variant and a non-zero rating is published as a bare `AggregateRating`, and the product document is lost |
| ShopSchema.SchemaDescribesProduct | endobelle-backend/endobella/shop/models.py:158-202 | Corrected: a product with a variant is described by the presented variant, with a review count exactly when the average is truthy, which with validated ratings is exactly when it has reviews |
| ShopSchema.SchemaAgreesWithoutReviews | endobelle-backend/endobella/shop/models.py:193-200 | On products nobody has reviewed, the written and corrected documents are the same |
| ShopSchema.VariantLabel | endobelle-backend/endobella/shop/models.py:261-263 | The label starts with the product's name and is at least three characters longer |
| ShopSchema.LabelShowsAttributes | endobelle-backend/endobella/shop/models.py:261-263 | The label lists the set attributes in brackets: both, one, or "()" when none is set |
| ShopSchema.LabelsCollide | endobelle-backend/endobella/shop/models.py:251-263 | A variant sized `x` with no colour and one coloured `x` with no size are different combinations with the same label |
| ModeSwitch.ParseMode | endobelle-frontend/src/components/ui/ModeSwitch.tsx:11 | A parsed mode name prints back as given |
| ModeSwitch.ModeNameRoundTrip | endobelle-frontend/src/components/ui/ModeSwitch.tsx:11 | Every mode parses back from its name, which is among the cycle's names |
| ModeSwitch.IndexOf | endobelle-frontend/src/components/ui/ModeSwitch.tsx:21 | `indexOf` gives -1 exactly for an absent item, and otherwise its first position |
| ModeSwitch.NextName | endobelle-frontend/src/components/ui/ModeSwitch.tsx:20-24 | A click always lands on one of the three mode names |
| ModeSwitch.NextCycle | endobelle-frontend/src/components/ui/ModeSwitch.tsx:11-24 | Clicks go system, light, dark, system |
| ModeSwitch.ThreeClicksReturn | endobelle-frontend/src/components/ui/ModeSwitch.tsx:11-24 | Three clicks return to the start, every click changes the mode, and the clicks visit every mode |
| ModeSwitch.PrevInvertsNext | endobelle-frontend/src/components/ui/ModeSwitch.tsx:20-24 | The click is a bijection: one step back undoes it |
| ModeSwitch.NextNameAgrees | endobelle-frontend/src/components/ui/ModeSwitch.tsx:20-24 | The handler on names agrees with the cycle on modes, and an unknown name goes to "system" |
| ModeSwitch.IconShowsMode | endobelle-frontend/src/components/ui/ModeSwitch.tsx:26-35 | Two modes show the same icon exactly when they are the same mode |
| ModeSwitch.Render | endobelle-frontend/src/components/ui/ModeSwitch.tsx:16-42 | Nothing is rendered exactly when the mode is unknown |
| ModeSwitch.Click | endobelle-frontend/src/components/ui/ModeSwitch.tsx:16-24 | A click yields a mode exactly when one was known |
| ModeSwitch.ClickShowsNextIcon | endobelle-frontend/src/components/ui/ModeSwitch.tsx:20-42 | After a click the button shows the next mode's icon, and after three clicks the original icon |
| Text.Lower | endobelle-backend/endobella/auth/serializers.py:35 | Lower-casing keeps the length, lower-cases each character, and leaves an already lower-case string unchanged |
| Text.LowerIdempotent | backend/endobella/auth/models.py:36 | Lower-casing twice is lower-casing once |
| Text.Trim | endobelle-backend/endobella/auth/serializers.py:63-65 | The trimmed string is no longer than the input and has no space at either end. It is empty exactly for blank input, and an input without surrounding spaces is unchanged |
| Text.TrimStrips | endobelle-backend/endobella/auth/serializers.py:63-65 | What trimming keeps is a contiguous piece of the input with only white space before and after it |
| Text.TrimIdempotent | endobelle-backend/endobella/auth/serializers.py:63-65 | Trimming twice is trimming once |
| Text.NonEmpty | endobelle-backend/endobella/shop/models.py:262 | `filter(None, …)` keeps exactly the non-empty strings: everything kept is a non-empty member, and every non-empty member is kept |
| Text.JoinSplit | backend/endobella/articles/views.py:27 | Joining the pieces of `split(sep)` with the separator gives the string back |
| Text.SplitJoin | backend/endobella/articles/views.py:27 | Splitting separator-free pieces joined with the separator gives the pieces back |

## Left out

- Text.Lower, Text.Trim: ASCII only. `Trim` removes every ASCII character Python's `strip()` removes (space, 9 to 13, and the separators 28 to 31). Python's `lower()` and `strip()` also handle non-ASCII letters and whitespace (such as U+0085 and U+00A0), and the model does not.
- Database collation: ordering by title compares code points, not the database's collation. `NULL` publish dates sort last in ascending order.
- ArticleViews.Sort: the order of rows that tie on every key is not stated, because the database does not fix it either.
- ArticleViews.ParseKey: follows DRF's current `remove_invalid_fields`, which drops one leading `-`. Older DRF releases also matched the term against a pattern; that check is not modelled.
- ArticleViews.Searched: search terms arrive already split into a list. DRF's splitting of the `search` parameter is not modelled.
- Password hashing: `set_password` stores `Hashed(raw)` and `check_password` compares raw strings through it. The hash itself is not modelled.
- Outside code as parameters: the token generator, the uid decoding, the password validators, the email-format check, Django's URL and slug validators and JWT minting are oracles.
- Articles.FieldErrors: the foreign-key check that the author exists is not modelled, because the user table is a separate module. Choice fields cannot hold a value outside their choices in the model, so their validation is implicit.
- Accounts.Fits: the `password` column's varchar(128) is not modelled, because the stored hash is not modelled.
- Email sending: every "send email here" step is a no-op in the source too, so it is absent from the model.
- djoser's own views: `set_password`, `set_username`, `reset_username`, their confirmations and `reset_password_confirm` only call djoser. djoser is not part of this model. The same holds for the `me` endpoint, the user listing and the retrieve and update detail routes. The last three serialize with the same declared field list as the other user views. Deletion is modelled because it is the one detail route that would write.
- djoser's JWT routes: `jwt/refresh/` and `jwt/verify/` only check or renew a token, and write nothing to the user store. simplejwt's token format is not part of this model. `jwt/create/` is modelled as `TokenCreate`, since it is the route listed first.
- Authentication: how a token authenticates a request is not modelled. `AuthViews.Authenticated` takes the key the token names and asks only that the user exists and is active, as simplejwt's authentication does.
- AuthSerializers.Column: knows the user columns the model keeps and the `name` property. `password`, `last_login`, `date_joined`, `groups` and `user_permissions` would also build in DRF but are treated as not building. No field list in the source names them.
- AuthSerializers.EmailField: the error messages of DRF's own validators are reported as constants. Their translations are not modelled.
- ArticleViews.ParseFilter: a refusal names the refused parameters. The message text django-filter puts under each name is not modelled.
- ArticleViews.Query: each filter parameter is sent at most once. For a repeated parameter django-filter reads the last value, and that is not modelled.
- Settings: the authentication rule is taken at its default (only active users), and djoser's settings at theirs.
- AuthViews.ActivationGrantsTokens: stated only for users whose email key has no surrounding whitespace. `create_user(" a@b ")` keeps the padded key, and then even corrected activation answers 401, because the token serializer trims the email before looking it up.
- AuthViews.PaddedPasswordLocksOut: claims the 401 only when the user's key is already trimmed and holds no null character. With a key that has surrounding spaces, another user stored under the trimmed key could be the one the token serializer finds. A key with a null character is refused by the token serializer's email field with 400.
- ShopSchema.SchemaAsWritten: `round(avg, 2)` is not computed. The model keeps only whether the average is truthy and the review count. `RatingTruthy` relies on ratings never being negative, which the `PositiveSmallIntegerField` column ensures. The 1-to-5 validators run only in `full_clean`, so `RatingTruthyIffReviewed` is stated for validated ratings.
- ShopSchema.Offered: images, `build_absolute_uri`, the fixed brand and currency, and `json.dumps` are not modelled. Prices are hundredths, not `str(Decimal)`.
- Product columns: the generative-search JSON columns (`gaio_*`) and `discount_price` are opaque or absent. No constraint depends on them.
- Shop updates: changes to an existing shop row are not modelled, only inserts and deletes.
- Review users: the user table behind `Review.user` is not modelled, so deleting a user is modelled only through its reviews.
- Article tags (`TaggableManager`) are a set of strings, and the CKEditor content is a plain string.
- Articles admin and article serializers: they present data and are not modelled.
- Layout components: the front end's layout components are presentation only and are not modelled.

## Findings

| source | as written | input that shows it | evidently intended | confidence | as-written member | corrected member |
|---|---|---|---|---|---|---|
| backend/endobella/auth/views.py:76-85 | Activation validates the trimmed password but stores the raw `request.data["password"]`. It then requests tokens with that raw value, and the token serializer trims it. | An inactive user with a valid link activates with password `" x"`. The account becomes active with `" x"` stored, and the response is 401. No later login can ever match. | Store the validated (trimmed) password, so that activation answers 200 with tokens. | medium; not executed. Relies on DRF's `CharField` trimming by default | AuthViews.ActivationAsWritten, AuthViews.PaddedPasswordLocksOut, AuthViews.PaddedPasswordExample | AuthViews.Activation, AuthViews.ActivationGrantsTokens |
| backend/endobella/auth/views.py:175-179 | Email login answers with `{"user": user, …}`, where `user` is the model instance, not its serialized form. | A well-formed email of a stored user. DRF's JSON encoder has no case for a model instance, so rendering raises `TypeError` and the answer is 500. | Put `UserSerializer(user).data` in the context, so that the answer is 204 with the user's data. | medium; not executed. Relies on DRF's JSON encoder refusing model instances | AuthViews.EmailLoginAsWritten, AuthViews.KnownEmailFailsAsWritten | AuthViews.EmailLogin |
| endobelle-backend/endobella/auth/serializers.py:22 | `USER_FIELDS` names `dt_created` and `dt_updated`, but the common base model declares these columns as `created_at` and `updated_at` (backend/endobella/common/models.py, lines 8 and 9; the serializers and the model files sit in two different trees of the repository). `ModelSerializer` raises `ImproperlyConfigured` for a field name that is neither a column nor an attribute. | Any successful activation reads `user_serializer.data` (views.py line 90) and answers 500 after the user was already written. A valid activation link, a create-by-token request and every sign-up also answer 500. | Name the base model's columns, `created_at` and `updated_at`, so each view answers with the user's data. | medium; not executed. Relies on the model files shown being the ones deployed with these serializers | AuthSerializers.UserFieldsDoNotBuild, AuthViews.ActivationAsWritten, AuthViews.LinkCheckFailsAsWritten, AuthViews.TokenByLinkFailsAsWritten, AuthViews.SignUpAsWritten | AuthSerializers.Serialize, AuthViews.Activation, AuthViews.ValidateActivationLink, AuthViews.CreateByToken |
| backend/endobella/auth/views.py:28 | `lookup_field = "hid"`, but the user model has no `hid` field. The detail routes look the user up with `hid=<value>`, and DRF's `get_object_or_404` does not catch the resulting `FieldError`. | An authenticated user sends `DELETE users/<anything>/` with the right current password. The lookup raises, the answer is 500, and the user stays. | The primary-key lookup, which finds the caller, checks the current password and deletes the caller with 204. | medium; not executed. Relies on the user model shown being complete | AuthViews.DestroyAsWritten, AuthViews.DestroyFailsAsWritten | AuthViews.Destroy |
| endobelle-backend/endobella/shop/models.py:193-200 | Once the product has a rating, the whole `schema` is replaced by an `AggregateRating` object. | A product with one variant and one 5-star review. Its JSON-LD has no name, SKU or offer. | Nest the rating inside the product document, as schema.org's `aggregateRating` property. | high; not executed | ShopSchema.SchemaAsWritten, ShopSchema.ReviewHidesProduct | ShopSchema.ProductSchemaOf, ShopSchema.SchemaDescribesProduct |

=== FILE: accounts.dfy ===
/** The account store and its manager (`auth/models.py`): users identified by a
    lower-cased email that is unique ignoring case, created by `create_user`
    and `create_superuser`.

    The store maps each user's email to the user. Because the manager
    lower-cases every email before saving, the key is the stored email itself,
    and the case-insensitive unique constraint on `Lower(email)` becomes
    "at most one user per key". */
module Accounts {
  import opened Wrappers
  import opened Text
  import opened Base

  /** `set_password(raw)` stores a hash of `raw`; the hash function is not
      modelled, so the model keeps `raw` under a tag. `Unset` is the empty
      password column a user gets when no password was ever set. */
  datatype Password = Unset | Hashed(raw: string)

  datatype User = User(
    stamp: Stamp,
    email: string,
    firstName: string,
    lastName: string,
    password: Password,
    isActive: bool,
    isStaff: bool,
    isSuperuser: bool)

  type Store = map<string, User>

  /** A model `EmailField` without an explicit `max_length` is varchar(254). */
  const EmailMax := 254
  /** `AbstractUser`'s `first_name` and `last_name` are varchar(150). */
  const NameMax := 150

  /** The `varchar` bounds the user table puts on a row. */
  predicate Fits(u: User) {
    |u.email| <= EmailMax && |u.firstName| <= NameMax && |u.lastName| <= NameMax
  }

  /** The invariant the modelled creation paths keep on the user table: each
      user is filed under its own email, which is non-empty and lower-case
      (`create_user` normalizes it; the database itself would store any case),
      every row fits its columns, and primary keys are distinct. */
  predicate Valid(store: Store) {
    && (forall k | k in store :: store[k].email == k && k != "" && IsLower(k) && Fits(store[k]))
    && (forall a, b | a in store && b in store && a != b :: store[a].stamp.id != store[b].stamp.id)
  }

  /** What the constraints say of one stored user. */
  lemma StoredUser(store: Store, k: string)
    requires Valid(store) && k in store
    ensures store[k].email == k && k != "" && IsLower(k) && Fits(store[k])
  {
  }

  function Ids(store: Store): set<Id> {
    set k | k in store :: store[k].stamp.id
  }

  /** Rewriting one user without touching its email or primary key keeps
      the store's constraints. */
  lemma UpdateKeepsValid(store: Store, k: string, u: User)
    requires Valid(store) && k in store
    requires u.email == k && u.stamp.id == store[k].stamp.id
    requires Fits(u)
    ensures Valid(store[k := u]) && store[k := u].Keys == store.Keys
  {
    var next := store[k := u];
    forall a, b | a in next && b in next && a != b
      ensures next[a].stamp.id != next[b].stamp.id
    {
      assert next[a].stamp.id == store[a].stamp.id;
      assert next[b].stamp.id == store[b].stamp.id;
    }
  }

  /** The `user_email_case_insensitive_uniqueness` constraint: two different
      users never have emails that agree after lower-casing. */
  lemma EmailsUniqueIgnoringCase(store: Store, a: string, b: string)
    requires Valid(store) && a in store && b in store && a != b
    ensures Lower(store[a].email) != Lower(store[b].email)
  {
  }

  /** `UserManager.normalize_email`: a missing or empty email becomes "",
      anything else is lower-cased as a whole (domain and local part alike). */
  function NormalizeEmail(email: Option<string>): (r: string)
    ensures IsLower(r)
    ensures r == "" <==> email == None || email == Some("")
    ensures email.Some? ==> |r| == |email.value| && Lower(r) == Lower(email.value)
  {
    Lower(email.GetOr(""))
  }

  /** Normalizing an already normalized email changes nothing. */
  lemma NormalizeEmailIdempotent(email: Option<string>)
    ensures NormalizeEmail(Some(NormalizeEmail(email))) == NormalizeEmail(email)
  {
  }

  /** The keyword arguments a caller may pass on to the model. `None` is a key
      that was not passed; `AbstractUser` then supplies `is_active = True`,
      `is_staff = False` and `is_superuser = False`. */
  datatype Extra = Extra(
    firstName: string,
    lastName: string,
    isActive: Option<bool>,
    isStaff: Option<bool>,
    isSuperuser: Option<bool>)

  datatype ManagerError =
    | EmailRequired     // "The Email is required."
    | MustBeStaff       // "Superuser must have is_staff=True."
    | MustBeSuperuser   // "Superuser must have is_superuser=True."
    | TooLong           // a value exceeds its `varchar` column on insert
    | EmailTaken        // the unique constraint on the email fails on insert
    | IdTaken           // the primary key is already in use

  /** Python truthiness of an optional password. */
  predicate Truthy(password: Option<string>) {
    password.Some? && password.value != ""
  }

  /** Whether a user with this email and these names fits the user table. */
  predicate FitsColumns(email: string, extra: Extra) {
    |email| <= EmailMax && |extra.firstName| <= NameMax && |extra.lastName| <= NameMax
  }

  function CreateUser(store: Store, email: Option<string>, password: Option<string>,
                      extra: Extra, id: Id, now: Time): (r: Result<Store, ManagerError>)
    requires Valid(store)
    ensures !Truthy(email) ==> r == Failure(EmailRequired)
    ensures Truthy(email) && !FitsColumns(NormalizeEmail(email), extra) ==> r == Failure(TooLong)
    ensures r.Success? <==>
              && Truthy(email) && FitsColumns(NormalizeEmail(email), extra)
              && NormalizeEmail(email) !in store && id !in Ids(store)
    ensures r.Success? ==>
              var e := NormalizeEmail(email);
              && Valid(r.value)
              && r.value.Keys == store.Keys + {e}
              && (forall k | k in store :: r.value[k] == store[k])
              && r.value[e].email == e && Lower(e) == Lower(email.value)
              && r.value[e].stamp == Inserted(id, now)
              && r.value[e].password == (if Truthy(password) then Hashed(password.value) else Unset)
              && r.value[e].isActive == extra.isActive.GetOr(true)
              && r.value[e].isStaff == extra.isStaff.GetOr(false)
              && r.value[e].isSuperuser == extra.isSuperuser.GetOr(false)
              && r.value[e].firstName == extra.firstName
              && r.value[e].lastName == extra.lastName
  {
    if !Truthy(email) then Failure(EmailRequired)
    else
      var e := NormalizeEmail(email);
      var user := User(Inserted(id, now), e, extra.firstName, extra.lastName,
                       if Truthy(password) then Hashed(password.value) else Unset,
                       extra.isActive.GetOr(true), extra.isStaff.GetOr(false),
                       extra.isSuperuser.GetOr(false));
      if !Fits(user) then Failure(TooLong)
      else if e in store then Failure(EmailTaken)
      else if id in Ids(store) then Failure(IdTaken)
      else Success(store[e := user])
  }

  function CreateSuperuser(store: Store, email: Option<string>, password: Option<string>,
                           extra: Extra, id: Id, now: Time): (r: Result<Store, ManagerError>)
    requires Valid(store)
    ensures extra.isStaff == Some(false) ==> r == Failure(MustBeStaff)
    ensures extra.isStaff != Some(false) && extra.isSuperuser == Some(false) ==>
              r == Failure(MustBeSuperuser)
    ensures r.Success? <==>
              && extra.isStaff != Some(false) && extra.isSuperuser != Some(false)
              && Truthy(email) && FitsColumns(NormalizeEmail(email), extra)
              && NormalizeEmail(email) !in store && id !in Ids(store)
    ensures r.Success? ==>
              var e := NormalizeEmail(email);
              && Valid(r.value)
              && r.value.Keys == store.Keys + {e}
              && (forall k | k in store :: r.value[k] == store[k])
              && r.value[e].isStaff && r.value[e].isSuperuser
              && r.value[e].isActive == extra.isActive.GetOr(true)
  {
    // `setdefault(key, True)` keeps a passed flag and fills in `True` otherwise.
    var staff := extra.isStaff.GetOr(true);
    var superuser := extra.isSuperuser.GetOr(true);
    if !staff then Failure(MustBeStaff)
    else if !superuser then Failure(MustBeSuperuser)
    else CreateUser(store, email, password,
                    extra.(isStaff := Some(staff), isSuperuser := Some(superuser),
                           isActive := Some(extra.isActive.GetOr(true))), id, now)
  }

  /** The `name` property. */
  function Name(u: User): (r: string)
    ensures |r| == |u.firstName| + 1 + |u.lastName|
    ensures r[..|u.firstName|] == u.firstName
    ensures r[|u.firstName|] == ' '
    ensures r[|u.firstName| + 1..] == u.lastName
  {
    u.firstName + " " + u.lastName
  }

  predicate HasPassword(u: User) {
    u.password.Hashed?
  }

  /** `check_password(raw)`: an empty password column matches nothing. */
  predicate CheckPassword(u: User, raw: string) {
    u.password == Hashed(raw)
  }
}

=== FILE: article_views.dfy ===
/** The public article endpoints (`articles/views.py`): a read-only view set
    over the published articles, looked up by slug, with exact-match filters,
    a case-insensitive search over title, excerpt and content, and ordering on
    four columns, most recently created first by default.

    The list is the pipeline published -> filters -> search -> sort over the
    rows of the article table. */
module ArticleViews {
  import opened Wrappers
  import opened Text
  import opened Base
  import opened Articles

  /** The view set's queryset: published articles only, in table order. */
  function Published(t: Table): (r: Table)
    ensures |r| <= |t|
    ensures forall a :: a in r <==> a in t && a.isPublished
  {
    if t == [] then []
    else if t[0].isPublished then [t[0]] + Published(t[1..])
    else Published(t[1..])
  }

  /** The query parameters of `ArticleFilterSet`. `None` is a parameter that
      was not sent. Any other parameter, such as `category`, is not a filter
      and is ignored. */
  datatype Filter = Filter(
    slug: Option<string>,
    title: Option<string>,
    excerpt: Option<string>,
    publishDate: Option<Time>,
    isFeatured: Option<bool>,
    isPublished: Option<bool>,
    articleType: Option<ArticleType>,
    author: Option<Id>)

  function NoFilter(): Filter {
    Filter(None, None, None, None, None, None, None, None)
  }

  /** Each sent parameter must equal the article's column exactly. */
  predicate Matches(f: Filter, a: Article) {
    && (f.slug.Some? ==> a.slug == f.slug.value)
    && (f.title.Some? ==> a.title == f.title.value)
    && (f.excerpt.Some? ==> a.excerpt == f.excerpt.value)
    && (f.publishDate.Some? ==> a.publishDate == f.publishDate)
    && (f.isFeatured.Some? ==> a.isFeatured == f.isFeatured.value)
    && (f.isPublished.Some? ==> a.isPublished == f.isPublished.value)
    && (f.articleType.Some? ==> a.articleType == f.articleType.value)
    && (f.author.Some? ==> a.author == f.author)
  }

  /** An empty filter set lets every article through. */
  lemma NoFilterMatchesAll(a: Article)
    ensures Matches(NoFilter(), a)
  {
  }

  function Filtered(f: Filter, t: Table): (r: Table)
    ensures |r| <= |t|
    ensures forall a :: a in r <==> a in t && Matches(f, a)
  {
    if t == [] then []
    else if Matches(f, t[0]) then [t[0]] + Filtered(f, t[1..])
    else Filtered(f, t[1..])
  }

  /** The filter parameters as sent in the query string, each raw; `None` is
      a parameter that was not sent. */
  datatype Query = Query(
    slug: Option<string>,
    title: Option<string>,
    excerpt: Option<string>,
    publishDate: Option<string>,
    isFeatured: Option<string>,
    isPublished: Option<string>,
    articleType: Option<string>,
    author: Option<string>)

  /** A text filter (`CharFilter`, a stripping form `CharField`): a value
      that strips to nothing is no filter at all, any other value is stripped. */
  function TextFilter(p: Option<string>): (r: Option<string>)
    ensures r.None? <==> p.None? || IsBlank(p.value)
    ensures r.Some? ==> r.value == Trim(p.value) && r.value != ""
  {
    if p.None? || Trim(p.value) == "" then None else Some(Trim(p.value))
  }

  /** A text filter's one validator: the stripped value holds no null
      character. */
  predicate TextBad(p: Option<string>) {
    p.Some? && '\0' in Trim(p.value)
  }

  /** A boolean filter reads its value through Django's `NullBooleanSelect`:
      "True", "true" and "2" mean true, "False", "false" and "3" mean false,
      and any other value, unstripped, means no filter, never an error. */
  function BoolFilter(p: Option<string>): (r: Option<bool>)
    ensures r == Some(true) <==> p.Some? && p.value in {"True", "true", "2"}
    ensures r == Some(false) <==> p.Some? && p.value in {"False", "false", "3"}
  {
    match p
    case None => None
    case Some(v) =>
      if v == "True" || v == "true" || v == "2" then Some(true)
      else if v == "False" || v == "false" || v == "3" then Some(false)
      else None
  }

  /** The date filter: an empty value is no filter; any other value is
      stripped and must parse as a date-time, so a blank but non-empty value
      is an error. */
  predicate DateBad(parseTime: string -> Option<Time>, p: Option<string>) {
    p.Some? && p.value != "" && (Trim(p.value) == "" || parseTime(Trim(p.value)).None?)
  }

  /** The date a valid date parameter filters on. */
  function DateFilter(parseTime: string -> Option<Time>, p: Option<string>): (r: Option<Time>)
    ensures r.Some? ==> p.Some? && p.value != "" && r == parseTime(Trim(p.value))
    ensures !DateBad(parseTime, p) ==> (r.None? <==> p.None? || p.value == "")
  {
    if p.None? || p.value == "" then None else parseTime(Trim(p.value))
  }

  /** The type filter (`ChoiceFilter`): the value, unstripped, must be one
      of the choices. */
  predicate TypeBad(p: Option<string>) {
    p.Some? && p.value != "" && ParseType(p.value).None?
  }

  /** The type a valid type parameter filters on. */
  function TypeFilter(p: Option<string>): (r: Option<ArticleType>)
    ensures r.Some? ==> p.Some? && TypeValue(r.value) == p.value
    ensures !TypeBad(p) ==> (r.None? <==> p.None? || p.value == "")
  {
    if p.None? || p.value == "" then None else ParseType(p.value)
  }

  /** The author filter (`ModelChoiceFilter` over all users): the value,
      unstripped, must be the key of a stored user. */
  predicate AuthorBad(parseId: string -> Option<Id>, users: set<Id>, p: Option<string>) {
    p.Some? && p.value != "" && (parseId(p.value).None? || parseId(p.value).value !in users)
  }

  /** The user a valid author parameter filters on. */
  function AuthorFilter(parseId: string -> Option<Id>, users: set<Id>, p: Option<string>): (r: Option<Id>)
    ensures r.Some? ==> p.Some? && p.value != "" && r == parseId(p.value)
    ensures !AuthorBad(parseId, users, p) ==>
              (r.None? <==> p.None? || p.value == "") && (r.Some? ==> r.value in users)
  {
    if p.None? || p.value == "" then None else parseId(p.value)
  }

  /** The filter parameters that can be refused. */
  datatype Param = SlugParam | TitleParam | ExcerptParam | PublishDateParam | ArticleTypeParam | AuthorParam

  /** The name a refused parameter is reported under. */
  function ParamName(p: Param): string {
    match p
    case SlugParam => "slug"
    case TitleParam => "title"
    case ExcerptParam => "excerpt"
    case PublishDateParam => "publish_date"
    case ArticleTypeParam => "article_type"
    case AuthorParam => "author"
  }

  const AllParams: set<Param> := {SlugParam, TitleParam, ExcerptParam, PublishDateParam, ArticleTypeParam, AuthorParam}

  /** Whether the filter set's form refuses the value of one parameter. */
  predicate Refused(q: Query, parseTime: string -> Option<Time>, parseId: string -> Option<Id>,
                    users: set<Id>, p: Param) {
    match p
    case SlugParam => TextBad(q.slug)
    case TitleParam => TextBad(q.title)
    case ExcerptParam => TextBad(q.excerpt)
    case PublishDateParam => DateBad(parseTime, q.publishDate)
    case ArticleTypeParam => TypeBad(q.articleType)
    case AuthorParam => AuthorBad(parseId, users, q.author)
  }

  /** The parameters whose value the filter set's form refuses: every one of
      them is reported, not just the first. */
  function QueryErrors(q: Query, parseTime: string -> Option<Time>, parseId: string -> Option<Id>,
                       users: set<Id>): (r: set<Param>)
    ensures forall p :: p in r <==> Refused(q, parseTime, parseId, users, p)
  {
    set p | p in AllParams && Refused(q, parseTime, parseId, users, p)
  }

  /** `ArticleFilterSet`'s form: the names of the refused parameters (the
      backend answers 400 with them), or the filter the valid parameters make,
      where an empty parameter filters nothing. The date and user-key parsers
      are parameters; `users` holds the keys of the stored users. */
  function ParseFilter(q: Query, parseTime: string -> Option<Time>, parseId: string -> Option<Id>,
                       users: set<Id>): (r: Result<Filter, set<Param>>)
    ensures r.Failure? <==> QueryErrors(q, parseTime, parseId, users) != {}
    ensures r.Failure? ==> r.error == QueryErrors(q, parseTime, parseId, users)
    ensures r.Success? ==>
              r.value == Filter(TextFilter(q.slug), TextFilter(q.title), TextFilter(q.excerpt),
                                DateFilter(parseTime, q.publishDate),
                                BoolFilter(q.isFeatured), BoolFilter(q.isPublished),
                                TypeFilter(q.articleType), AuthorFilter(parseId, users, q.author))
  {
    var errors := QueryErrors(q, parseTime, parseId, users);
    if errors != {} then Failure(errors)
    else
      Success(Filter(TextFilter(q.slug), TextFilter(q.title), TextFilter(q.excerpt),
                     DateFilter(parseTime, q.publishDate),
                     BoolFilter(q.isFeatured), BoolFilter(q.isPublished),
                     TypeFilter(q.articleType), AuthorFilter(parseId, users, q.author)))
  }

  /** A parameter that was not sent, or sent empty. */
  predicate Unsent(p: Option<string>) {
    p.None? || p.value == ""
  }

  /** An unsent parameter is refused by no filter and filters nothing. */
  lemma UnsentParam(parseTime: string -> Option<Time>, parseId: string -> Option<Id>, users: set<Id>,
                    p: Option<string>)
    requires Unsent(p)
    ensures !TextBad(p) && !DateBad(parseTime, p) && !TypeBad(p) && !AuthorBad(parseId, users, p)
    ensures TextFilter(p).None? && BoolFilter(p).None? && DateFilter(parseTime, p).None?
            && TypeFilter(p).None? && AuthorFilter(parseId, users, p).None?
  {
    if p.Some? {
      assert Trim(p.value) == "";
    }
  }

  /** A query that sends no parameter, or only empty ones, filters nothing. */
  lemma EmptyQueryFiltersNothing(q: Query, parseTime: string -> Option<Time>, parseId: string -> Option<Id>,
                                 users: set<Id>)
    requires Unsent(q.slug) && Unsent(q.title) && Unsent(q.excerpt) && Unsent(q.publishDate)
    requires Unsent(q.isFeatured) && Unsent(q.isPublished) && Unsent(q.articleType) && Unsent(q.author)
    ensures ParseFilter(q, parseTime, parseId, users) == Success(NoFilter())
  {
    UnsentParam(parseTime, parseId, users, q.slug);
    UnsentParam(parseTime, parseId, users, q.title);
    UnsentParam(parseTime, parseId, users, q.excerpt);
    UnsentParam(parseTime, parseId, users, q.publishDate);
    UnsentParam(parseTime, parseId, users, q.isFeatured);
    UnsentParam(parseTime, parseId, users, q.isPublished);
    UnsentParam(parseTime, parseId, users, q.articleType);
    UnsentParam(parseTime, parseId, users, q.author);
    assert forall p :: !Refused(q, parseTime, parseId, users, p);
    assert QueryErrors(q, parseTime, parseId, users) == {};
  }

  /** The text of a boolean filter value as a client sends it. */
  function BoolText(b: bool): string {
    if b then "true" else "false"
  }

  /** How a client sends an optional value, given how it writes one. */
  function Sent<T>(v: Option<T>, show: T -> string): Option<string> {
    if v.None? then None else Some(show(v.value))
  }

  /** The query a client sends for a filter, given how it writes dates and
      user keys. */
  function QueryOf(f: Filter, showTime: Time -> string, showId: Id -> string): Query {
    Query(f.slug, f.title, f.excerpt, Sent(f.publishDate, showTime),
          Sent(f.isFeatured, BoolText), Sent(f.isPublished, BoolText),
          Sent(f.articleType, TypeValue), Sent(f.author, showId))
  }

  /** A text filter value a client can send: not blank, nothing to strip and
      no null character. */
  predicate Sendable(p: Option<string>) {
    p.Some? ==> p.value != "" && Trim(p.value) == p.value && '\0' !in p.value
  }

  lemma TextRoundTrip(p: Option<string>)
    requires Sendable(p)
    ensures !TextBad(p) && TextFilter(p) == p
  {
  }

  lemma BoolRoundTrip(b: Option<bool>)
    ensures BoolFilter(Sent(b, BoolText)) == b
  {
  }

  lemma DateRoundTrip(d: Option<Time>, parseTime: string -> Option<Time>, showTime: Time -> string)
    requires d.Some? ==> var text := showTime(d.value);
                         text != "" && Trim(text) == text && parseTime(text) == d
    ensures !DateBad(parseTime, Sent(d, showTime)) && DateFilter(parseTime, Sent(d, showTime)) == d
  {
  }

  lemma TypeParamRoundTrip(t: Option<ArticleType>)
    ensures !TypeBad(Sent(t, TypeValue)) && TypeFilter(Sent(t, TypeValue)) == t
  {
    if t.Some? {
      TypeRoundTrip(t.value);
      assert TypeValue(t.value) != "";
    }
  }

  lemma AuthorRoundTrip(a: Option<Id>, parseId: string -> Option<Id>, showId: Id -> string, users: set<Id>)
    requires a.Some? ==> showId(a.value) != "" && parseId(showId(a.value)) == a && a.value in users
    ensures !AuthorBad(parseId, users, Sent(a, showId)) && AuthorFilter(parseId, users, Sent(a, showId)) == a
  {
  }

  /** What a filter needs to survive being sent: its text values can be sent
      as they are, the date is written in a form that parses back to it, and
      the author is a stored user whose key is written in a form that parses
      back to it. */
  predicate RoundTrips(f: Filter, parseTime: string -> Option<Time>, showTime: Time -> string,
                       parseId: string -> Option<Id>, showId: Id -> string, users: set<Id>) {
    && Sendable(f.slug) && Sendable(f.title) && Sendable(f.excerpt)
    && (f.publishDate.Some? ==>
          var text := showTime(f.publishDate.value);
          text != "" && Trim(text) == text && parseTime(text) == f.publishDate)
    && (f.author.Some? ==>
          showId(f.author.value) != "" && parseId(showId(f.author.value)) == f.author && f.author.value in users)
  }

  /** Sending a filter and parsing it gives the filter back. */
  lemma FilterRoundTrip(f: Filter, parseTime: string -> Option<Time>, showTime: Time -> string,
                        parseId: string -> Option<Id>, showId: Id -> string, users: set<Id>)
    requires RoundTrips(f, parseTime, showTime, parseId, showId, users)
    ensures ParseFilter(QueryOf(f, showTime, showId), parseTime, parseId, users) == Success(f)
  {
    SentQueryValid(f, parseTime, showTime, parseId, showId, users);
    SentQueryFilters(f, parseTime, showTime, parseId, showId, users);
  }

  lemma SentQueryValid(f: Filter, parseTime: string -> Option<Time>, showTime: Time -> string,
                       parseId: string -> Option<Id>, showId: Id -> string, users: set<Id>)
    requires RoundTrips(f, parseTime, showTime, parseId, showId, users)
    ensures QueryErrors(QueryOf(f, showTime, showId), parseTime, parseId, users) == {}
  {
    var q := QueryOf(f, showTime, showId);
    TextRoundTrip(f.slug);
    TextRoundTrip(f.title);
    TextRoundTrip(f.excerpt);
    DateRoundTrip(f.publishDate, parseTime, showTime);
    TypeParamRoundTrip(f.articleType);
    AuthorRoundTrip(f.author, parseId, showId, users);
    assert forall p :: !Refused(q, parseTime, parseId, users, p);
  }

  lemma SentQueryFilters(f: Filter, parseTime: string -> Option<Time>, showTime: Time -> string,
                         parseId: string -> Option<Id>, showId: Id -> string, users: set<Id>)
    requires RoundTrips(f, parseTime, showTime, parseId, showId, users)
    ensures var q := QueryOf(f, showTime, showId);
            Filter(TextFilter(q.slug), TextFilter(q.title), TextFilter(q.excerpt),
                   DateFilter(parseTime, q.publishDate),
                   BoolFilter(q.isFeatured), BoolFilter(q.isPublished),
                   TypeFilter(q.articleType), AuthorFilter(parseId, users, q.author)) == f
  {
    TextRoundTrip(f.slug);
    TextRoundTrip(f.title);
    TextRoundTrip(f.excerpt);
    DateRoundTrip(f.publishDate, parseTime, showTime);
    BoolRoundTrip(f.isFeatured);
    BoolRoundTrip(f.isPublished);
    TypeParamRoundTrip(f.articleType);
    AuthorRoundTrip(f.author, parseId, showId, users);
  }

  /** One search term matches an article when it occurs, ignoring case, in
      the title, the excerpt or the content. */
  predicate TermMatches(term: string, a: Article) {
    ContainsIgnoringCase(a.title, term) || ContainsIgnoringCase(a.excerpt, term)
    || ContainsIgnoringCase(a.content, term)
  }

  /** Every term of the search must match; no terms match everything. */
  predicate SearchMatches(terms: seq<string>, a: Article) {
    forall i :: 0 <= i < |terms| ==> TermMatches(terms[i], a)
  }

  function Searched(terms: seq<string>, t: Table): (r: Table)
    ensures |r| <= |t|
    ensures forall a :: a in r <==> a in t && SearchMatches(terms, a)
  {
    if t == [] then []
    else if SearchMatches(terms, t[0]) then [t[0]] + Searched(terms, t[1..])
    else Searched(terms, t[1..])
  }

  /** The columns the list may be ordered by. */
  datatype Field = CreatedAt | UpdatedAt | PublishDate | Title

  /** One sort key: a column, ascending or descending. */
  datatype Key = Key(field: Field, descending: bool)

  /** The sort keys in priority order: the first key on which two articles
      differ decides. */
  type Ordering = seq<Key>

  /** `ordering = ["-created_at"]`. */
  function DefaultOrdering(): Ordering {
    [Key(CreatedAt, true)]
  }

  function FieldName(f: Field): string {
    match f
    case CreatedAt => "created_at"
    case UpdatedAt => "updated_at"
    case PublishDate => "publish_date"
    case Title => "title"
  }

  function ParseField(name: string): (r: Option<Field>)
    ensures r.Some? ==> FieldName(r.value) == name
  {
    if name == "created_at" then Some(CreatedAt)
    else if name == "updated_at" then Some(UpdatedAt)
    else if name == "publish_date" then Some(PublishDate)
    else if name == "title" then Some(Title)
    else None
  }

  /** The text of a key, as a client sends it. */
  function KeyParam(k: Key): string {
    (if k.descending then "-" else "") + FieldName(k.field)
  }

  /** One stripped term of the parameter: an allowed column, with one
      leading `-` for descending order. Any other term is not a key. */
  function ParseKey(term: string): (r: Option<Key>)
    ensures r.Some? ==> KeyParam(r.value) == term
  {
    var descending := |term| > 0 && term[0] == '-';
    var name := if descending then term[1..] else term;
    match ParseField(name)
    case None => None
    case Some(f) =>
      assert term == (if descending then "-" else "") + name;
      Some(Key(f, descending))
  }

  /** The keys of the valid terms, each term stripped first, in the order
      sent; invalid terms are dropped. */
  function ValidKeys(terms: seq<string>): (r: Ordering)
    ensures |r| <= |terms|
  {
    if terms == [] then []
    else
      match ParseKey(Trim(terms[0]))
      case None => ValidKeys(terms[1..])
      case Some(k) => [k] + ValidKeys(terms[1..])
  }

  /** No key survives exactly when no stripped term names an allowed column. */
  lemma {:induction false} NoValidKeys(terms: seq<string>)
    ensures ValidKeys(terms) == [] <==> forall i :: 0 <= i < |terms| ==> ParseKey(Trim(terms[i])).None?
  {
    if terms != [] {
      NoValidKeys(terms[1..]);
      if ParseKey(Trim(terms[0])).Some? {
        assert ValidKeys(terms) != [];
      } else {
        assert ValidKeys(terms) == ValidKeys(terms[1..]);
        if ValidKeys(terms[1..]) == [] {
          forall i | 0 <= i < |terms|
            ensures ParseKey(Trim(terms[i])).None?
          {
            if i > 0 {
              assert terms[i] == terms[1..][i - 1];
            }
          }
        } else {
          var j :| 0 <= j < |terms| - 1 && ParseKey(Trim(terms[1..][j])).Some?;
          assert terms[1..][j] == terms[j + 1];
        }
      }
    }
  }

  /** The `ordering` query parameter. A missing or empty parameter gives the
      default. Otherwise the parameter is split on commas, each term is
      stripped, and the valid terms, in the order sent, are the keys; when
      none is valid, the default applies. */
  function ParseOrdering(param: Option<string>): (r: Ordering)
    ensures r != []
    ensures param.None? || param.value == "" ==> r == DefaultOrdering()
  {
    if param.None? || param.value == "" then DefaultOrdering()
    else
      var keys := ValidKeys(Split(param.value, ','));
      if keys == [] then DefaultOrdering() else keys
  }

  /** The texts of the keys, in order. */
  function KeyParams(o: Ordering): (r: seq<string>)
    ensures |r| == |o|
    ensures forall i :: 0 <= i < |o| ==> r[i] == KeyParam(o[i])
  {
    if o == [] then [] else [KeyParam(o[0])] + KeyParams(o[1..])
  }

  /** The text of an ordering, as a client sends it: the keys, comma-separated. */
  function OrderingParam(o: Ordering): string {
    Join(",", KeyParams(o))
  }

  lemma FieldRoundTrip(f: Field)
    ensures ParseField(FieldName(f)) == Some(f)
    ensures FieldName(f) != [] && FieldName(f)[0] != '-' && ',' !in FieldName(f)
    ensures !IsSpace(FieldName(f)[0]) && !IsSpace(FieldName(f)[|FieldName(f)| - 1])
  {
  }

  /** Every key is understood as sent, and its text is a single stripped
      term. */
  lemma KeyRoundTrip(k: Key)
    ensures ParseKey(Trim(KeyParam(k))) == Some(k)
    ensures KeyParam(k) != [] && ',' !in KeyParam(k)
  {
    var s := KeyParam(k);
    var name := FieldName(k.field);
    FieldRoundTrip(k.field);
    if k.descending {
      assert s == ['-'] + name && s[1..] == name;
    } else {
      assert s == name;
    }
    assert Trim(s) == s;
  }

  lemma {:induction false} ValidKeysOfParams(o: Ordering)
    ensures ValidKeys(KeyParams(o)) == o
  {
    if o != [] {
      ValidKeysOfParams(o[1..]);
      ValidKeysOfParamsStep(o);
      assert o == [o[0]] + o[1..];
    }
  }

  lemma ValidKeysOfParamsStep(o: Ordering)
    requires o != []
    ensures ValidKeys(KeyParams(o)) == [o[0]] + ValidKeys(KeyParams(o[1..]))
  {
    var ps := KeyParams(o);
    assert ps[1..] == KeyParams(o[1..]);
    KeyRoundTrip(o[0]);
    ValidKeysStep(ps, o[0]);
  }

  lemma ValidKeysStep(terms: seq<string>, k: Key)
    requires terms != [] && ParseKey(Trim(terms[0])) == Some(k)
    ensures ValidKeys(terms) == [k] + ValidKeys(terms[1..])
  {
  }

  /** Every non-empty ordering can be asked for, and is understood as sent:
      `title,-created_at` orders by title, then newest first. */
  lemma OrderingRoundTrip(o: Ordering)
    requires o != []
    ensures ParseOrdering(Some(OrderingParam(o))) == o
  {
    var parts := KeyParams(o);
    forall i | 0 <= i < |parts|
      ensures ',' !in parts[i]
    {
      KeyRoundTrip(o[i]);
    }
    var param := OrderingParam(o);
    SplitJoin(parts, ',');
    assert Split(param, ',') == parts;
    ValidKeysOfParams(o);
    KeyRoundTrip(o[0]);
  }

  /** A parameter none of whose comma-separated terms names an allowed
      column orders by the default. */
  lemma UnknownColumnUsesDefault(param: string)
    requires forall i :: 0 <= i < |Split(param, ',')| ==> ParseKey(Trim(Split(param, ',')[i])).None?
    ensures ParseOrdering(Some(param)) == DefaultOrdering()
  {
    NoValidKeys(Split(param, ','));
  }

  /** Invalid terms are dropped and the valid ones kept: a term that names
      no allowed column, followed by a valid one, orders by the valid one
      (`bogus,title` orders by title). */
  lemma InvalidTermDropped(bad: string, k: Key)
    requires ',' !in bad && ParseKey(Trim(bad)).None?
    ensures ParseOrdering(Some(bad + "," + KeyParam(k))) == [k]
  {
    var good := KeyParam(k);
    KeyRoundTrip(k);
    TwoTermsSplit(bad, good);
    TwoTermsKeys(bad, good, k);
    assert |bad + "," + good| > 0;
  }

  lemma TwoTermsSplit(a: string, b: string)
    requires ',' !in a && ',' !in b
    ensures Split(a + "," + b, ',') == [a, b]
  {
    assert a + "," + b == Join([','], [a, b]);
    SplitJoin([a, b], ',');
  }

  lemma TwoTermsKeys(bad: string, good: string, k: Key)
    requires ParseKey(Trim(bad)).None? && ParseKey(Trim(good)) == Some(k)
    ensures ValidKeys([bad, good]) == [k]
  {
    var terms := [bad, good];
    assert ValidKeys(terms) == ValidKeys([good]) by {
      assert terms[0] == bad && terms[1..] == [good];
      ValidKeysSkip(terms);
    }
    assert ValidKeys([good]) == [k] by {
      assert [good][1..] == [];
      ValidKeysStep([good], k);
    }
  }

  lemma ValidKeysSkip(terms: seq<string>)
    requires terms != [] && ParseKey(Trim(terms[0])).None?
    ensures ValidKeys(terms) == ValidKeys(terms[1..])
  {
  }

  /** Ascending order on one column. A missing publish date sorts after every
      date, as NULL does in ascending order. Titles compare code point by
      code point. */
  predicate AscLeq(f: Field, a: Article, b: Article) {
    match f
    case CreatedAt => a.stamp.createdAt <= b.stamp.createdAt
    case UpdatedAt => a.stamp.updatedAt <= b.stamp.updatedAt
    case PublishDate =>
      (match (a.publishDate, b.publishDate)
       case (_, None) => true
       case (None, Some(_)) => false
       case (Some(x), Some(y)) => x <= y)
    case Title => LexLeq(a.title, b.title)
  }

  /** `a` may come before `b` on key `k`. */
  predicate KeyLeq(k: Key, a: Article, b: Article) {
    if k.descending then AscLeq(k.field, b, a) else AscLeq(k.field, a, b)
  }

  /** `a` may come before `b` under ordering `o`: on the first key where one
      must come first, it does; when no key separates them, either order. */
  predicate Leq(o: Ordering, a: Article, b: Article)
    decreases |o|
  {
    o == [] || (KeyLeq(o[0], a, b) && (KeyLeq(o[0], b, a) ==> Leq(o[1..], a, b)))
  }

  lemma KeyLeqTotal(k: Key, a: Article, b: Article)
    ensures KeyLeq(k, a, b) || KeyLeq(k, b, a)
  {
    if k.field == Title {
      LexLeqTotal(a.title, b.title);
    }
  }

  lemma KeyLeqTransitive(k: Key, a: Article, b: Article, c: Article)
    requires KeyLeq(k, a, b) && KeyLeq(k, b, c)
    ensures KeyLeq(k, a, c)
  {
    if k.field == Title {
      if k.descending {
        LexLeqTransitive(c.title, b.title, a.title);
      } else {
        LexLeqTransitive(a.title, b.title, c.title);
      }
    }
  }

  lemma {:induction false} LeqTotal(o: Ordering, a: Article, b: Article)
    ensures Leq(o, a, b) || Leq(o, b, a)
    decreases |o|
  {
    if o != [] {
      KeyLeqTotal(o[0], a, b);
      LeqTotal(o[1..], a, b);
    }
  }

  lemma {:induction false} LeqTransitive(o: Ordering, a: Article, b: Article, c: Article)
    requires Leq(o, a, b) && Leq(o, b, c)
    ensures Leq(o, a, c)
    decreases |o|
  {
    if o != [] {
      var k := o[0];
      KeyLeqTransitive(k, a, b, c);
      if KeyLeq(k, c, a) {
        KeyLeqTransitive(k, c, a, b);
        KeyLeqTransitive(k, b, c, a);
        LeqTransitive(o[1..], a, b, c);
      }
    }
  }

  predicate Sorted(o: Ordering, s: Table) {
    forall i, j :: 0 <= i < j < |s| ==> Leq(o, s[i], s[j])
  }

  /** Insert `a` into sorted `s` before the first row it may precede. */
  function Insert(o: Ordering, a: Article, s: Table): (r: Table)
    requires Sorted(o, s)
    ensures multiset(r) == multiset(s) + multiset{a}
    ensures Sorted(o, r)
    decreases |s|
  {
    if s == [] then [a]
    else if Leq(o, a, s[0]) then
      InsertFrontSorted(o, a, s);
      [a] + s
    else
      LeqTotal(o, a, s[0]);
      var rest := Insert(o, a, s[1..]);
      assert s == [s[0]] + s[1..];
      InsertAfterHeadSorted(o, s[0], rest, s[1..], a);
      [s[0]] + rest
  }

  lemma InsertFrontSorted(o: Ordering, a: Article, s: Table)
    requires Sorted(o, s) && s != [] && Leq(o, a, s[0])
    ensures Sorted(o, [a] + s)
  {
    var r := [a] + s;
    forall i, j | 0 <= i < j < |r|
      ensures Leq(o, r[i], r[j])
    {
      if i == 0 && j > 1 {
        LeqTransitive(o, a, s[0], s[j - 1]);
      }
    }
  }

  lemma InsertAfterHeadSorted(o: Ordering, h: Article, rest: Table, tail: Table, a: Article)
    requires Sorted(o, [h] + tail) && Sorted(o, rest) && Leq(o, h, a)
    requires multiset(rest) == multiset(tail) + multiset{a}
    ensures Sorted(o, [h] + rest)
  {
    var r := [h] + rest;
    forall i, j | 0 <= i < j < |r|
      ensures Leq(o, r[i], r[j])
    {
      var x := rest[j - 1];
      assert r[j] == x;
      if i == 0 {
        assert x in multiset(rest);
        if x != a {
          assert x in multiset(tail);
          var k :| 0 <= k < |tail| && tail[k] == x;
          assert ([h] + tail)[0] == h && ([h] + tail)[k + 1] == x;
        }
      } else {
        assert r[i] == rest[i - 1];
      }
    }
  }

  /** The list ordered by `o`: a permutation of `s` that is sorted. */
  function Sort(o: Ordering, s: Table): (r: Table)
    ensures multiset(r) == multiset(s)
    ensures Sorted(o, r)
  {
    if s == [] then []
    else
      assert s == [s[0]] + s[1..];
      Insert(o, s[0], Sort(o, s[1..]))
  }

  /** The first row of a sorted list may precede every row of the list: under
      the default ordering, the most recently created article comes first. */
  lemma {:induction false} SortedHeadIsLeast(o: Ordering, s: Table, a: Article)
    requires a in s
    ensures Sort(o, s) != [] && Leq(o, Sort(o, s)[0], a)
  {
    var r := Sort(o, s);
    assert a in multiset(s);
    assert a in multiset(r);
    var k :| 0 <= k < |r| && r[k] == a;
    if k > 0 {
      assert Leq(o, r[0], r[k]);
    } else {
      LeqTotal(o, a, a);
    }
  }

  /** `GET /articles/`: published articles that pass the filters and the
      search, in the requested order. */
  function List(t: Table, f: Filter, terms: seq<string>, ordering: Option<string>): (r: Table)
    ensures Sorted(ParseOrdering(ordering), r)
  {
    Sort(ParseOrdering(ordering), Searched(terms, Filtered(f, Published(t))))
  }

  /** An article is listed exactly when it is in the table, published, and
      passes every filter and every search term. */
  lemma ListMembership(t: Table, f: Filter, terms: seq<string>, ordering: Option<string>, a: Article)
    ensures a in List(t, f, terms, ordering) <==>
              a in t && a.isPublished && Matches(f, a) && SearchMatches(terms, a)
  {
    var s := Searched(terms, Filtered(f, Published(t)));
    var r := List(t, f, terms, ordering);
    assert multiset(r) == multiset(s);
    assert a in r <==> a in multiset(r);
    assert a in s <==> a in multiset(s);
  }

  lemma ListMembershipAll(t: Table, f: Filter, terms: seq<string>, ordering: Option<string>)
    ensures forall a :: a in List(t, f, terms, ordering) <==>
              a in t && a.isPublished && Matches(f, a) && SearchMatches(terms, a)
  {
    forall a {
      ListMembership(t, f, terms, ordering, a);
    }
  }

  /** `GET /articles/` with its query string: 400 naming every refused filter
      parameter, or the published articles that pass the parsed filters and
      the search, in the requested order. */
  function ListView(t: Table, q: Query, parseTime: string -> Option<Time>, parseId: string -> Option<Id>,
                    users: set<Id>, terms: seq<string>, ordering: Option<string>): (r: Result<Table, set<Param>>)
    ensures r.Failure? <==> QueryErrors(q, parseTime, parseId, users) != {}
    ensures r.Failure? ==> r.error == QueryErrors(q, parseTime, parseId, users)
    ensures r.Success? ==> Sorted(ParseOrdering(ordering), r.value)
    ensures r.Success? ==>
              var f := ParseFilter(q, parseTime, parseId, users).value;
              forall a :: a in r.value <==> a in t && a.isPublished && Matches(f, a) && SearchMatches(terms, a)
  {
    match ParseFilter(q, parseTime, parseId, users)
    case Failure(e) => Failure(e)
    case Success(f) =>
      ListMembershipAll(t, f, terms, ordering);
      Success(List(t, f, terms, ordering))
  }

  /** `article_type` is matched against the choices as sent: a padded type
      is refused, where a padded text filter would be stripped. */
  lemma PaddedTypeRefused(t: Table, q: Query, parseTime: string -> Option<Time>, parseId: string -> Option<Id>,
                          users: set<Id>, terms: seq<string>, ordering: Option<string>)
    requires q.articleType == Some(" Article")
    ensures ListView(t, q, parseTime, parseId, users, terms, ordering).Failure?
    ensures ArticleTypeParam in ListView(t, q, parseTime, parseId, users, terms, ordering).error
  {
    assert ParseType(" Article").None?;
    assert Refused(q, parseTime, parseId, users, ArticleTypeParam);
  }

  /** Without an `ordering` parameter, no listed article was created after the
      first one. */
  lemma DefaultListNewestFirst(t: Table, f: Filter, terms: seq<string>, a: Article)
    requires a in List(t, f, terms, None)
    ensures List(t, f, terms, None)[0].stamp.createdAt >= a.stamp.createdAt
  {
    ListMembership(t, f, terms, None, a);
    var s := Searched(terms, Filtered(f, Published(t)));
    assert a in s;
    SortedHeadIsLeast(DefaultOrdering(), s, a);
  }

  /** By title, "Another Article" is listed before "Test Article", and
      `-title` lists them the other way round. */
  lemma TitleOrderingExample(test: Article, another: Article)
    requires test.title == "Test Article" && another.title == "Another Article"
    ensures Sort([Key(Title, false)], [test, another])[0] == another
    ensures Sort([Key(Title, true)], [test, another])[0] == test
  {
    assert LexLeq("Another Article", "Test Article");
    assert !LexLeq("Test Article", "Another Article");
    SortedHeadIsLeast([Key(Title, false)], [test, another], another);
    SortedHeadIsLeast([Key(Title, true)], [test, another], test);
    assert multiset(Sort([Key(Title, false)], [test, another])) == multiset{test, another};
    assert Sort([Key(Title, false)], [test, another])[0] in multiset{test, another};
    assert multiset(Sort([Key(Title, true)], [test, another])) == multiset{test, another};
    assert Sort([Key(Title, true)], [test, another])[0] in multiset{test, another};
  }

  /** `GET /articles/<slug>/`: `get_object` runs the same filter and search
      backends as the list before it looks the slug up, so the article must
      be published, pass every sent filter and every search term (ordering
      does not change which row is found). Otherwise, not found. */
  function Detail(t: Table, f: Filter, terms: seq<string>, slug: string): (r: Option<Article>)
    ensures r.Some? ==> && r.value in Searched(terms, Filtered(f, Published(t)))
                        && r.value.slug == slug
  {
    if t == [] then None
    else if t[0].isPublished && Matches(f, t[0]) && SearchMatches(terms, t[0]) && t[0].slug == slug then
      Some(t[0])
    else Detail(t[1..], f, terms, slug)
  }

  /** `GET /articles/<slug>/` with its query string: 400 naming every refused
      filter parameter, or the lookup under the parsed filters. */
  function DetailView(t: Table, q: Query, parseTime: string -> Option<Time>, parseId: string -> Option<Id>,
                      users: set<Id>, terms: seq<string>, slug: string): (r: Result<Option<Article>, set<Param>>)
    ensures r.Failure? <==> QueryErrors(q, parseTime, parseId, users) != {}
    ensures r.Failure? ==> r.error == QueryErrors(q, parseTime, parseId, users)
    ensures r.Success? && r.value.Some? ==>
              var f := ParseFilter(q, parseTime, parseId, users).value;
              && r.value.value in t && r.value.value.isPublished && r.value.value.slug == slug
              && Matches(f, r.value.value) && SearchMatches(terms, r.value.value)
  {
    match ParseFilter(q, parseTime, parseId, users)
    case Failure(e) => Failure(e)
    case Success(f) => Success(Detail(t, f, terms, slug))
  }

  /** Since slugs are unique, detail finds an article exactly when it is
      published and passes the filters and the search; any other article is
      never found. */
  lemma {:induction false} DetailFindsPublished(t: Table, f: Filter, terms: seq<string>, a: Article)
    requires Valid(t) && a in t
    ensures Detail(t, f, terms, a.slug) == Some(a) <==> a.isPublished && Matches(f, a) && SearchMatches(terms, a)
    ensures !(a.isPublished && Matches(f, a) && SearchMatches(terms, a)) ==> Detail(t, f, terms, a.slug).None?
  {
    if t[0] == a {
    } else {
      assert a in t[1..];
      assert Valid(t[1..]) by {
        assert forall i :: 0 <= i < |t| - 1 ==> t[1..][i] == t[i + 1];
      }
      var k :| 0 <= k < |t| && t[k] == a;
      assert t[0].slug != a.slug;
      DetailFindsPublished(t[1..], f, terms, a);
    }
  }

  /** A slug no article has is not found. */
  lemma DetailUnknownSlug(t: Table, f: Filter, terms: seq<string>, slug: string)
    requires forall i :: 0 <= i < |t| ==> t[i].slug != slug
    ensures Detail(t, f, terms, slug).None?
  {
  }

  /** A published article just saved can be fetched by its slug when no
      filter or search parameter is sent. */
  lemma SavedArticleIsFound(slugify: string -> string, t: Table, a: Article, now: Time)
    requires Valid(t) && a.isPublished
    requires Save(slugify, t, a, now).Success?
    ensures var r := Save(slugify, t, a, now).value;
            && Detail(r, NoFilter(), [], SavedSlug(slugify, a)).Some?
            && Detail(r, NoFilter(), [], SavedSlug(slugify, a)).value.stamp.id == a.stamp.id
  {
    var r := Save(slugify, t, a, now).value;
    SaveKeepsValid(slugify, t, a, now);
    SaveEffect(slugify, t, a, now);
    var i :| 0 <= i < |r| && r[i].stamp.id == a.stamp.id && r[i].slug == SavedSlug(slugify, a)
             && r[i].isPublished == a.isPublished;
    NoFilterMatchesAll(r[i]);
    DetailFindsPublished(r, NoFilter(), [], r[i]);
  }
}

=== FILE: articles.dfy ===
/** The article model (`articles/models.py`): an article is a `BaseModel` with
    the `SeoGaioBase` columns, a title, a unique slug derived from the title
    when none is given, an optional author, two enumerated choices and a few
    flags with defaults.

    The article table is a sequence of rows in insertion order; the unique
    constraints on the primary key and the slug are the table's invariant. */
module Articles {
  import opened Wrappers
  import opened Text
  import opened Base

  /** `Article.Category`. */
  datatype Category = KnowledgeBase | WellBeing | Diet

  /** The stored value of each category. `Diet` is stored capitalised, unlike
      the two others. */
  function CategoryValue(c: Category): string {
    match c
    case KnowledgeBase => "knowledge_base"
    case WellBeing => "well_being"
    case Diet => "Diet"
  }

  /** The choice a stored value stands for; anything else is not a choice. */
  function ParseCategory(s: string): (r: Option<Category>)
    ensures r.Some? ==> CategoryValue(r.value) == s
  {
    if s == "knowledge_base" then Some(KnowledgeBase)
    else if s == "well_being" then Some(WellBeing)
    else if s == "Diet" then Some(Diet)
    else None
  }

  /** Every category survives being stored and read back, and the stored
      values fit the 50-character column. */
  lemma CategoryRoundTrip(c: Category)
    ensures ParseCategory(CategoryValue(c)) == Some(c)
    ensures |CategoryValue(c)| <= ChoiceMax
  {
  }

  /** `Article.Type`: the schema.org type of the article. */
  datatype ArticleType = Article | BlogPosting | NewsArticle | Guide

  function TypeValue(t: ArticleType): string {
    match t
    case Article => "Article"
    case BlogPosting => "BlogPosting"
    case NewsArticle => "NewsArticle"
    case Guide => "Guide"
  }

  function ParseType(s: string): (r: Option<ArticleType>)
    ensures r.Some? ==> TypeValue(r.value) == s
  {
    if s == "Article" then Some(Article)
    else if s == "BlogPosting" then Some(BlogPosting)
    else if s == "NewsArticle" then Some(NewsArticle)
    else if s == "Guide" then Some(Guide)
    else None
  }

  lemma TypeRoundTrip(t: ArticleType)
    ensures ParseType(TypeValue(t)) == Some(t)
    ensures |TypeValue(t)| <= ChoiceMax
  {
  }

  const TitleMax := 200
  const SlugMax := 200
  const ExcerptMax := 300
  /** The `max_length` of the `category` and `article_type` columns. */
  const ChoiceMax := 50

  /** A stored article. The featured image is its stored file path; the tag set
      stands for the tag manager's relation. */
  datatype Article = ArticleRow(
    stamp: Stamp,
    seo: Seo,
    title: string,
    slug: string,
    author: Option<Id>,
    category: Category,
    featuredImage: string,
    excerpt: string,
    content: string,
    isFeatured: bool,
    isPublished: bool,
    publishDate: Option<Time>,
    tags: set<string>,
    articleType: ArticleType,
    showTableOfContents: bool)

  /** What a caller passes to create an article. `None` is an argument left
      out, for which the column default applies. */
  datatype Draft = Draft(
    seo: Seo,
    title: string,
    slug: string,
    author: Option<Id>,
    category: Option<Category>,
    featuredImage: string,
    excerpt: string,
    content: string,
    isFeatured: Option<bool>,
    isPublished: Option<bool>,
    publishDate: Option<Time>,
    tags: set<string>,
    articleType: Option<ArticleType>,
    showTableOfContents: Option<bool>)

  /** The instance `Article(**fields)` builds before it is saved: the column
      defaults fill in what the draft leaves out. */
  function FromDraft(d: Draft, stamp: Stamp): Article {
    ArticleRow(stamp, d.seo, d.title, d.slug, d.author,
               d.category.GetOr(KnowledgeBase), d.featuredImage, d.excerpt, d.content,
               d.isFeatured.GetOr(false), d.isPublished.GetOr(true), d.publishDate, d.tags,
               d.articleType.GetOr(Article), d.showTableOfContents.GetOr(true))
  }

  /** A draft that gives only the required fields: no author, no publish date,
      no tags and none of the defaulted fields. */
  function MinimalDraft(title: string, slug: string, featuredImage: string, excerpt: string): Draft {
    Draft(DefaultSeo(), title, slug, None, None, featuredImage, excerpt, "", None, None, None, {}, None, None)
  }

  /** The column defaults: a new article is a knowledge-base `Article`,
      published, not featured, with a table of contents; whatever the draft
      gives is kept. */
  lemma DraftDefaults(isUrl: string -> bool, title: string, slug: string, featuredImage: string, excerpt: string, stamp: Stamp)
    ensures var a := FromDraft(MinimalDraft(title, slug, featuredImage, excerpt), stamp);
            && a.category == KnowledgeBase && a.articleType == Article
            && !a.isFeatured && a.isPublished && a.showTableOfContents
            && a.author.None? && a.publishDate.None? && a.tags == {}
            && a.title == title && a.slug == slug && a.excerpt == excerpt
            && SeoFieldErrors(isUrl, a.seo) == {}
  {
    DefaultSeoValid(isUrl);
  }

  /** Given choices always win over the defaults. */
  lemma DraftChoicesKept(d: Draft, stamp: Stamp)
    ensures d.category.Some? ==> FromDraft(d, stamp).category == d.category.value
    ensures d.articleType.Some? ==> FromDraft(d, stamp).articleType == d.articleType.value
    ensures d.isPublished.Some? ==> FromDraft(d, stamp).isPublished == d.isPublished.value
    ensures d.isFeatured.Some? ==> FromDraft(d, stamp).isFeatured == d.isFeatured.value
    ensures d.showTableOfContents.Some? ==>
              FromDraft(d, stamp).showTableOfContents == d.showTableOfContents.value
  {
  }

  /** What the database enforces on a row: the `varchar` bounds of the title,
      the slug, the featured image's path and the SEO columns. */
  predicate Storable(a: Article) {
    |a.title| <= TitleMax && |a.slug| <= SlugMax && |a.featuredImage| <= FilePathMax && SeoStorable(a.seo)
  }

  /** The fields that full validation (`full_clean` on the instance) rejects.
      Besides the bounds it checks what the database does not. These are the
      `TextField` bound on the excerpt, the URL of the SEO columns, the slug's
      format (`isSlug` stands for `validate_slug`), and the fields declared
      without `blank=True`: the title, slug, featured image and excerpt must
      not be empty and the author must be given. */
  function FieldErrors(isUrl: string -> bool, isSlug: string -> bool, a: Article): set<string> {
    (if a.title == "" || |a.title| > TitleMax then {"title"} else {})
    + (if a.slug == "" || |a.slug| > SlugMax || !isSlug(a.slug) then {"slug"} else {})
    + (if a.author.None? then {"author"} else {})
    + (if a.featuredImage == "" then {"featured_image"} else {})
    + (if a.excerpt == "" || |a.excerpt| > ExcerptMax then {"excerpt"} else {})
    + SeoFieldErrors(isUrl, a.seo)
  }

  /** An article that passes validation can be stored exactly when its image
      path fits: a model `FileField` has no length validator, so only the
      column bounds the path. A validated article also has every required
      field filled in and a well-formed slug. */
  lemma ValidatedIsStorable(isUrl: string -> bool, isSlug: string -> bool, a: Article)
    ensures FieldErrors(isUrl, isSlug, a) == {} ==> (Storable(a) <==> |a.featuredImage| <= FilePathMax)
    ensures FieldErrors(isUrl, isSlug, a) == {} ==>
              && |a.excerpt| <= ExcerptMax && a.excerpt != ""
              && a.title != "" && a.slug != "" && isSlug(a.slug)
              && a.author.Some? && a.featuredImage != ""
  {
    SeoValidationImpliesStorable(isUrl, a.seo);
    if a.title == "" || |a.title| > TitleMax {
      assert "title" in FieldErrors(isUrl, isSlug, a);
    }
    if a.slug == "" || |a.slug| > SlugMax || !isSlug(a.slug) {
      assert "slug" in FieldErrors(isUrl, isSlug, a);
    }
    if a.author.None? {
      assert "author" in FieldErrors(isUrl, isSlug, a);
    }
    if a.featuredImage == "" {
      assert "featured_image" in FieldErrors(isUrl, isSlug, a);
    }
    if a.excerpt == "" || |a.excerpt| > ExcerptMax {
      assert "excerpt" in FieldErrors(isUrl, isSlug, a);
    }
  }

  type Table = seq<Article>

  /** Index of the row with primary key `id`. */
  predicate HasId(t: Table, id: Id) {
    exists i :: 0 <= i < |t| && t[i].stamp.id == id
  }

  /** The unique constraints of the article table: primary keys and slugs are
      each distinct, and every row fits its columns. */
  predicate Valid(t: Table) {
    && (forall i, j :: 0 <= i < j < |t| ==> t[i].stamp.id != t[j].stamp.id)
    && (forall i, j :: 0 <= i < j < |t| ==> t[i].slug != t[j].slug)
    && (forall i :: 0 <= i < |t| ==> Storable(t[i]))
  }

  /** The position of the row with primary key `id`, if there is one. */
  function IndexOfId(t: Table, id: Id): (r: Option<nat>)
    ensures r.Some? ==> r.value < |t| && t[r.value].stamp.id == id
    ensures r.None? <==> !HasId(t, id)
  {
    if t == [] then None
    else if t[0].stamp.id == id then Some(0)
    else match IndexOfId(t[1..], id)
      case None => None
      case Some(i) => Some(i + 1)
  }

  /** The slug `Article.save` writes: the given one, or `slugify(title)` when
      it is empty. */
  function SavedSlug(slugify: string -> string, a: Article): (r: string)
    ensures a.slug != "" ==> r == a.slug
    ensures a.slug == "" ==> r == slugify(a.title)
  {
    SlugOrDerived(slugify, a.slug, a.title)
  }

  datatype SaveError =
    | SlugTaken    // the unique constraint on `slug` fails
    | TooLong      // a `varchar` bound fails

  /** Another row than the one with primary key `id` already has `slug`. */
  predicate SlugTakenByOther(t: Table, id: Id, slug: string) {
    exists i :: 0 <= i < |t| && t[i].stamp.id != id && t[i].slug == slug
  }

  /** `Article.save()` at time `now`: derive the slug when it is empty, then
      update the row with the same primary key (keeping its creation time) or
      insert a new row. The database refuses a slug another row holds and a
      value longer than its column. */
  function Save(slugify: string -> string, t: Table, a: Article, now: Time): (r: Result<Table, SaveError>)
    ensures var row := a.(slug := SavedSlug(slugify, a));
            r.Success? <==> !SlugTakenByOther(t, a.stamp.id, row.slug) && Storable(row)
  {
    var row := a.(slug := SavedSlug(slugify, a));
    if SlugTakenByOther(t, a.stamp.id, row.slug) then Failure(SlugTaken)
    else if !Storable(row) then Failure(TooLong)
    else
      match IndexOfId(t, a.stamp.id)
      case Some(i) => Success(t[i := row.(stamp := Saved(t[i].stamp, now))])
      case None => Success(t + [row.(stamp := Inserted(a.stamp.id, now))])
  }

  /** A successful save keeps the table's unique constraints. */
  lemma SaveKeepsValid(slugify: string -> string, t: Table, a: Article, now: Time)
    requires Valid(t)
    requires Save(slugify, t, a, now).Success?
    ensures Valid(Save(slugify, t, a, now).value)
  {
    var row := a.(slug := SavedSlug(slugify, a));
    var r := Save(slugify, t, a, now).value;
    match IndexOfId(t, a.stamp.id)
    case Some(i) =>
      assert r == t[i := row.(stamp := Saved(t[i].stamp, now))];
      forall j, k | 0 <= j < k < |r|
        ensures r[j].stamp.id != r[k].stamp.id && r[j].slug != r[k].slug
      {
        if j == i || k == i {
          var o := if j == i then k else j;
          assert r[o] == t[o];
        }
      }
    case None =>
      assert r == t + [row.(stamp := Inserted(a.stamp.id, now))];
      forall j, k | 0 <= j < k < |r|
        ensures r[j].stamp.id != r[k].stamp.id && r[j].slug != r[k].slug
      {
        if k == |t| {
          assert r[j] == t[j];
        }
      }
  }

  /** What a successful save leaves behind: the saved row is stored under its
      primary key with the saved slug and everything the caller gave; an
      existing row keeps its position and creation time, a new row is
      appended; every other row is unchanged. */
  lemma SaveEffect(slugify: string -> string, t: Table, a: Article, now: Time)
    requires Valid(t)
    requires Save(slugify, t, a, now).Success?
    ensures var r := Save(slugify, t, a, now).value;
            var slug := SavedSlug(slugify, a);
            && (HasId(t, a.stamp.id) ==> |r| == |t|)
            && (!HasId(t, a.stamp.id) ==> |r| == |t| + 1 && r[..|t|] == t
                                          && r[|t|].stamp == Inserted(a.stamp.id, now))
            && exists i :: 0 <= i < |r| && r[i].stamp.id == a.stamp.id && r[i].slug == slug
                           && r[i] == a.(slug := slug, stamp := r[i].stamp)
                           && r[i].stamp.updatedAt == now
                           && (i < |t| ==> r[i].stamp.createdAt == t[i].stamp.createdAt
                                           && t[i].stamp.id == a.stamp.id)
                           && (forall j :: 0 <= j < |r| && j != i ==> j < |t| && r[j] == t[j])
  {
    var r := Save(slugify, t, a, now).value;
    match IndexOfId(t, a.stamp.id)
    case Some(i) =>
      assert r[i].stamp.id == a.stamp.id;
    case None =>
      assert r[|t|].stamp.id == a.stamp.id;
  }

  /** A slug the caller gave is never replaced: saving keeps it. */
  lemma SaveKeepsGivenSlug(slugify: string -> string, t: Table, a: Article, now: Time)
    requires Valid(t) && a.slug != ""
    requires Save(slugify, t, a, now).Success?
    ensures exists i :: 0 <= i < |Save(slugify, t, a, now).value|
                        && Save(slugify, t, a, now).value[i].stamp.id == a.stamp.id
                        && Save(slugify, t, a, now).value[i].slug == a.slug
  {
    SaveEffect(slugify, t, a, now);
  }

  /** `get_absolute_url`. */
  function AbsoluteUrl(slug: string): (r: string)
    ensures |r| == |slug| + 2
  {
    "/" + slug + "/"
  }

  /** The slug an absolute URL names, if it has the `/<slug>/` shape. */
  function UrlSlug(url: string): Option<string> {
    if |url| >= 2 && url[0] == '/' && url[|url| - 1] == '/' then Some(url[1..|url| - 1]) else None
  }

  /** The URL gives its slug back, so distinct slugs have distinct URLs. */
  lemma UrlRoundTrip(slug: string)
    ensures UrlSlug(AbsoluteUrl(slug)) == Some(slug)
  {
    assert AbsoluteUrl(slug)[1..|slug| + 1] == slug;
  }

  lemma UrlInjective(s1: string, s2: string)
    ensures AbsoluteUrl(s1) == AbsoluteUrl(s2) ==> s1 == s2
  {
    UrlRoundTrip(s1);
    UrlRoundTrip(s2);
  }

  /** In a valid table, every article has its own URL. */
  lemma UrlsUnique(t: Table, i: nat, j: nat)
    requires Valid(t) && i < j < |t|
    ensures AbsoluteUrl(t[i].slug) != AbsoluteUrl(t[j].slug)
  {
    UrlInjective(t[i].slug, t[j].slug);
  }

  /** Deleting user `userId`: `on_delete=SET_NULL` clears the author of that
      user's articles in one bulk update, which does not refresh
      `updated_at`. */
  function DeleteAuthor(t: Table, userId: Id): (r: Table)
    ensures |r| == |t|
    ensures forall i :: 0 <= i < |t| ==> r[i].author != Some(userId)
    ensures forall i :: 0 <= i < |t| && t[i].author == Some(userId) ==> r[i] == t[i].(author := None)
    ensures forall i :: 0 <= i < |t| && t[i].author != Some(userId) ==> r[i] == t[i]
  {
    if t == [] then []
    else [Clear(t[0], userId)] + DeleteAuthor(t[1..], userId)
  }

  function Clear(a: Article, userId: Id): Article {
    if a.author == Some(userId) then a.(author := None) else a
  }

  /** Deleting an author keeps every article and the table's constraints. */
  lemma DeleteAuthorKeepsValid(t: Table, userId: Id)
    requires Valid(t)
    ensures Valid(DeleteAuthor(t, userId))
  {
    var r := DeleteAuthor(t, userId);
    forall i, j | 0 <= i < j < |r|
      ensures r[i].stamp.id != r[j].stamp.id && r[i].slug != r[j].slug
    {
      assert r[i] == t[i].(author := r[i].author) && r[j] == t[j].(author := r[j].author);
    }
    forall i | 0 <= i < |r|
      ensures Storable(r[i])
    {
      assert r[i] == t[i].(author := r[i].author);
    }
  }
}

=== FILE: auth_serializers.dfy ===
/** The authentication serializers (`auth/serializers.py`): the lower-casing
    email field, the email-uniqueness check of user creation, the password
    check of activation, the email-login input, and the token-by-link check.

    The collaborators the serializers call but do not define are parameters
    (`Oracles`): the email-format validator, the decoder of the uid in an
    activation link, the token generator's check, Django's password
    validators and the JWT minting. */
module AuthSerializers {
  import opened Wrappers
  import opened Text
  import opened Accounts

  /** A validation error body: field name to the list of its messages. */
  type Errors = map<string, seq<string>>

  const RequiredMessage := "This field is required."
  const BlankMessage := "This field may not be blank."
  const InvalidEmailMessage := "Enter a valid email address."
  const EmailExistsMessage := "A user with that email address already exists."
  const InvalidUidMessage := "Invalid user id or user doesn't exist."
  const InvalidTokenMessage := "Invalid token for given user."
  const NullCharactersMessage := "Null characters are not allowed."

  datatype Oracles = Oracles(
    /** The email-format validator. */
    isEmail: string -> bool,
    /** The user key an activation-link uid names, if it names one. */
    decodeUid: string -> Option<string>,
    /** The token generator's `check_token(user, token)`. */
    checkToken: (User, string) -> bool,
    /** The messages of `validate_password(password, user)`; none when it passes. */
    passwordErrors: (string, User) -> seq<string>,
    /** The refresh and access strings of a fresh token pair for a user. */
    mint: User -> (string, string))

  /** What a `CharField` makes of its input before its validators run: an
      absent field fails as required, an input that strips to nothing fails
      as blank, and any other input is stripped. */
  function StrippedInput(data: Option<string>): (r: Result<string, string>)
    ensures data.None? ==> r == Failure(RequiredMessage)
    ensures data.Some? && IsBlank(data.value) ==> r == Failure(BlankMessage)
    ensures r.Success? <==> data.Some? && !IsBlank(data.value)
    ensures r.Success? ==> r.value == Trim(data.value) && r.value != ""
  {
    match data
    case None => Failure(RequiredMessage)
    case Some(s) => if Trim(s) == "" then Failure(BlankMessage) else Success(Trim(s))
  }

  /** The validators of the email fields, in the order DRF runs them and
      collects their messages: the uniqueness check when the field has one,
      then the null-character check every `CharField` appends, then the
      format check an `EmailField` appends. */
  datatype Check = UniqueCheck | NullCheck | FormatCheck

  function CheckMessage(c: Check): string {
    match c
    case UniqueCheck => EmailExistsMessage
    case NullCheck => NullCharactersMessage
    case FormatCheck => InvalidEmailMessage
  }

  /** The position of a validator in the run. */
  function Rank(c: Check): nat {
    match c
    case UniqueCheck => 0
    case NullCheck => 1
    case FormatCheck => 2
  }

  /** Each validator at most once, in the order they run. */
  predicate InValidatorOrder(cs: seq<Check>) {
    forall i, j :: 0 <= i < j < |cs| ==> Rank(cs[i]) < Rank(cs[j])
  }

  /** The validators that fail, given whether the value is taken, holds a
      null character and is malformed: every failing one, and only those,
      each once and in order. */
  function FailingChecks(taken: bool, hasNull: bool, malformed: bool): (r: seq<Check>)
    ensures UniqueCheck in r <==> taken
    ensures NullCheck in r <==> hasNull
    ensures FormatCheck in r <==> malformed
    ensures r == [] <==> !taken && !hasNull && !malformed
    ensures InValidatorOrder(r)
  {
    (if taken then [UniqueCheck] else [])
    + (if hasNull then [NullCheck] else [])
    + (if malformed then [FormatCheck] else [])
  }

  /** The messages of failing validators, in the same order. */
  function Messages(cs: seq<Check>): (r: seq<string>)
    ensures |r| == |cs|
  {
    if cs == [] then [] else [CheckMessage(cs[0])] + Messages(cs[1..])
  }

  /** Different validators report different messages, so the messages name
      the failing validators. */
  lemma MessagesNameChecks(cs: seq<Check>, i: nat)
    requires i < |cs|
    ensures Messages(cs)[i] == CheckMessage(cs[i])
    ensures forall c :: CheckMessage(c) == CheckMessage(cs[i]) ==> c == cs[i]
  {
    MessagesDiffer();
    if i > 0 {
      MessagesNameChecks(cs[1..], i - 1);
    }
  }

  /** A required `CharField` that does not allow blanks: the stripped input,
      or the one message it fails with. Its only validator refuses a null
      character. */
  function CharField(data: Option<string>): (r: Result<string, string>)
    ensures StrippedInput(data).Failure? ==> r == StrippedInput(data)
    ensures StrippedInput(data).Success? && '\0' in Trim(data.value) ==> r == Failure(NullCharactersMessage)
    ensures r.Success? <==> data.Some? && !IsBlank(data.value) && '\0' !in Trim(data.value)
    ensures r.Success? ==> r.value == Trim(data.value) && r.value != ""
  {
    var v :- StrippedInput(data);
    if '\0' in v then Failure(NullCharactersMessage) else Success(v)
  }

  /** A value that strips to something without a null character passes the
      field, stripped. */
  lemma CharFieldKeeps(s: string)
    requires Trim(s) != "" && '\0' !in Trim(s)
    ensures CharField(Some(s)) == Success(Trim(s))
  {
  }

  /** A value whose stripped form holds a null character fails the field. */
  lemma CharFieldRefusesNull(s: string)
    requires '\0' in Trim(s)
    ensures CharField(Some(s)).Failure?
  {
  }

  /** A stored-form email, already stripped, lower-case and well formed,
      passes the lower-casing field unchanged. */
  lemma LowercaseEmailKeeps(isEmail: string -> bool, s: string)
    requires s != "" && Trim(s) == s && IsLower(s) && '\0' !in s && isEmail(s)
    ensures LowercaseEmailToInternal(isEmail, Some(s)) == Success(s)
  {
    StoredFormKept(s);
    var r := LowercaseEmailToInternal(isEmail, Some(s));
    assert r.Success?;
  }

  /** A stripped, well-formed email passes the plain email field unchanged. */
  lemma EmailFieldKeeps(isEmail: string -> bool, s: string)
    requires s != "" && Trim(s) == s && '\0' !in s && isEmail(s)
    ensures EmailField(isEmail, Some(s)) == Success(s)
  {
    StrippedKept(s);
    var r := EmailField(isEmail, Some(s));
    assert r.Success?;
  }

  /** A stripped string that is not empty is not blank. */
  lemma StrippedKept(s: string)
    requires s != "" && Trim(s) == s
    ensures !IsBlank(s)
  {
  }

  /** A stripped, lower-case string is not blank and comes back unchanged
      from stripping and lower-casing. */
  lemma StoredFormKept(s: string)
    requires s != "" && Trim(s) == s && IsLower(s)
    ensures !IsBlank(s) && Lower(Trim(s)) == s
  {
  }

  /** An optional `CharField` that allows blanks: absent stays absent, an input
      that strips to nothing is the empty string without any validator, and
      any other input is stripped and must hold no null character. */
  function OptionalCharField(data: Option<string>): (r: Result<Option<string>, string>)
    ensures data.None? ==> r == Success(None)
    ensures r.Failure? <==> data.Some? && '\0' in Trim(data.value)
    ensures r.Failure? ==> r.error == NullCharactersMessage
    ensures r.Success? && data.Some? ==> r.value == Some(Trim(data.value))
  {
    match data
    case None => Success(None)
    case Some(s) =>
      if Trim(s) == "" then Success(Some(""))
      else if '\0' in Trim(s) then Failure(NullCharactersMessage)
      else Success(Some(Trim(s)))
  }

  /** A plain `EmailField`: stripped, then both its validators run on the
      stripped value and every message is reported. */
  function EmailField(isEmail: string -> bool, data: Option<string>): (r: Result<string, seq<string>>)
    ensures StrippedInput(data).Failure? ==> r == Failure([StrippedInput(data).error])
    ensures r.Success? <==> data.Some? && !IsBlank(data.value) && '\0' !in Trim(data.value) && isEmail(Trim(data.value))
    ensures r.Success? ==> r.value == Trim(data.value)
    ensures StrippedInput(data).Success? && r.Failure? ==>
              r.error == Messages(FailingChecks(false, '\0' in Trim(data.value), !isEmail(Trim(data.value))))
  {
    match StrippedInput(data)
    case Failure(m) => Failure([m])
    case Success(v) =>
      var failing := FailingChecks(false, '\0' in v, !isEmail(v));
      if failing == [] then Success(v) else Failure(Messages(failing))
  }

  /** `LowercaseEmailField.to_internal_value` and the field's validators: the
      stripped input lower-cased, then the null-character and format checks
      on that value, every message reported. */
  function LowercaseEmailToInternal(isEmail: string -> bool, data: Option<string>): (r: Result<string, seq<string>>)
    ensures StrippedInput(data).Failure? ==> r == Failure([StrippedInput(data).error])
    ensures r.Success? <==> && data.Some? && !IsBlank(data.value)
                            && '\0' !in Lower(Trim(data.value)) && isEmail(Lower(Trim(data.value)))
    ensures r.Success? ==> r.value == Lower(Trim(data.value)) && r.value != ""
    ensures StrippedInput(data).Success? && r.Failure? ==>
              var e := Lower(Trim(data.value));
              r.error == Messages(FailingChecks(false, '\0' in e, !isEmail(e)))
  {
    match StrippedInput(data)
    case Failure(m) => Failure([m])
    case Success(v) =>
      var lowered := Lower(v);
      var failing := FailingChecks(false, '\0' in lowered, !isEmail(lowered));
      if failing == [] then Success(lowered) else Failure(Messages(failing))
  }

  /** `LowercaseEmailField.to_representation`. */
  function LowercaseEmailToRepresentation(value: string): (r: string)
    ensures IsLower(r) && Lower(r) == Lower(value)
    ensures IsLower(value) ==> r == value
  {
    Lower(value)
  }

  /** Representing a value the field produced gives that value back. */
  lemma RepresentationOfInternal(isEmail: string -> bool, data: Option<string>)
    ensures var r := LowercaseEmailToInternal(isEmail, data);
            r.Success? ==> LowercaseEmailToRepresentation(r.value) == r.value
  {
  }

  /** The `email` field of `UserCreateSerializer`: the lower-cased email, which
      no stored user may already have. Once the field has its value, DRF runs
      every validator and collects every message: first the `UniqueValidator`,
      which matches the stored email exactly (stored emails are lower-case,
      so the check ignores the input's case), then the null-character check,
      then the format check. A required or blank failure stops at its one
      message. */
  function ValidateNewEmail(o: Oracles, store: Store, data: Option<string>): (r: Result<string, seq<string>>)
    requires Valid(store)
    ensures StrippedInput(data).Failure? ==> r == Failure([StrippedInput(data).error])
    ensures StrippedInput(data).Success? ==>
              var e := Lower(Trim(data.value));
              && (r.Success? <==> '\0' !in e && o.isEmail(e) && forall k | k in store :: store[k].email != e)
              && (r.Failure? ==>
                    r.error == Messages(FailingChecks(exists k | k in store :: store[k].email == e,
                                                      '\0' in e, !o.isEmail(e))))
    ensures r.Success? ==> LowercaseEmailToInternal(o.isEmail, data) == Success(r.value) && r.value !in store && IsLower(r.value)
  {
    match StrippedInput(data)
    case Failure(m) => Failure([m])
    case Success(v) =>
      var e := Lower(v);
      StoredIffKey(store, e);
      var failing := FailingChecks(e in store, '\0' in e, !o.isEmail(e));
      if failing == [] then Success(e) else Failure(Messages(failing))
  }

  lemma MessagesDiffer()
    ensures EmailExistsMessage != InvalidEmailMessage
    ensures EmailExistsMessage != NullCharactersMessage
    ensures NullCharactersMessage != InvalidEmailMessage
  {
    assert |EmailExistsMessage| != |InvalidEmailMessage|;
    assert |EmailExistsMessage| != |NullCharactersMessage|;
    assert |NullCharactersMessage| != |InvalidEmailMessage|;
  }

  /** In a valid store, a user has email `e` exactly when `e` is a key. */
  lemma StoredIffKey(store: Store, e: string)
    requires Valid(store)
    ensures e in store <==> exists k | k in store :: store[k].email == e
  {
    if e in store {
      assert store[e].email == e;
    }
  }

  /** A stored email that is malformed (the manager does not check the
      format) gets both messages when it is posted again, in validator
      order. */
  lemma TakenMalformedEmailGetsBoth(o: Oracles, store: Store, data: Option<string>)
    requires Valid(store) && data.Some? && !IsBlank(data.value)
    requires Lower(Trim(data.value)) in store && !o.isEmail(Lower(Trim(data.value)))
    ensures '\0' !in Lower(Trim(data.value)) ==>
              ValidateNewEmail(o, store, data) == Failure(Messages([UniqueCheck, FormatCheck]))
    ensures '\0' in Lower(Trim(data.value)) ==>
              ValidateNewEmail(o, store, data) == Failure(Messages([UniqueCheck, NullCheck, FormatCheck]))
  {
    var e := Lower(Trim(data.value));
    TakenMalformedChecks(o, store, data);
    if '\0' in e {
      assert FailingChecks(true, true, true) == [UniqueCheck, NullCheck, FormatCheck];
    } else {
      assert FailingChecks(true, false, true) == [UniqueCheck, FormatCheck];
    }
  }

  lemma TakenMalformedChecks(o: Oracles, store: Store, data: Option<string>)
    requires Valid(store) && data.Some? && !IsBlank(data.value)
    requires Lower(Trim(data.value)) in store && !o.isEmail(Lower(Trim(data.value)))
    ensures var e := Lower(Trim(data.value));
            ValidateNewEmail(o, store, data) == Failure(Messages(FailingChecks(true, '\0' in e, true)))
  {
    var e := Lower(Trim(data.value));
    StoredUser(store, e);
    assert StrippedInput(data).Success?;
  }

  /** An email that passed the creation serializer never trips the database's
      email constraint: creating the user fails only on a reused primary key or
      on a value too long for its column. The serializer's email field declares
      no length limit of its own, so the column's 254 characters are checked
      only by the database. */
  lemma ValidatedEmailCanBeCreated(o: Oracles, store: Store, data: Option<string>,
                                   password: Option<string>, extra: Extra, id: Base.Id, now: Base.Time)
    requires Valid(store)
    requires ValidateNewEmail(o, store, data).Success?
    ensures var e := ValidateNewEmail(o, store, data).value;
            CreateUser(store, Some(e), password, extra, id, now).Success? <==>
              id !in Ids(store) && FitsColumns(e, extra)
  {
    var e := ValidateNewEmail(o, store, data).value;
    assert NormalizeEmail(Some(e)) == e;
  }

  /** The fields of an activation request once the serializer accepted them. */
  datatype ActivateAttrs = ActivateAttrs(uid: string, token: string, password: string)

  /** `ActivateSerializer.validate`: the password validators' messages, all of
      them, under `"password"`; or the attributes unchanged. */
  function ActivateValidate(o: Oracles, user: User, attrs: ActivateAttrs): (r: Result<ActivateAttrs, Errors>)
    ensures r.Success? <==> o.passwordErrors(attrs.password, user) == []
    ensures r.Success? ==> r.value == attrs
    ensures r.Failure? ==> r.error.Keys == {"password"}
                           && r.error["password"] == o.passwordErrors(attrs.password, user)
  {
    var messages := o.passwordErrors(attrs.password, user);
    if messages != [] then Failure(map["password" := messages]) else Success(attrs)
  }

  /** The input of the email-login view once accepted. */
  datatype EmailLoginData = EmailLoginData(email: string, redirectUrl: Option<string>)

  /** `UserEmailLoginSerializer`: a lower-cased email and an optional redirect
      URL that may be blank. Both fields are checked and each failing one is
      reported. */
  function EmailLoginValidate(o: Oracles, email: Option<string>, redirectUrl: Option<string>)
    : (r: Result<EmailLoginData, Errors>)
    ensures r.Success? <==> LowercaseEmailToInternal(o.isEmail, email).Success?
                            && OptionalCharField(redirectUrl).Success?
    ensures r.Success? ==> IsLower(r.value.email)
                           && Lower(r.value.email) == Lower(Trim(email.value))
    ensures r.Success? ==> (r.value.redirectUrl.None? <==> redirectUrl.None?)
    ensures r.Failure? ==> && ("email" in r.error <==> LowercaseEmailToInternal(o.isEmail, email).Failure?)
                           && ("redirect_url" in r.error <==> OptionalCharField(redirectUrl).Failure?)
                           && r.error.Keys <= {"email", "redirect_url"}
  {
    var ce := LowercaseEmailToInternal(o.isEmail, email);
    var cr := OptionalCharField(redirectUrl);
    if ce.Success? && cr.Success? then Success(EmailLoginData(ce.value, cr.value))
    else Failure(LoginErrors(ce, cr))
  }

  /** The error body of the email-login serializer: each failing field with
      its messages. */
  function LoginErrors(ce: Result<string, seq<string>>, cr: Result<Option<string>, string>): (r: Errors)
    ensures "email" in r <==> ce.Failure?
    ensures "redirect_url" in r <==> cr.Failure?
    ensures r.Keys <= {"email", "redirect_url"}
  {
    assert |"email"| != |"redirect_url"|;
    (if ce.Failure? then map["email" := ce.error] else map[])
    + (if cr.Failure? then map["redirect_url" := [cr.error]] else map[])
  }

  /** The error body of two checked fields: each failing field with its message. */
  function FieldErrors(name1: string, r1: Result<string, string>,
                       name2: string, r2: Result<string, string>): (r: Errors)
    requires name1 != name2
    ensures name1 in r <==> r1.Failure?
    ensures name2 in r <==> r2.Failure?
    ensures r.Keys <= {name1, name2}
  {
    (if r1.Failure? then map[name1 := [r1.error]] else map[])
    + (if r2.Failure? then map[name2 := [r2.error]] else map[])
  }

  /** The field checks of a uid-and-token serializer: every failing field is
      reported, not just the first. */
  function LinkFields(uid: Option<string>, token: Option<string>): (r: Result<(string, string), Errors>)
    ensures r.Success? <==> CharField(uid).Success? && CharField(token).Success?
    ensures r.Success? ==> r.value == (CharField(uid).value, CharField(token).value)
    ensures r.Failure? ==> ("uid" in r.error <==> CharField(uid).Failure?)
                           && ("token" in r.error <==> CharField(token).Failure?)
  {
    var cu := CharField(uid);
    var ct := CharField(token);
    if cu.Success? && ct.Success? then Success((cu.value, ct.value))
    else Failure(FieldErrors("uid", cu, "token", ct))
  }

  /** The uid-and-token check: the key of the user the link names, when the
      uid decodes to a stored user and the token is valid for that user. The
      uid and token are used as sent, as the check reads the raw request. */
  function LinkUser(o: Oracles, store: Store, uid: Option<string>, token: Option<string>)
    : (r: Result<string, Errors>)
    ensures r.Success? <==>
              && LinkFields(uid, token).Success?
              && o.decodeUid(uid.value).Some? && o.decodeUid(uid.value).value in store
              && o.checkToken(store[o.decodeUid(uid.value).value], token.value)
    ensures r.Success? ==> r.value == o.decodeUid(uid.value).value && r.value in store
    ensures r.Failure? ==> "uid" in r.error || "token" in r.error
  {
    var _ :- LinkFields(uid, token);
    match o.decodeUid(uid.value)
    case None => Failure(map["uid" := [InvalidUidMessage]])
    case Some(k) =>
      if k !in store then Failure(map["uid" := [InvalidUidMessage]])
      else if !o.checkToken(store[k], token.value) then Failure(map["token" := [InvalidTokenMessage]])
      else Success(k)
  }

  /** The token body: a dictionary whose keys are exactly `refresh` and `access`. */
  function TokenPayload(o: Oracles, u: User): (r: map<string, string>)
    ensures r.Keys == {"refresh", "access"}
    ensures r["refresh"] == o.mint(u).0 && r["access"] == o.mint(u).1
  {
    map["refresh" := o.mint(u).0, "access" := o.mint(u).1]
  }

  /** The default `USER_AUTHENTICATION_RULE`: only active users get tokens. */
  predicate CanAuthenticate(u: User) {
    u.isActive
  }

  datatype TokenFailure =
    | Invalid(errors: Errors)   // the link or the fields were rejected (400)
    | NoActiveAccount           // the authentication rule failed (401)

  /** `EmailLoginTokenObtainSerializer.validate`: the link's user and a fresh
      token pair, unless the link is invalid or the user may not log in. */
  function TokenByLinkValidate(o: Oracles, store: Store, uid: Option<string>, token: Option<string>)
    : (r: Result<(string, map<string, string>), TokenFailure>)
    ensures LinkUser(o, store, uid, token).Failure? ==>
              r == Failure(Invalid(LinkUser(o, store, uid, token).error))
    ensures r == Failure(NoActiveAccount) <==>
              LinkUser(o, store, uid, token).Success? && !store[LinkUser(o, store, uid, token).value].isActive
    ensures r.Success? ==>
              && r.value.0 == LinkUser(o, store, uid, token).value
              && store[r.value.0].isActive
              && r.value.1.Keys == {"refresh", "access"}
  {
    match LinkUser(o, store, uid, token)
    case Failure(e) => Failure(Invalid(e))
    case Success(k) =>
      if !CanAuthenticate(store[k]) then Failure(NoActiveAccount)
      else Success((k, TokenPayload(o, store[k])))
  }

  /** `TokenObtainPairSerializer` given an email and a password: both fields
      are trimmed, the backend looks the email up exactly, checks the password
      and that the user is active, then the authentication rule applies. */
  function ObtainPair(o: Oracles, store: Store, email: Option<string>, password: Option<string>)
    : (r: Result<map<string, string>, TokenFailure>)
    ensures r.Success? <==>
              && CredentialFields(email, password).Success?
              && Trim(email.value) in store
              && CheckPassword(store[Trim(email.value)], Trim(password.value))
              && store[Trim(email.value)].isActive
    ensures r.Success? ==> r.value.Keys == {"refresh", "access"}
    ensures r.Failure? ==> (r.error.Invalid? <==> CredentialFields(email, password).Failure?)
  {
    match CredentialFields(email, password)
    case Failure(e) => Failure(Invalid(e))
    case Success((e, p)) =>
      // The backend's `user_can_authenticate` and the authentication rule
      // that follows it are the same `is_active` test, so one check covers both.
      if e !in store || !CheckPassword(store[e], p) || !CanAuthenticate(store[e]) then Failure(NoActiveAccount)
      else Success(TokenPayload(o, store[e]))
  }

  /** The two required fields of the email-and-password token serializer,
      both plain `CharField`s; every failing field is reported. */
  function CredentialFields(email: Option<string>, password: Option<string>): (r: Result<(string, string), Errors>)
    ensures r.Success? <==> && email.Some? && password.Some?
                            && !IsBlank(email.value) && !IsBlank(password.value)
                            && '\0' !in Trim(email.value) && '\0' !in Trim(password.value)
    ensures r.Success? ==> r.value == (Trim(email.value), Trim(password.value))
    ensures r.Failure? ==> ("email" in r.error <==> CharField(email).Failure?)
                           && ("password" in r.error <==> CharField(password).Failure?)
  {
    var ce := CharField(email);
    var cp := CharField(password);
    if ce.Success? && cp.Success? then Success((ce.value, cp.value))
    else Failure(FieldErrors("email", ce, "password", cp))
  }

  /** A value of one serialized column. */
  datatype Value =
    | IdValue(id: Base.Id)
    | TextValue(text: string)
    | TimeValue(time: Base.Time)
    | BoolValue(flag: bool)

  /** The columns of a `User` row that a serializer field name can refer to. */
  datatype UserColumn =
    | IdColumn | EmailColumn | FirstNameColumn | LastNameColumn
    | CreatedAtColumn | UpdatedAtColumn
    | IsActiveColumn | IsStaffColumn | IsSuperuserColumn
    | NameProperty

  /** The column a field name refers to: the names the model declares, the
      timestamps inherited from the common base model among them, and the
      `name` property, which a serializer reads like a column. */
  function Column(name: string): Option<UserColumn> {
    match name
    case "id" => Some(IdColumn)
    case "email" => Some(EmailColumn)
    case "first_name" => Some(FirstNameColumn)
    case "last_name" => Some(LastNameColumn)
    case "created_at" => Some(CreatedAtColumn)
    case "updated_at" => Some(UpdatedAtColumn)
    case "is_active" => Some(IsActiveColumn)
    case "is_staff" => Some(IsStaffColumn)
    case "is_superuser" => Some(IsSuperuserColumn)
    case "name" => Some(NameProperty)
    case _ => None
  }

  /** The value a column holds for a user. */
  function ColumnValue(u: User, c: UserColumn): Value {
    match c
    case IdColumn => IdValue(u.stamp.id)
    case EmailColumn => TextValue(u.email)
    case FirstNameColumn => TextValue(u.firstName)
    case LastNameColumn => TextValue(u.lastName)
    case CreatedAtColumn => TimeValue(u.stamp.createdAt)
    case UpdatedAtColumn => TimeValue(u.stamp.updatedAt)
    case IsActiveColumn => BoolValue(u.isActive)
    case IsStaffColumn => BoolValue(u.isStaff)
    case IsSuperuserColumn => BoolValue(u.isSuperuser)
    case NameProperty => TextValue(Name(u))
  }

  /** A `ModelSerializer` can build its fields only when every listed name is
      a column of the model; otherwise building them raises, and the request
      that reads the serialized data fails with a server error. */
  predicate FieldsBuild(fields: seq<string>) {
    forall i :: 0 <= i < |fields| ==> Column(fields[i]).Some?
  }

  /** A serialized user: the listed field names with their values, in order. */
  type UserData = seq<(string, Value)>

  /** `UserSerializer(user).data` for the given field list: nothing when the
      fields do not build, and otherwise each listed name paired with the
      user's value of that column. */
  function UserJson(fields: seq<string>, u: User): (r: Option<UserData>)
    ensures r.Some? <==> FieldsBuild(fields)
    ensures r.Some? ==> |r.value| == |fields|
    ensures r.Some? ==> forall i :: 0 <= i < |fields| ==>
                          r.value[i] == (fields[i], ColumnValue(u, Column(fields[i]).value))
    decreases |fields|
  {
    if fields == [] then Some([])
    else
      match Column(fields[0])
      case None => None
      case Some(c) =>
        match UserJson(fields[1..], u)
        case None => None
        case Some(rest) => Some([(fields[0], ColumnValue(u, c))] + rest)
  }

  /** The field list `UserSerializer` declares: its timestamps are named
      `dt_created` and `dt_updated`. */
  const UserFields: seq<string> := ["id", "email", "first_name", "last_name", "dt_created", "dt_updated"]

  /** The same list naming the timestamps the model has. */
  const StampedUserFields: seq<string> := ["id", "email", "first_name", "last_name", "created_at", "updated_at"]

  /** As declared, the user serializer cannot build its fields: the model has
      no `dt_created` column, so every read of its data fails. */
  lemma UserFieldsDoNotBuild()
    ensures !FieldsBuild(UserFields)
    ensures FieldsBuild(StampedUserFields)
  {
    assert UserFields[4] == "dt_created";
    assert Column(UserFields[4]).None?;
    assert forall i :: 0 <= i < |StampedUserFields| ==> Column(StampedUserFields[i]).Some?;
  }

  /** The serialized user with the field list the model supports: its id,
      email, names and both timestamps. */
  function Serialize(u: User): (r: UserData)
    ensures Some(r) == UserJson(StampedUserFields, u)
    ensures r == [("id", IdValue(u.stamp.id)), ("email", TextValue(u.email)),
                  ("first_name", TextValue(u.firstName)), ("last_name", TextValue(u.lastName)),
                  ("created_at", TimeValue(u.stamp.createdAt)), ("updated_at", TimeValue(u.stamp.updatedAt))]
  {
    UserFieldsDoNotBuild();
    UserJson(StampedUserFields, u).value
  }
}

=== FILE: auth_views.dfy ===
/** The authentication views (`auth/views.py`) as transitions of the account
    store: each takes the store and a request and returns the response and
    the store afterwards. Only activation writes; sign-up, validate-link,
    resend-activation, reset-password, email login, the email-and-password
    token endpoint and token-by-link answer and leave the store as it was.

    The views that answer with a user read `UserSerializer(user).data`; they
    take the serializer's field list as a parameter, so that the same view
    can be stated with the list as declared and with the list the model
    supports. */
module AuthViews {
  import opened Wrappers
  import opened Text
  import opened Base
  import opened Accounts
  import opened AuthSerializers

  datatype Status =
    | Ok200 | NoContent204 | BadRequest400 | Unauthorized401 | Forbidden403 | NotFound404 | ServerError500
  {
    function Code(): int {
      match this
      case Ok200 => 200
      case NoContent204 => 204
      case BadRequest400 => 400
      case Unauthorized401 => 401
      case Forbidden403 => 403
      case NotFound404 => 404
      case ServerError500 => 500
    }
  }

  datatype Body =
    | NoBody
    | ErrorsBody(errors: Errors)                               // per-field validation messages
    | Message(field: string, text: string)                     // {"<field>": "<text>"}
    | Detail(code: string)                                     // a framework error with its code
    | UserBody(user: UserData)
    | UserAndToken(user: UserData, token: map<string, string>)
    | Tokens(token: map<string, string>)
    | LoginContext(user: UserData, redirectUrl: Option<string>)
    | RawLoginContext(instance: User, redirectUrl: Option<string>)  // the model instance itself

  datatype Response = Response(status: Status, body: Body)

  /** Rendering a response as JSON. DRF's encoder knows dates, decimals,
      uuids, querysets and plain containers, but not a model instance: a body
      holding one raises `TypeError` while rendering, and the client gets a
      500. Every other body renders as it is. */
  function Rendered(resp: Response): (r: Response)
    ensures resp.body.RawLoginContext? ==> r.status == ServerError500 && r.body == NoBody
    ensures !resp.body.RawLoginContext? ==> r == resp
  {
    if resp.body.RawLoginContext? then Response(ServerError500, NoBody) else resp
  }

  /** The response of a request and the store after it. */
  datatype Step = Step(response: Response, store: Store)

  const AlreadyActiveMessage := "This account is already active"
  const PasswordExistsMessage := "Password already created for this user"
  const NotAssociatedMessage := "Email is not associated with any user or user is active"

  /** The checks the activation action makes before it writes, in their order:
      the link, then "already active" (400), then "password already set"
      (403), then the password field and the password validators (400). On
      success, the key of the link's user and the validated password. */
  function ActivationGate(o: Oracles, store: Store, uid: Option<string>, token: Option<string>,
                          password: Option<string>): (r: Result<(string, string), Response>)
    ensures r.Success? ==> && r.value.0 in store
                           && !store[r.value.0].isActive && !HasPassword(store[r.value.0])
                           && password.Some? && r.value.1 == Trim(password.value) && r.value.1 != ""
                           && '\0' !in r.value.1
    ensures r.Failure? ==> r.error.status == BadRequest400 || r.error.status == Forbidden403
  {
    match LinkUser(o, store, uid, token)
    case Failure(e) => Failure(Response(BadRequest400, ErrorsBody(e)))
    case Success(k) =>
      var u := store[k];
      if u.isActive then Failure(Response(BadRequest400, Message("user", AlreadyActiveMessage)))
      else if HasPassword(u) then Failure(Response(Forbidden403, Message("password", PasswordExistsMessage)))
      else
        match CharField(password)
        case Failure(m) => Failure(Response(BadRequest400, ErrorsBody(map["password" := [m]])))
        case Success(p) =>
          match ActivateValidate(o, u, ActivateAttrs(Trim(uid.value), Trim(token.value), p))
          case Failure(e) => Failure(Response(BadRequest400, ErrorsBody(e)))
          case Success(_) => Success((k, p))
  }

  /** The order of the activation checks: an invalid link is refused before
      any state is looked at; an active user gets 400 before the password
      check; an inactive user who already has a password gets 403; only then
      are the password field and the validators consulted. */
  lemma ActivationChecksInOrder(o: Oracles, store: Store, uid: Option<string>, token: Option<string>,
                                password: Option<string>)
    ensures var gate := ActivationGate(o, store, uid, token, password);
            var link := LinkUser(o, store, uid, token);
            && (link.Failure? ==> gate == Failure(Response(BadRequest400, ErrorsBody(link.error))))
            && (link.Success? && store[link.value].isActive ==>
                  gate == Failure(Response(BadRequest400, Message("user", AlreadyActiveMessage))))
            && (link.Success? && !store[link.value].isActive && HasPassword(store[link.value]) ==>
                  gate == Failure(Response(Forbidden403, Message("password", PasswordExistsMessage))))
            && (gate.Success? <==>
                  && link.Success?
                  && !store[link.value].isActive && !HasPassword(store[link.value])
                  && CharField(password).Success?
                  && o.passwordErrors(Trim(password.value), store[link.value]) == [])
            && (gate.Success? ==> gate.value.0 == link.value)
  {
  }

  /** A user after activation: the password set to `stored`, active, saved at `now`. */
  function Activated(u: User, stored: string, now: Time): User {
    u.(password := Hashed(stored), isActive := true, stamp := Saved(u.stamp, now))
  }

  /** A 200 answer carrying the user and a token body with exactly the keys
      `refresh` and `access`. */
  predicate GrantsTokens(r: Response) {
    && r.status == Ok200
    && r.body.UserAndToken?
    && r.body.token.Keys == {"refresh", "access"}
  }

  /** The tail of activation: the token serializer run with the user's email
      and `password`, answered as the view answers it. The user's data is
      read only once the tokens are granted, so a field list that does not
      build turns exactly that answer into a 500. */
  function TokenResponse(o: Oracles, store: Store, fields: seq<string>, k: string, password: string): (r: Response)
    requires k in store
    ensures r.status == Ok200 <==> ObtainPair(o, store, Some(store[k].email), Some(password)).Success? && FieldsBuild(fields)
    ensures r.status == ServerError500 <==>
              ObtainPair(o, store, Some(store[k].email), Some(password)).Success? && !FieldsBuild(fields)
    ensures r.status == BadRequest400 <==> CredentialFields(Some(store[k].email), Some(password)).Failure?
    ensures r.status == Unauthorized401 <==>
              ObtainPair(o, store, Some(store[k].email), Some(password)) == Failure(NoActiveAccount)
    ensures r.status == Ok200 ==> && r.body.UserAndToken? && Some(r.body.user) == UserJson(fields, store[k])
                                  && r.body.token.Keys == {"refresh", "access"}
  {
    match ObtainPair(o, store, Some(store[k].email), Some(password))
    case Success(t) =>
      if !FieldsBuild(fields) then Response(ServerError500, NoBody)
      else Response(Ok200, UserAndToken(UserJson(fields, store[k]).value, t))
    case Failure(Invalid(e)) => Response(BadRequest400, ErrorsBody(e))
    case Failure(NoActiveAccount) => Response(Unauthorized401, Detail("no_active_account"))
  }

  /** The activation action: once the checks pass, the user gets the validated
      password, becomes active and receives a token pair. Nothing is written
      when a check fails, and no other user ever changes. */
  function Activation(o: Oracles, store: Store, uid: Option<string>, token: Option<string>,
                      password: Option<string>, now: Time): (r: Step)
    requires Valid(store)
    ensures Valid(r.store) && r.store.Keys == store.Keys
    ensures ActivationGate(o, store, uid, token, password).Failure? ==>
              r == Step(ActivationGate(o, store, uid, token, password).error, store)
    ensures ActivationGate(o, store, uid, token, password).Success? ==>
              var k := ActivationGate(o, store, uid, token, password).value.0;
              var p := ActivationGate(o, store, uid, token, password).value.1;
              && r.store[k].isActive
              && CheckPassword(r.store[k], p) && p == Trim(password.value)
              && r.store[k].email == store[k].email
              && r.store[k].stamp.id == store[k].stamp.id
              && r.store[k].stamp.createdAt == store[k].stamp.createdAt
              && (forall j | j in store && j != k :: r.store[j] == store[j])
  {
    var gate := ActivationGate(o, store, uid, token, password);
    if gate.Failure? then Step(gate.error, store)
    else
      var k := gate.value.0;
      var p := gate.value.1;
      var next := store[k := Activated(store[k], p, now)];
      ActivatedStoreFacts(store, k, p, now);
      Step(TokenResponse(o, next, StampedUserFields, k, p), next)
  }

  /** When the checks pass, activation answers 200 with a token pair and the
      user's data: the token serializer accepts the user's email and the
      password just set. An email key holding a null character is refused by
      the token serializer's email field instead. */
  lemma ActivationGrantsTokens(o: Oracles, store: Store, uid: Option<string>, token: Option<string>,
                               password: Option<string>, now: Time, k: string, p: string)
    requires Valid(store)
    requires ActivationGate(o, store, uid, token, password) == Success((k, p))
    requires Trim(k) == k
    ensures '\0' !in k ==> GrantsTokens(Activation(o, store, uid, token, password, now).response)
    ensures '\0' in k ==> Activation(o, store, uid, token, password, now).response.status == BadRequest400
  {
    GateFacts(o, store, uid, token, password, k, p);
    ActivationUnfolds(o, store, uid, token, password, now, k, p);
    StoredUser(store, k);
    UserFieldsDoNotBuild();
    TokenResponseAfterActivation(o, store, StampedUserFields, k, p, now);
  }

  /** What the checks guarantee of the key and the password they pass on. */
  lemma GateFacts(o: Oracles, store: Store, uid: Option<string>, token: Option<string>,
                  password: Option<string>, k: string, p: string)
    requires ActivationGate(o, store, uid, token, password) == Success((k, p))
    ensures k in store && p != "" && Trim(p) == p && '\0' !in p
  {
    TrimIdempotent(password.value);
  }

  lemma ActivationUnfolds(o: Oracles, store: Store, uid: Option<string>, token: Option<string>,
                          password: Option<string>, now: Time, k: string, p: string)
    requires Valid(store)
    requires ActivationGate(o, store, uid, token, password) == Success((k, p))
    ensures k in store
    ensures Activation(o, store, uid, token, password, now).response
            == TokenResponse(o, store[k := Activated(store[k], p, now)], StampedUserFields, k, p)
  {
  }

  lemma TokenResponseAfterActivation(o: Oracles, store: Store, fields: seq<string>, k: string, p: string, now: Time)
    requires k in store && store[k].email == k && k != "" && Trim(k) == k
    requires p != "" && Trim(p) == p && '\0' !in p
    requires FieldsBuild(fields)
    ensures var r := TokenResponse(o, store[k := Activated(store[k], p, now)], fields, k, p);
            && ('\0' !in k ==> GrantsTokens(r))
            && ('\0' in k ==> r.status == BadRequest400)
  {
    var next := store[k := Activated(store[k], p, now)];
    ActivatedEntry(store, k, p, now);
    if '\0' !in k {
      ActivatedCanLogIn(o, next, k, p);
    } else {
      NullEmailRefused(o, next, fields, k, p);
    }
  }

  /** An email holding a null character fails the token serializer's email
      field: 400. */
  lemma NullEmailRefused(o: Oracles, store: Store, fields: seq<string>, k: string, p: string)
    requires k in store && store[k].email == k && Trim(k) == k && '\0' in k
    ensures TokenResponse(o, store, fields, k, p).status == BadRequest400
  {
    NullCredentialRefused(k, p);
  }

  lemma NullCredentialRefused(k: string, p: string)
    requires Trim(k) == k && '\0' in k
    ensures CredentialFields(Some(k), Some(p)).Failure?
  {
    CharFieldRefusesNull(k);
  }

  /** Activating a user with a trimmed, non-empty password keeps the store's
      constraints and touches nobody else. */
  lemma ActivatedStoreFacts(store: Store, k: string, p: string, now: Time)
    requires Valid(store) && k in store
    ensures var next := store[k := Activated(store[k], p, now)];
            && Valid(next) && next.Keys == store.Keys
            && next[k].isActive && CheckPassword(next[k], p)
            && next[k].email == store[k].email
            && next[k].stamp.id == store[k].stamp.id
            && next[k].stamp.createdAt == store[k].stamp.createdAt
            && (forall j | j in store && j != k :: next[j] == store[j])
  {
    UpdateKeepsValid(store, k, Activated(store[k], p, now));
  }

  lemma ActivatedCanLogIn(o: Oracles, next: Store, k: string, p: string)
    requires k in next && next[k].email == k && k != "" && Trim(k) == k && '\0' !in k
    requires p != "" && Trim(p) == p && '\0' !in p
    requires next[k].isActive && CheckPassword(next[k], p)
    ensures ObtainPair(o, next, Some(next[k].email), Some(p)).Success?
  {
    PaddedCredentials(k, p);
  }

  /** The activated user keeps its email and now holds the given password. */
  lemma ActivatedEntry(store: Store, k: string, p: string, now: Time)
    requires k in store
    ensures var next := store[k := Activated(store[k], p, now)];
            && k in next && next[k].email == store[k].email
            && next[k].isActive && next[k].password == Hashed(p)
  {
  }

  /** The activation action as the view writes it: the password validators
      and the token serializer see the trimmed password, but `set_password`
      receives the password exactly as sent; and the user's data is read with
      the serializer's declared field list, which does not build. So every
      activation that passes the checks writes, and none answers 200. */
  function ActivationAsWritten(o: Oracles, store: Store, uid: Option<string>, token: Option<string>,
                               password: Option<string>, now: Time): (r: Step)
    requires Valid(store)
    ensures ActivationGate(o, store, uid, token, password).Failure? ==>
              r == Step(ActivationGate(o, store, uid, token, password).error, store)
    ensures ActivationGate(o, store, uid, token, password).Success? ==>
              var k := ActivationGate(o, store, uid, token, password).value.0;
              && r.store == store[k := Activated(store[k], password.value, now)]
              && r.response.status in {BadRequest400, Unauthorized401, ServerError500}
    ensures Valid(r.store) && r.store.Keys == store.Keys
    ensures r.response.status != Ok200
  {
    match ActivationGate(o, store, uid, token, password)
    case Failure(resp) => Step(resp, store)
    case Success((k, _)) =>
      var raw := password.value;
      ActivatedStoreFacts(store, k, raw, now);
      UserFieldsDoNotBuild();
      var next := store[k := Activated(store[k], raw, now)];
      Step(TokenResponse(o, next, UserFields, k, raw), next)
  }

  /** As written, a password sent with surrounding whitespace activates the
      account and stores that password as sent, yet the token serializer,
      which trims, does not match it: the answer is 401. And since every
      login trims its password, no login can ever match the stored one. */
  lemma PaddedPasswordLocksOut(o: Oracles, store: Store, uid: Option<string>, token: Option<string>,
                               password: Option<string>, now: Time, k: string, p: string)
    requires Valid(store)
    requires ActivationGate(o, store, uid, token, password) == Success((k, p))
    requires p != password.value
    ensures var r := ActivationAsWritten(o, store, uid, token, password, now);
            && r.store[k].isActive
            && r.store[k].password == Hashed(password.value)
            && (Trim(k) == k && '\0' !in k ==> r.response.status == Unauthorized401)
            && forall login: string :: !CheckPassword(r.store[k], Trim(login))
  {
    var raw := password.value;
    AsWrittenUnfolds(o, store, uid, token, password, now, k, p);
    NoTrimmedStringIsPadded(raw);
    GateFacts(o, store, uid, token, password, k, p);
    if Trim(k) == k && '\0' !in k {
      PaddedActivationRefused(o, store, UserFields, k, raw, now);
    }
  }

  /** Activating with a padded password and then asking the token
      serializer for tokens with that password is answered 401. */
  lemma PaddedActivationRefused(o: Oracles, store: Store, fields: seq<string>, k: string, raw: string, now: Time)
    requires k in store && store[k].email == k && k != "" && Trim(k) == k && '\0' !in k
    requires Trim(raw) != raw && Trim(raw) != "" && '\0' !in Trim(raw)
    ensures TokenResponse(o, store[k := Activated(store[k], raw, now)], fields, k, raw).status == Unauthorized401
  {
    var next := store[k := Activated(store[k], raw, now)];
    ActivatedEntry(store, k, raw, now);
    PaddedLoginRefused(o, next, k, raw);
  }

  lemma AsWrittenUnfolds(o: Oracles, store: Store, uid: Option<string>, token: Option<string>,
                         password: Option<string>, now: Time, k: string, p: string)
    requires Valid(store)
    requires ActivationGate(o, store, uid, token, password) == Success((k, p))
    ensures k in store && store[k].email == k && k != ""
    ensures var next := store[k := Activated(store[k], password.value, now)];
            ActivationAsWritten(o, store, uid, token, password, now)
            == Step(TokenResponse(o, next, UserFields, k, password.value), next)
  {
  }

  /** The token serializer refuses a user whose stored password is a string
      that trimming changes. */
  lemma PaddedLoginRefused(o: Oracles, next: Store, k: string, raw: string)
    requires k in next && next[k].email == k && k != "" && Trim(k) == k && '\0' !in k
    requires next[k].password == Hashed(raw) && Trim(raw) != raw && Trim(raw) != "" && '\0' !in Trim(raw)
    ensures ObtainPair(o, next, Some(next[k].email), Some(raw)) == Failure(NoActiveAccount)
  {
    PaddedCredentials(k, raw);
    assert !CheckPassword(next[k], Trim(raw));
  }

  lemma PaddedCredentials(k: string, raw: string)
    requires k != "" && Trim(k) == k && '\0' !in k
    requires Trim(raw) != "" && '\0' !in Trim(raw)
    ensures CredentialFields(Some(k), Some(raw)) == Success((k, Trim(raw)))
  {
    CharFieldKeeps(k);
    CharFieldKeeps(raw);
  }

  /** A string that trimming changes is the result of no trimming. */
  lemma NoTrimmedStringIsPadded(raw: string)
    requires Trim(raw) != raw
    ensures forall login: string :: Trim(login) != raw
  {
  }

  /** The same, on one concrete request: Ann's link is valid and the password
      validators accept the password " x", but the view answers 401. The
      oracles are left open apart from what the request needs of them. */
  lemma PaddedPasswordExample(o: Oracles)
    requires AnnAccepted(o)
    ensures var r := ActivationAsWritten(o, AnnStore(), Some("1"), Some("t"), Some(" x"), 5);
            && r.response.status == Unauthorized401
            && r.store[AnnEmail].isActive
            && r.store[AnnEmail].password == Hashed(" x")
  {
    AnnActivationUnfolds(o);
    AnnRefused(o);
  }

  /** Ann after activating with " x" at time 5. */
  function AnnActivated(): Store {
    AnnStore()[AnnEmail := Activated(AnnStore()[AnnEmail], " x", 5)]
  }

  lemma AnnActivationUnfolds(o: Oracles)
    requires AnnAccepted(o)
    ensures ActivationAsWritten(o, AnnStore(), Some("1"), Some("t"), Some(" x"), 5)
            == Step(TokenResponse(o, AnnActivated(), UserFields, AnnEmail, " x"), AnnActivated())
  {
    AnnStoreValid();
    AnnGatePasses(o);
    AsWrittenUnfolds(o, AnnStore(), Some("1"), Some("t"), Some(" x"), 5, AnnEmail, "x");
  }

  lemma AnnRefused(o: Oracles)
    ensures TokenResponse(o, AnnActivated(), UserFields, AnnEmail, " x").status == Unauthorized401
    ensures AnnActivated()[AnnEmail].isActive && AnnActivated()[AnnEmail].password == Hashed(" x")
  {
    AnnTrims();
    assert "x" != " x";
    PaddedActivationRefused(o, AnnStore(), UserFields, AnnEmail, " x", 5);
  }

  const AnnEmail := "a@b"

  /** A store holding one inactive user, Ann, who has no password yet. */
  function AnnStore(): Store {
    map[AnnEmail := User(Stamp(1, 0, 0), AnnEmail, "Ann", "Lee", Unset, false, false, false)]
  }

  /** The uid "1" decodes to Ann, "t" is a valid token for her, and the
      password validators accept "x". */
  predicate AnnAccepted(o: Oracles) {
    var ann := AnnStore()[AnnEmail];
    o.decodeUid("1") == Some(AnnEmail) && o.checkToken(ann, "t") && o.passwordErrors("x", ann) == []
  }

  lemma AnnTrims()
    ensures Trim(" x") == "x" && Trim(AnnEmail) == AnnEmail
    ensures '\0' !in "x" && '\0' !in AnnEmail
  {
    AnnPasswordTrims();
    AnnEmailTrims();
    AnnNoNull();
  }

  lemma AnnPasswordTrims()
    ensures Trim(" x") == "x"
  {
    AnnPasswordStripsStart();
    AnnPasswordStripsEnd();
  }

  lemma AnnPasswordStripsStart()
    ensures StripStart(" x") == "x"
  {
    assert " x"[1..] == "x";
    assert !IsSpace("x"[0]);
  }

  lemma AnnPasswordStripsEnd()
    ensures StripEnd("x") == "x"
  {
    assert !IsSpace("x"[0]);
  }

  lemma AnnEmailTrims()
    ensures Trim(AnnEmail) == AnnEmail
  {
    assert AnnEmail[0] == 'a' && AnnEmail[|AnnEmail| - 1] == 'b';
  }

  lemma AnnNoNull()
    ensures '\0' !in "x" && '\0' !in AnnEmail
  {
    assert "x"[0] != '\0';
    assert AnnEmail == ['a', '@', 'b'];
  }

  lemma AnnGatePasses(o: Oracles)
    requires AnnAccepted(o)
    ensures ActivationGate(o, AnnStore(), Some("1"), Some("t"), Some(" x")) == Success((AnnEmail, "x"))
  {
    AnnTrims();
    AnnLinkValid(o);
    assert CharField(Some(" x")) == Success("x");
    ActivationChecksInOrder(o, AnnStore(), Some("1"), Some("t"), Some(" x"));
  }

  lemma AnnStoreValid()
    ensures Valid(AnnStore())
  {
    assert IsLower(AnnEmail);
  }

  lemma AnnLinkValid(o: Oracles)
    requires AnnAccepted(o)
    ensures LinkUser(o, AnnStore(), Some("1"), Some("t")) == Success(AnnEmail)
  {
    AnnLinkFields();
    var r := LinkUser(o, AnnStore(), Some("1"), Some("t"));
    assert r.Success?;
  }

  lemma AnnLinkFields()
    ensures LinkFields(Some("1"), Some("t")).Success?
  {
    AnnWordKept("1");
    AnnWordKept("t");
  }

  /** A one-character word that is neither white space nor null passes a
      `CharField` as it is. */
  lemma AnnWordKept(w: string)
    requires |w| == 1 && !IsSpace(w[0]) && w[0] != '\0'
    ensures CharField(Some(w)).Success?
  {
    assert Trim(w) == w;
    CharFieldKeeps(w);
  }

  /** Once activation has answered 200, activating the same user again is
      refused with 400 whatever the request carries, and writes nothing. */
  lemma {:induction false} SecondActivationFails(o: Oracles, store: Store,
                                                 uid1: Option<string>, token1: Option<string>, password1: Option<string>, now1: Time,
                                                 uid2: Option<string>, token2: Option<string>, password2: Option<string>, now2: Time)
    requires Valid(store)
    requires Activation(o, store, uid1, token1, password1, now1).response.status == Ok200
    requires uid1.Some? && (uid2.Some? ==> o.decodeUid(uid2.value) == o.decodeUid(uid1.value))
    ensures var first := Activation(o, store, uid1, token1, password1, now1);
            var second := Activation(o, first.store, uid2, token2, password2, now2);
            second.response.status == BadRequest400 && second.store == first.store
  {
    var first := Activation(o, store, uid1, token1, password1, now1);
    var gate1 := ActivationGate(o, store, uid1, token1, password1);
    assert gate1.Success?;
    ActivationChecksInOrder(o, store, uid1, token1, password1);
    var k := gate1.value.0;
    assert k == o.decodeUid(uid1.value).value;
    assert first.store[k].isActive;
    ActivationChecksInOrder(o, first.store, uid2, token2, password2);
    var link := LinkUser(o, first.store, uid2, token2);
    if link.Success? {
      assert link.value == k;
    }
    assert ActivationGate(o, first.store, uid2, token2, password2).Failure?;
  }

  /** The same for the view as written, where the first activation never
      answers 200 but writes as soon as its checks pass: a second activation
      of that user is refused with 400 and writes nothing. */
  lemma {:induction false} SecondActivationFailsAsWritten(o: Oracles, store: Store,
                                                          uid1: Option<string>, token1: Option<string>, password1: Option<string>, now1: Time,
                                                          uid2: Option<string>, token2: Option<string>, password2: Option<string>, now2: Time)
    requires Valid(store)
    requires ActivationGate(o, store, uid1, token1, password1).Success?
    requires uid1.Some? && (uid2.Some? ==> o.decodeUid(uid2.value) == o.decodeUid(uid1.value))
    ensures var first := ActivationAsWritten(o, store, uid1, token1, password1, now1);
            var second := ActivationAsWritten(o, first.store, uid2, token2, password2, now2);
            second.response.status == BadRequest400 && second.store == first.store
  {
    var first := ActivationAsWritten(o, store, uid1, token1, password1, now1);
    var gate1 := ActivationGate(o, store, uid1, token1, password1);
    ActivationChecksInOrder(o, store, uid1, token1, password1);
    var k := gate1.value.0;
    assert k == o.decodeUid(uid1.value).value;
    assert first.store[k].isActive;
    ActivationChecksInOrder(o, first.store, uid2, token2, password2);
    var link := LinkUser(o, first.store, uid2, token2);
    if link.Success? {
      assert link.value == k;
    }
    assert ActivationGate(o, first.store, uid2, token2, password2).Failure?;
  }

  /** The activation-link check: 400 for an invalid link or an active user,
      the user's data otherwise, or a 500 when the field list does not build;
      never a write. */
  function ValidateActivationLink(o: Oracles, store: Store, fields: seq<string>,
                                  uid: Option<string>, token: Option<string>): (r: Step)
    ensures r.store == store
    ensures r.response.status == Ok200 <==>
              && LinkUser(o, store, uid, token).Success? && !store[LinkUser(o, store, uid, token).value].isActive
              && FieldsBuild(fields)
    ensures r.response.status == ServerError500 <==>
              && LinkUser(o, store, uid, token).Success? && !store[LinkUser(o, store, uid, token).value].isActive
              && !FieldsBuild(fields)
    ensures r.response.status in {Ok200, BadRequest400, ServerError500}
    ensures r.response.status == Ok200 ==>
              r.response.body.UserBody? &&
              Some(r.response.body.user) == UserJson(fields, store[LinkUser(o, store, uid, token).value])
  {
    match LinkUser(o, store, uid, token)
    case Failure(e) => Step(Response(BadRequest400, ErrorsBody(e)), store)
    case Success(k) =>
      if store[k].isActive then Step(Response(BadRequest400, Message("user", AlreadyActiveMessage)), store)
      else if !FieldsBuild(fields) then Step(Response(ServerError500, NoBody), store)
      else Step(Response(Ok200, UserBody(UserJson(fields, store[k]).value)), store)
  }

  /** As written, every link the check accepts is answered 500, where the
      field list the model supports answers 200 with the user's data. */
  lemma LinkCheckFailsAsWritten(o: Oracles, store: Store, uid: Option<string>, token: Option<string>)
    ensures ValidateActivationLink(o, store, UserFields, uid, token).response.status != Ok200
    ensures ValidateActivationLink(o, store, UserFields, uid, token).response.status == ServerError500 <==>
            ValidateActivationLink(o, store, StampedUserFields, uid, token).response.status == Ok200
    ensures ValidateActivationLink(o, store, StampedUserFields, uid, token).response.status == Ok200 ==>
            ValidateActivationLink(o, store, StampedUserFields, uid, token).response.body
            == UserBody(Serialize(store[LinkUser(o, store, uid, token).value]))
  {
    UserFieldsDoNotBuild();
  }

  /** Resending the activation email: 204 exactly when an inactive user has
      the (well-formed, trimmed) email exactly as sent, since the lookup
      compares the stored email without folding case; 400 otherwise. The
      email itself is not sent. */
  function ResendActivation(o: Oracles, store: Store, email: Option<string>): (r: Step)
    requires Valid(store)
    ensures r.store == store
    ensures r.response.status == NoContent204 <==>
              && EmailField(o.isEmail, email).Success?
              && exists k | k in store :: store[k].email == Trim(email.value) && !store[k].isActive
    ensures r.response.status != NoContent204 ==> r.response.status == BadRequest400
  {
    match EmailField(o.isEmail, email)
    case Failure(ms) => Step(Response(BadRequest400, ErrorsBody(map["email" := ms])), store)
    case Success(v) =>
      if v in store && !store[v].isActive then Step(Response(NoContent204, NoBody), store)
      else Step(Response(BadRequest400, Message("email", NotAssociatedMessage)), store)
  }

  /** The resend lookup does not fold case. Stored emails are lower-case, so
      an email sent with an upper-case letter is never found: "A@B" does not
      find "a@b". */
  lemma ResendMissesUpperCase(o: Oracles, store: Store, email: string)
    requires Valid(store) && !IsLower(Trim(email))
    ensures ResendActivation(o, store, Some(email)).response.status == BadRequest400
  {
    if Trim(email) in store {
      StoredUser(store, Trim(email));
    }
  }

  /** An inactive user's email, sent exactly as stored, is found. */
  lemma ResendFindsInactive(o: Oracles, store: Store, k: string)
    requires Valid(store) && k in store && !store[k].isActive
    requires Trim(k) == k && '\0' !in k && o.isEmail(k)
    ensures ResendActivation(o, store, Some(k)).response.status == NoContent204
  {
    StoredUser(store, k);
    EmailFieldKeeps(o.isEmail, k);
  }

  /** Requesting a password reset: 204 for every well-formed email, whether or
      not a user has it, so the answer reveals nothing; 400 for a malformed one. */
  function ResetPassword(o: Oracles, store: Store, email: Option<string>): (r: Step)
    ensures r.store == store
    ensures r.response.status == NoContent204 <==> EmailField(o.isEmail, email).Success?
    ensures r.response.status != NoContent204 ==> r.response.status == BadRequest400
  {
    match EmailField(o.isEmail, email)
    case Failure(ms) => Step(Response(BadRequest400, ErrorsBody(map["email" := ms])), store)
    case Success(_) => Step(Response(NoContent204, NoBody), store)
  }

  /** Email login: the lower-cased email must belong to a user (404
      otherwise); the login link itself is not sent. */
  function EmailLogin(o: Oracles, store: Store, email: Option<string>, redirectUrl: Option<string>)
    : (r: Step)
    requires Valid(store)
    ensures r.store == store
    ensures r.response.status == BadRequest400 <==> EmailLoginValidate(o, email, redirectUrl).Failure?
    ensures r.response.status == NotFound404 <==>
              && EmailLoginValidate(o, email, redirectUrl).Success?
              && forall k | k in store :: Lower(store[k].email) != Lower(Trim(email.value))
    ensures r.response.status == NoContent204 ==>
              var e := Lower(Trim(email.value));
              && e in store
              && r.response.body == LoginContext(Serialize(store[e]), OptionalCharField(redirectUrl).value)
    ensures r.response.status in {BadRequest400, NotFound404, NoContent204}
  {
    match EmailLoginValidate(o, email, redirectUrl)
    case Failure(e) => Step(Response(BadRequest400, ErrorsBody(e)), store)
    case Success(data) =>
      if data.email !in store then Step(Response(NotFound404, Detail("not_found")), store)
      else Step(Response(NoContent204, LoginContext(Serialize(store[data.email]), data.redirectUrl)), store)
  }

  /** Email login as the view writes it: the context it answers with holds
      the user model instance itself, not its serialized form, so rendering
      fails for every email that belongs to a user. Refusals are as in the
      corrected form. */
  function EmailLoginAsWritten(o: Oracles, store: Store, email: Option<string>, redirectUrl: Option<string>)
    : (r: Step)
    requires Valid(store)
    ensures r.store == store
    ensures r.response.status == ServerError500 <==>
              EmailLogin(o, store, email, redirectUrl).response.status == NoContent204
    ensures r.response.status != ServerError500 ==> r == EmailLogin(o, store, email, redirectUrl)
  {
    match EmailLoginValidate(o, email, redirectUrl)
    case Failure(e) => Step(Response(BadRequest400, ErrorsBody(e)), store)
    case Success(data) =>
      if data.email !in store then Step(Response(NotFound404, Detail("not_found")), store)
      else Step(Rendered(Response(NoContent204, RawLoginContext(store[data.email], data.redirectUrl))), store)
  }

  /** A well-formed email of a stored user: the corrected view answers 204
      with the user's data, the view as written fails with 500. */
  lemma KnownEmailFailsAsWritten(o: Oracles, store: Store, k: string, redirectUrl: Option<string>)
    requires Valid(store) && k in store && Trim(k) == k && '\0' !in k && o.isEmail(k)
    requires OptionalCharField(redirectUrl).Success?
    ensures EmailLoginAsWritten(o, store, Some(k), redirectUrl).response.status == ServerError500
    ensures EmailLogin(o, store, Some(k), redirectUrl).response.status == NoContent204
    ensures EmailLogin(o, store, Some(k), redirectUrl).response.body
            == LoginContext(Serialize(store[k]), OptionalCharField(redirectUrl).value)
  {
    assert store[k].email == k && k != "" && IsLower(k);
    StoredEmailValidates(o, k, redirectUrl);
  }

  lemma StoredEmailValidates(o: Oracles, k: string, redirectUrl: Option<string>)
    requires k != "" && IsLower(k) && Trim(k) == k && '\0' !in k && o.isEmail(k)
    requires OptionalCharField(redirectUrl).Success?
    ensures EmailLoginValidate(o, Some(k), redirectUrl) == Success(EmailLoginData(k, OptionalCharField(redirectUrl).value))
  {
    LowercaseEmailKeeps(o.isEmail, k);
  }

  /** Token by link: 400 for an invalid link, 401 `no_active_account` for a
      user the authentication rule refuses, otherwise the user and a token
      body with exactly the keys `refresh` and `access`; a 500 in that last
      case when the field list does not build. */
  function CreateByToken(o: Oracles, store: Store, fields: seq<string>, uid: Option<string>, token: Option<string>)
    : (r: Step)
    ensures r.store == store
    ensures r.response.status == BadRequest400 <==> LinkUser(o, store, uid, token).Failure?
    ensures r.response.status == Unauthorized401 <==>
              LinkUser(o, store, uid, token).Success? && !store[LinkUser(o, store, uid, token).value].isActive
    ensures r.response.status == Unauthorized401 ==> r.response.body == Detail("no_active_account")
    ensures r.response.status == ServerError500 <==>
              && LinkUser(o, store, uid, token).Success? && store[LinkUser(o, store, uid, token).value].isActive
              && !FieldsBuild(fields)
    ensures r.response.status == Ok200 ==>
              && r.response.body.UserAndToken?
              && Some(r.response.body.user) == UserJson(fields, store[LinkUser(o, store, uid, token).value])
              && r.response.body.token.Keys == {"refresh", "access"}
    ensures r.response.status in {BadRequest400, Unauthorized401, ServerError500, Ok200}
  {
    match TokenByLinkValidate(o, store, uid, token)
    case Failure(Invalid(e)) => Step(Response(BadRequest400, ErrorsBody(e)), store)
    case Failure(NoActiveAccount) => Step(Response(Unauthorized401, Detail("no_active_account")), store)
    case Success((k, t)) =>
      if !FieldsBuild(fields) then Step(Response(ServerError500, NoBody), store)
      else Step(Response(Ok200, UserAndToken(UserJson(fields, store[k]).value, t)), store)
  }

  /** As written, every link that would grant tokens is answered 500 instead;
      with the field list the model supports it is answered 200. */
  lemma TokenByLinkFailsAsWritten(o: Oracles, store: Store, uid: Option<string>, token: Option<string>)
    ensures CreateByToken(o, store, UserFields, uid, token).response.status != Ok200
    ensures CreateByToken(o, store, UserFields, uid, token).response.status == ServerError500 <==>
            CreateByToken(o, store, StampedUserFields, uid, token).response.status == Ok200
  {
    UserFieldsDoNotBuild();
  }

  /** The email-and-password token endpoint: the token pair for an active
      user whose password matches (200), the field errors (400), or
      `no_active_account` (401); never a write. */
  function TokenCreate(o: Oracles, store: Store, email: Option<string>, password: Option<string>): (r: Step)
    ensures r.store == store
    ensures r.response.status == Ok200 <==>
              && CredentialFields(email, password).Success?
              && Trim(email.value) in store
              && CheckPassword(store[Trim(email.value)], Trim(password.value))
              && store[Trim(email.value)].isActive
    ensures r.response.status == Ok200 ==> r.response.body.Tokens? && r.response.body.token.Keys == {"refresh", "access"}
    ensures r.response.status == BadRequest400 <==> CredentialFields(email, password).Failure?
    ensures r.response.status in {Ok200, BadRequest400, Unauthorized401}
  {
    match ObtainPair(o, store, email, password)
    case Success(t) => Step(Response(Ok200, Tokens(t)), store)
    case Failure(Invalid(e)) => Step(Response(BadRequest400, ErrorsBody(e)), store)
    case Failure(NoActiveAccount) => Step(Response(Unauthorized401, Detail("no_active_account")), store)
  }

  /** Sign-up as written: the creation serializer lists the same undeclared
      timestamp names as the user serializer, so it cannot build its fields
      and validating the request fails with a 500 before anything is
      written. */
  function SignUpAsWritten(store: Store, email: Option<string>, password: Option<string>): (r: Step)
    ensures r.store == store
    ensures !FieldsBuild(UserFields) && r.response == Response(ServerError500, NoBody)
  {
    UserFieldsDoNotBuild();
    Step(Response(ServerError500, NoBody), store)
  }

  /** A request is authenticated when its token names a stored, active user;
      `caller` is the key the token names, if it carries one. */
  predicate Authenticated(store: Store, caller: Option<string>) {
    caller.Some? && caller.value in store && store[caller.value].isActive
  }

  /** Deleting a user (`DELETE users/<hid>/`) as written: an unauthenticated
      request is refused with 401; for any other, the lookup filters the
      caller's queryset on `hid`, a name the user model does not have, so the
      query raises and the answer is 500. Nothing is ever deleted. */
  function DestroyAsWritten(store: Store, caller: Option<string>, hid: string): (r: Step)
    ensures r.store == store
    ensures r.response.status == Unauthorized401 <==> !Authenticated(store, caller)
    ensures r.response.status == ServerError500 <==> Authenticated(store, caller)
  {
    if !Authenticated(store, caller) then Step(Response(Unauthorized401, Detail("not_authenticated")), store)
    else Step(Response(ServerError500, NoBody), store)
  }

  /** Deleting a user with the lookup on the primary key: the queryset holds
      only the caller, so any other key is not found (404); then the current
      password, a stripping `CharField`, must check (400); then the caller is
      deleted (204) and nobody else. */
  function Destroy(store: Store, caller: Option<string>, id: Id, currentPassword: Option<string>): (r: Step)
    requires Valid(store)
    ensures r.response.status == Unauthorized401 <==> !Authenticated(store, caller)
    ensures r.response.status == NotFound404 <==>
              Authenticated(store, caller) && store[caller.value].stamp.id != id
    ensures r.response.status == NoContent204 <==>
              && Authenticated(store, caller) && store[caller.value].stamp.id == id
              && CharField(currentPassword).Success?
              && CheckPassword(store[caller.value], CharField(currentPassword).value)
    ensures r.response.status == NoContent204 ==> r.store == store - {caller.value}
    ensures r.response.status != NoContent204 ==> r.store == store
    ensures r.response.status in {Unauthorized401, NotFound404, BadRequest400, NoContent204}
    ensures Valid(r.store)
  {
    if !Authenticated(store, caller) then Step(Response(Unauthorized401, Detail("not_authenticated")), store)
    else
      var k := caller.value;
      if store[k].stamp.id != id then Step(Response(NotFound404, Detail("not_found")), store)
      else match CharField(currentPassword)
        case Failure(m) => Step(Response(BadRequest400, ErrorsBody(map["current_password" := [m]])), store)
        case Success(p) =>
          if !CheckPassword(store[k], p) then
            Step(Response(BadRequest400, Message("current_password", InvalidPasswordMessage)), store)
          else
            RemoveKeepsValid(store, k);
            Step(Response(NoContent204, NoBody), store - {k})
  }

  const InvalidPasswordMessage := "Invalid password."

  /** Removing a user keeps the store's constraints. */
  lemma RemoveKeepsValid(store: Store, k: string)
    requires Valid(store)
    ensures Valid(store - {k})
  {
  }

  /** Where the corrected deletion removes the caller, the view as written
      answers 500 and keeps everyone. */
  lemma DestroyFailsAsWritten(store: Store, caller: Option<string>, hid: string, id: Id,
                              currentPassword: Option<string>)
    requires Valid(store)
    requires Destroy(store, caller, id, currentPassword).response.status == NoContent204
    ensures caller.value !in Destroy(store, caller, id, currentPassword).store
    ensures DestroyAsWritten(store, caller, hid).response.status == ServerError500
    ensures caller.value in DestroyAsWritten(store, caller, hid).store
  {
  }

  datatype Request =
    | Activate(uid: Option<string>, token: Option<string>, password: Option<string>)
    | ValidateLink(uid: Option<string>, token: Option<string>)
    | Resend(email: Option<string>)
    | Reset(email: Option<string>)
    | LoginByEmail(email: Option<string>, redirectUrl: Option<string>)
    | TokenByLink(uid: Option<string>, token: Option<string>)
    | SignUp(email: Option<string>, password: Option<string>)
    | ObtainToken(email: Option<string>, password: Option<string>)
    | Delete(caller: Option<string>, hid: string)

  /** The routing of the account endpoints to their handlers, as written.
      The user views answer with the serializer's declared field list. */
  function Handle(o: Oracles, store: Store, req: Request, now: Time): (r: Step)
    requires Valid(store)
    ensures Valid(r.store) && r.store.Keys == store.Keys
  {
    match req
    case Activate(uid, token, password) => ActivationAsWritten(o, store, uid, token, password, now)
    case ValidateLink(uid, token) => ValidateActivationLink(o, store, UserFields, uid, token)
    case Resend(email) => ResendActivation(o, store, email)
    case Reset(email) => ResetPassword(o, store, email)
    case LoginByEmail(email, redirectUrl) => EmailLoginAsWritten(o, store, email, redirectUrl)
    case TokenByLink(uid, token) => CreateByToken(o, store, UserFields, uid, token)
    case SignUp(email, password) => SignUpAsWritten(store, email, password)
    case ObtainToken(email, password) => TokenCreate(o, store, email, password)
    case Delete(caller, hid) => DestroyAsWritten(store, caller, hid)
  }

  /** Only activation writes; every other endpoint leaves the store as it was. */
  lemma OnlyActivationWrites(o: Oracles, store: Store, req: Request, now: Time)
    requires Valid(store)
    requires !req.Activate?
    ensures Handle(o, store, req, now).store == store
  {
  }

  /** Every request, in any order, keeps the store's constraints, and the set
      of users never changes: sign-up, as written, fails before it creates
      anyone, and deletion, as written, fails before it deletes anyone. */
  lemma {:induction false} RequestsKeepStoreValid(o: Oracles, store: Store, reqs: seq<Request>, now: Time)
    requires Valid(store)
    ensures Valid(Run(o, store, reqs, now)) && Run(o, store, reqs, now).Keys == store.Keys
    decreases |reqs|
  {
    if reqs != [] {
      var next := Handle(o, store, reqs[0], now).store;
      RequestsKeepStoreValid(o, next, reqs[1..], now);
    }
  }

  /** The store after a series of requests. */
  function Run(o: Oracles, store: Store, reqs: seq<Request>, now: Time): Store
    requires Valid(store)
    decreases |reqs|
  {
    if reqs == [] then store else Run(o, Handle(o, store, reqs[0], now).store, reqs[1..], now)
  }
}

=== FILE: base.dfy ===
/** The abstract model bases every record shares: `BaseModel` (a uuid4 primary
    key that cannot be edited, `created_at` set on insert, `updated_at` set on
    every save) and `SeoGaioBase` (SEO and generative-search metadata with
    bounded text columns). */
module Base {

  /** A uuid4 primary key. Generating it is randomness, so callers pass it in. */
  type Id = nat

  /** A timestamp from the clock; the clock is a parameter of every save. */
  type Time = int

  /** The `varchar` bound of a file column: `FileField` and `ImageField` store
      the file's path, `max_length` 100 by default. */
  const FilePathMax := 100

  /** The three columns of `BaseModel`. */
  datatype Stamp = Stamp(id: Id, createdAt: Time, updatedAt: Time)

  /** The stamp of a row saved for the first time at `now`. */
  function Inserted(id: Id, now: Time): (r: Stamp)
    ensures r.id == id
    ensures r.createdAt == r.updatedAt == now
  {
    Stamp(id, now, now)
  }

  /** A later save at `now`: `auto_now` refreshes `updated_at`; the key is not
      editable and `auto_now_add` leaves `created_at` alone. */
  function Saved(s: Stamp, now: Time): Stamp
  {
    s.(updatedAt := now)
  }

  /** The stamp after saving at each time of `times` in turn. */
  function SavedAt(s: Stamp, times: seq<Time>): Stamp
    decreases |times|
  {
    if times == [] then s else SavedAt(Saved(s, times[0]), times[1..])
  }

  /** However many saves follow, the id and the creation time are those of the
      insert and the modification time is that of the last save. */
  lemma {:induction false} SavesKeepIdentity(s: Stamp, times: seq<Time>)
    ensures SavedAt(s, times).id == s.id
    ensures SavedAt(s, times).createdAt == s.createdAt
    ensures SavedAt(s, times).updatedAt == if times == [] then s.updatedAt else times[|times| - 1]
    decreases |times|
  {
    if times != [] {
      SavesKeepIdentity(Saved(s, times[0]), times[1..]);
    }
  }

  predicate NonDecreasing(times: seq<Time>) {
    forall i, j :: 0 <= i <= j < |times| ==> times[i] <= times[j]
  }

  /** With a clock that does not run backwards, a row is never modified before
      it was created. */
  lemma CreatedNotAfterUpdated(id: Id, created: Time, times: seq<Time>)
    requires NonDecreasing([created] + times)
    ensures SavedAt(Inserted(id, created), times).createdAt
            <= SavedAt(Inserted(id, created), times).updatedAt
  {
    SavesKeepIdentity(Inserted(id, created), times);
    if times != [] {
      assert ([created] + times)[0] <= ([created] + times)[|times|];
    }
  }

  /** The slug a `save` writes for a row whose slug may be left blank: the
      given slug, or `slugify(source)` when it is empty. `slugify` is a
      parameter of the model; nothing is assumed about it, not even that it
      is injective. */
  function SlugOrDerived(slugify: string -> string, slug: string, source: string): string {
    if slug == "" then slugify(source) else slug
  }

  /** The columns of `SeoGaioBase`. */
  datatype Seo = Seo(
    metaTitle: string,
    metaDescription: string,
    focusKeyword: string,
    canonicalUrl: string,
    noIndex: bool,
    contentAbstract: string,
    keyQuestionsAnswered: string)

  const MetaTitleMax := 70
  const MetaDescriptionMax := 160
  const FocusKeywordMax := 100
  /** A `URLField` without an explicit `max_length` gets 200. */
  const CanonicalUrlMax := 200
  const ContentAbstractMax := 500

  /** Every field may be blank and `no_index` is off. */
  function DefaultSeo(): Seo
  {
    Seo("", "", "", "", false, "", "")
  }

  /** What the database itself enforces: the `varchar` bounds. A `TextField`'s
      `max_length` is not a column constraint. */
  predicate SeoStorable(s: Seo) {
    && |s.metaTitle| <= MetaTitleMax
    && |s.metaDescription| <= MetaDescriptionMax
    && |s.focusKeyword| <= FocusKeywordMax
    && |s.canonicalUrl| <= CanonicalUrlMax
  }

  /** The fields that full validation (a model form or a model serializer)
      rejects: every bound, including the one on `content_abstract`, and the
      `URLValidator` of `canonical_url`. `isUrl` stands for that validator; a
      blank URL is allowed and skips it. */
  function SeoFieldErrors(isUrl: string -> bool, s: Seo): set<string>
  {
    (if |s.metaTitle| > MetaTitleMax then {"meta_title"} else {})
    + (if |s.metaDescription| > MetaDescriptionMax then {"meta_description"} else {})
    + (if |s.focusKeyword| > FocusKeywordMax then {"focus_keyword"} else {})
    + (if |s.canonicalUrl| > CanonicalUrlMax || BadUrl(isUrl, s.canonicalUrl) then {"canonical_url"} else {})
    + (if |s.contentAbstract| > ContentAbstractMax then {"content_abstract"} else {})
  }

  /** A non-blank URL the validator refuses. */
  predicate BadUrl(isUrl: string -> bool, url: string) {
    url != "" && !isUrl(url)
  }

  /** Field validation is stricter than the database: a record that validates
      can be stored. A record that can be stored fails validation at most on
      the two fields the database does not check: `content_abstract`, whose
      bound is not a column constraint, and `canonical_url`, exactly when the
      URL is not blank and not well formed. */
  lemma SeoValidationImpliesStorable(isUrl: string -> bool, s: Seo)
    ensures SeoFieldErrors(isUrl, s) == {} ==> SeoStorable(s)
    ensures SeoStorable(s) ==> SeoFieldErrors(isUrl, s) <= {"canonical_url", "content_abstract"}
    ensures SeoStorable(s) ==> ("canonical_url" in SeoFieldErrors(isUrl, s) <==> BadUrl(isUrl, s.canonicalUrl))
  {
    if |s.metaTitle| > MetaTitleMax {
      assert "meta_title" in SeoFieldErrors(isUrl, s);
    }
    if |s.metaDescription| > MetaDescriptionMax {
      assert "meta_description" in SeoFieldErrors(isUrl, s);
    }
    if |s.focusKeyword| > FocusKeywordMax {
      assert "focus_keyword" in SeoFieldErrors(isUrl, s);
    }
    if |s.canonicalUrl| > CanonicalUrlMax {
      assert "canonical_url" in SeoFieldErrors(isUrl, s);
    }
  }

  /** The defaults validate, and leave the page indexable. */
  lemma DefaultSeoValid(isUrl: string -> bool)
    ensures SeoFieldErrors(isUrl, DefaultSeo()) == {}
    ensures !DefaultSeo().noIndex
  {
  }
}

=== FILE: mode_switch.dfy ===
/** The colour-mode button of the front end (`ModeSwitch.tsx`): each click
    moves to the next mode of `system`, `light`, `dark` and back to
    `system`, and the button shows an icon for the current mode. */
module ModeSwitch {
  import opened Wrappers

  datatype Mode = System | Light | Dark

  /** The cycle, in order. */
  const Modes: seq<Mode> := [System, Light, Dark]

  /** The names the colour-scheme hook stores. */
  const ModeNames: seq<string> := ["system", "light", "dark"]

  function ModeName(m: Mode): string {
    match m
    case System => "system"
    case Light => "light"
    case Dark => "dark"
  }

  function ParseMode(s: string): (r: Option<Mode>)
    ensures r.Some? ==> ModeName(r.value) == s
  {
    if s == "system" then Some(System)
    else if s == "light" then Some(Light)
    else if s == "dark" then Some(Dark)
    else None
  }

  lemma ModeNameRoundTrip(m: Mode)
    ensures ParseMode(ModeName(m)) == Some(m)
    ensures ModeName(m) in ModeNames
  {
  }

  /** `Array.prototype.indexOf`: the first position of `x`, or -1. */
  function IndexOf<T(==)>(xs: seq<T>, x: T): (r: int)
    ensures -1 <= r < |xs|
    ensures r == -1 <==> x !in xs
    ensures r >= 0 ==> xs[r] == x && x !in xs[..r]
  {
    if xs == [] then -1
    else if xs[0] == x then 0
    else
      var i := IndexOf(xs[1..], x);
      assert xs[1..][..if i < 0 then 0 else i] == xs[1..if i < 0 then 1 else i + 1];
      if i < 0 then -1 else i + 1
  }

  /** The click handler on the stored name: the name after `s` in the
      cycle; a name outside the cycle has index -1 and so goes to the first,
      `system`. */
  function NextName(s: string): (r: string)
    ensures r in ModeNames
  {
    ModeNames[(IndexOf(ModeNames, s) + 1) % |ModeNames|]
  }

  /** The click handler on modes. */
  function Next(m: Mode): (r: Mode) {
    Modes[(IndexOf(Modes, m) + 1) % |Modes|]
  }

  /** The cycle is system, light, dark, system. */
  lemma NextCycle()
    ensures Next(System) == Light && Next(Light) == Dark && Next(Dark) == System
  {
    assert IndexOf(Modes, System) == 0;
    assert IndexOf(Modes, Light) == 1;
    assert IndexOf(Modes, Dark) == 2;
  }

  /** Three clicks come back to the start, every click changes the mode, and
      the clicks pass through every mode. */
  lemma ThreeClicksReturn(m: Mode)
    ensures Next(Next(Next(m))) == m
    ensures Next(m) != m && Next(Next(m)) != m
    ensures {m, Next(m), Next(Next(m))} == {System, Light, Dark}
  {
    NextCycle();
  }

  /** The mode one click back. */
  function Prev(m: Mode): (r: Mode) {
    match m
    case System => Dark
    case Light => System
    case Dark => Light
  }

  /** `Prev` undoes a click and a click undoes `Prev`, so the click is a
      bijection on modes. */
  lemma PrevInvertsNext(m: Mode)
    ensures Prev(Next(m)) == m && Next(Prev(m)) == m
  {
    NextCycle();
  }

  /** Where each name stands in the cycle. */
  lemma NameIndices()
    ensures IndexOf(ModeNames, "system") == 0
    ensures IndexOf(ModeNames, "light") == 1
    ensures IndexOf(ModeNames, "dark") == 2
  {
    assert "light" != "system";
    assert "dark" != "system" && "dark" != "light";
    assert ModeNames[1..] == ["light", "dark"] && ModeNames[2..] == ["dark"];
  }

  /** The handler on names agrees with the handler on modes, and any name
      outside the cycle is sent to `system`. */
  lemma NextNameAgrees(m: Mode, s: string)
    ensures NextName(ModeName(m)) == ModeName(Next(m))
    ensures s !in ModeNames ==> NextName(s) == "system"
  {
    NextCycle();
    NameIndices();
  }

  datatype Icon = LightModeIcon | ModeNightIcon | AutoModeIcon

  /** `renderIcon`: a sun for light, a moon for dark, the automatic icon
      for anything else. */
  function IconOf(m: Mode): (r: Icon) {
    match m
    case Light => LightModeIcon
    case Dark => ModeNightIcon
    case System => AutoModeIcon
  }

  /** Each mode has its own icon, so the icon shows the mode. */
  lemma IconShowsMode(a: Mode, b: Mode)
    ensures IconOf(a) == IconOf(b) <==> a == b
  {
  }

  /** What the component renders: nothing until the hook knows the mode,
      otherwise a button with the mode's icon. */
  datatype View = Hidden | Button(icon: Icon)

  function Render(mode: Option<Mode>): (r: View)
    ensures r == Hidden <==> mode.None?
  {
    if mode.None? then Hidden else Button(IconOf(mode.value))
  }

  /** A click: there is no button, and so no handler, without a mode. */
  function Click(mode: Option<Mode>): (r: Option<Mode>)
    ensures r.None? <==> mode.None?
  {
    if mode.None? then None else Some(Next(mode.value))
  }

  /** After a click the button shows the icon of the next mode, and three
      clicks show the first icon again. */
  lemma ClickShowsNextIcon(m: Mode)
    ensures Render(Click(Some(m))) == Button(IconOf(Next(m)))
    ensures Render(Click(Click(Click(Some(m))))) == Render(Some(m))
  {
    ThreeClicksReturn(m);
  }
}

=== FILE: shop.dfy ===
/** The shop catalogue (`shop/models.py`): categories in a hierarchy, tags,
    products, their sellable variants, images and customer reviews, with the
    unique and foreign-key constraints the database keeps on them.

    Each table maps a primary key to its row, so two rows never share a key.
    The constraints of each table are stated over the tables it refers to,
    and `Valid` is their conjunction. Only inserts are modelled here; the
    deletes and their cascades are in `ShopDelete`. */
module Shop {
  import opened Wrappers
  import opened Text
  import opened Base

  const NameMax := 255
  const SlugMax := 255
  const ProductMetaTitleMax := 255
  const ProductMetaDescriptionMax := 300
  const BrandVoiceMax := 20
  const SkuMax := 100
  const AttributeMax := 50
  const AltTextMax := 255
  /** A `PositiveIntegerField` holds 0 up to this bound. */
  const StockMax := 2147483647
  /** A `PositiveSmallIntegerField` holds 0 up to this bound. */
  const RatingMax := 32767
  /** A `DecimalField(max_digits=10, decimal_places=2)` holds fewer than this
      many hundredths in absolute value. */
  const PriceLimit := 10000000000

  /** The columns of `SlugModelBase`. */
  datatype Named = Named(stamp: Stamp, name: string, slug: string)

  predicate NamedStorable(n: Named) {
    |n.name| <= NameMax && |n.slug| <= SlugMax
  }

  /** The row `SlugModelBase.save` inserts for a new key: an empty slug is
      derived from the name. */
  function NewNamed(slugify: string -> string, id: Id, name: string, slug: string, now: Time): (r: Named)
    ensures r.stamp == Inserted(id, now) && r.name == name
    ensures slug != "" ==> r.slug == slug
    ensures slug == "" ==> r.slug == slugify(name)
  {
    Named(Inserted(id, now), name, SlugOrDerived(slugify, slug, name))
  }

  datatype Category = Category(named: Named, parent: Option<Id>)

  datatype Tag = Tag(named: Named)

  datatype BrandVoice = Playful | Professional | Minimalist | Adventurous

  function BrandVoiceValue(v: BrandVoice): string {
    match v
    case Playful => "PLAYFUL"
    case Professional => "PROFESSIONAL"
    case Minimalist => "MINIMALIST"
    case Adventurous => "ADVENTUROUS"
  }

  /** Distinct voices are stored distinctly, and every stored value fits
      the 20-character column. */
  lemma BrandVoiceStorable(v: BrandVoice, w: BrandVoice)
    ensures |BrandVoiceValue(v)| <= BrandVoiceMax
    ensures BrandVoiceValue(v) == BrandVoiceValue(w) ==> v == w
  {
  }

  /** A product. The JSON columns for generative search are opaque and not
      part of the model. */
  datatype Product = Product(
    named: Named,
    shortDescription: string,
    longDescription: string,
    category: Option<Id>,
    tags: set<Id>,
    isAvailable: bool,
    metaTitle: string,
    metaDescription: string,
    brandVoice: BrandVoice)

  /** A sellable variant. Prices are in hundredths. */
  datatype Variant = Variant(
    stamp: Stamp,
    product: Id,
    sku: string,
    price: int,
    discountPrice: Option<int>,
    stock: int,
    size: string,
    color: string,
    isDefault: bool)

  /** An image of a product; `image` is the stored file's path. */
  datatype Image = Image(stamp: Stamp, product: Id, image: string, altText: string)

  datatype Review = Review(stamp: Stamp, product: Id, user: Id, rating: int, comment: string)

  datatype Shop = Shop(
    categories: map<Id, Category>,
    tags: map<Id, Tag>,
    products: map<Id, Product>,
    variants: map<Id, Variant>,
    images: map<Id, Image>,
    reviews: map<Id, Review>)

  function EmptyShop(): Shop {
    Shop(map[], map[], map[], map[], map[], map[])
  }

  predicate CategoriesValid(cats: map<Id, Category>) {
    && (forall k | k in cats :: cats[k].named.stamp.id == k && NamedStorable(cats[k].named))
    && (forall a, b | a in cats && b in cats && a != b :: cats[a].named.slug != cats[b].named.slug)
    && (forall k | k in cats && cats[k].parent.Some? :: cats[k].parent.value in cats)
  }

  predicate TagsValid(tags: map<Id, Tag>) {
    && (forall k | k in tags :: tags[k].named.stamp.id == k && NamedStorable(tags[k].named))
    && (forall a, b | a in tags && b in tags && a != b :: tags[a].named.slug != tags[b].named.slug)
  }

  predicate ProductStorable(p: Product) {
    && NamedStorable(p.named)
    && |p.metaTitle| <= ProductMetaTitleMax
    && |p.metaDescription| <= ProductMetaDescriptionMax
  }

  predicate ProductsValid(products: map<Id, Product>, cats: map<Id, Category>, tags: map<Id, Tag>) {
    && (forall k | k in products :: products[k].named.stamp.id == k && ProductStorable(products[k]))
    && (forall a, b | a in products && b in products && a != b ::
          products[a].named.slug != products[b].named.slug)
    && (forall k | k in products && products[k].category.Some? :: products[k].category.value in cats)
    && (forall k | k in products :: products[k].tags <= tags.Keys)
  }

  predicate PriceFits(hundredths: int) {
    -PriceLimit < hundredths < PriceLimit
  }

  predicate VariantStorable(v: Variant) {
    && |v.sku| <= SkuMax && |v.size| <= AttributeMax && |v.color| <= AttributeMax
    && PriceFits(v.price) && (v.discountPrice.Some? ==> PriceFits(v.discountPrice.value))
    && 0 <= v.stock <= StockMax
  }

  /** `(product, size, color)` is `unique_together`. */
  predicate SameCombination(v: Variant, w: Variant) {
    v.product == w.product && v.size == w.size && v.color == w.color
  }

  /** The constraints on variants: a stored product, a unique SKU, a unique
      `(product, size, color)`, and the `unique_default_variant` partial
      unique index: at most one default variant per product. */
  predicate VariantsValid(variants: map<Id, Variant>, products: map<Id, Product>) {
    && (forall k | k in variants ::
          variants[k].stamp.id == k && VariantStorable(variants[k]) && variants[k].product in products)
    && (forall a, b | a in variants && b in variants && a != b :: variants[a].sku != variants[b].sku)
    && (forall a, b | a in variants && b in variants && a != b ::
          !SameCombination(variants[a], variants[b]))
    && (forall a, b | a in variants && b in variants && a != b && variants[a].isDefault && variants[b].isDefault ::
          variants[a].product != variants[b].product)
  }

  predicate ImagesValid(images: map<Id, Image>, products: map<Id, Product>) {
    forall k | k in images ::
      && images[k].stamp.id == k && images[k].product in products
      && |images[k].image| <= FilePathMax && |images[k].altText| <= AltTextMax
  }

  /** The constraints the database keeps on reviews: a stored product, a
      rating the column can hold, and one review per `(product, user)`. The
      1-to-5 range is a validator, not a constraint (`RatingValidated`). */
  predicate ReviewsValid(reviews: map<Id, Review>, products: map<Id, Product>) {
    && (forall k | k in reviews ::
          reviews[k].stamp.id == k && reviews[k].product in products && 0 <= reviews[k].rating <= RatingMax)
    && (forall a, b | a in reviews && b in reviews && a != b ::
          (reviews[a].product, reviews[a].user) != (reviews[b].product, reviews[b].user))
  }

  predicate Valid(s: Shop) {
    && CategoriesValid(s.categories)
    && TagsValid(s.tags)
    && ProductsValid(s.products, s.categories, s.tags)
    && VariantsValid(s.variants, s.products)
    && ImagesValid(s.images, s.products)
    && ReviewsValid(s.reviews, s.products)
  }

  lemma EmptyShopValid()
    ensures Valid(EmptyShop())
  {
  }

  datatype ShopError =
    | IdTaken
    | SlugTaken
    | ParentMissing
    | CategoryMissing
    | TagMissing
    | ProductMissing
    | SkuTaken
    | CombinationTaken
    | DefaultTaken
    | RatingOutOfRange
    | AlreadyReviewed
    | TooLong

  predicate CategorySlugTaken(cats: map<Id, Category>, slug: string) {
    exists k | k in cats :: cats[k].named.slug == slug
  }

  /** Saving a new category at `now`. */
  function AddCategory(slugify: string -> string, s: Shop, id: Id, name: string, slug: string,
                       parent: Option<Id>, now: Time): (r: Result<Shop, ShopError>)
    ensures var n := NewNamed(slugify, id, name, slug, now);
            r.Success? <==> && id !in s.categories && !CategorySlugTaken(s.categories, n.slug)
                            && (parent.Some? ==> parent.value in s.categories) && NamedStorable(n)
    ensures r.Success? ==> && r.value.categories.Keys == s.categories.Keys + {id}
                           && r.value.categories[id] == Category(NewNamed(slugify, id, name, slug, now), parent)
                           && (forall k | k in s.categories :: r.value.categories[k] == s.categories[k])
                           && r.value.(categories := s.categories) == s
  {
    var n := NewNamed(slugify, id, name, slug, now);
    if id in s.categories then Failure(IdTaken)
    else if CategorySlugTaken(s.categories, n.slug) then Failure(SlugTaken)
    else if parent.Some? && parent.value !in s.categories then Failure(ParentMissing)
    else if !NamedStorable(n) then Failure(TooLong)
    else Success(s.(categories := s.categories[id := Category(n, parent)]))
  }

  lemma AddCategoryKeepsValid(slugify: string -> string, s: Shop, id: Id, name: string, slug: string,
                              parent: Option<Id>, now: Time)
    requires Valid(s)
    requires AddCategory(slugify, s, id, name, slug, parent, now).Success?
    ensures Valid(AddCategory(slugify, s, id, name, slug, parent, now).value)
  {
    var row := Category(NewNamed(slugify, id, name, slug, now), parent);
    CategoryInsertKeepsValid(s.categories, id, row);
    assert ProductsValid(s.products, s.categories[id := row], s.tags);
  }

  lemma CategoryInsertKeepsValid(cats: map<Id, Category>, id: Id, row: Category)
    requires CategoriesValid(cats) && id !in cats && row.named.stamp.id == id
    requires !CategorySlugTaken(cats, row.named.slug) && NamedStorable(row.named)
    requires row.parent.Some? ==> row.parent.value in cats
    ensures CategoriesValid(cats[id := row])
  {
    var t := cats[id := row];
    forall a, b | a in t && b in t && a != b
      ensures t[a].named.slug != t[b].named.slug
    {
      if a == id {
        assert t[b] == cats[b];
      } else if b == id {
        assert t[a] == cats[a];
      }
    }
  }

  predicate TagSlugTaken(tags: map<Id, Tag>, slug: string) {
    exists k | k in tags :: tags[k].named.slug == slug
  }

  /** Saving a new tag at `now`. */
  function AddTag(slugify: string -> string, s: Shop, id: Id, name: string, slug: string, now: Time)
    : (r: Result<Shop, ShopError>)
    ensures var n := NewNamed(slugify, id, name, slug, now);
            r.Success? <==> id !in s.tags && !TagSlugTaken(s.tags, n.slug) && NamedStorable(n)
    ensures r.Success? ==> && r.value.tags.Keys == s.tags.Keys + {id}
                           && r.value.tags[id] == Tag(NewNamed(slugify, id, name, slug, now))
                           && (forall k | k in s.tags :: r.value.tags[k] == s.tags[k])
                           && r.value.(tags := s.tags) == s
  {
    var n := NewNamed(slugify, id, name, slug, now);
    if id in s.tags then Failure(IdTaken)
    else if TagSlugTaken(s.tags, n.slug) then Failure(SlugTaken)
    else if !NamedStorable(n) then Failure(TooLong)
    else Success(s.(tags := s.tags[id := Tag(n)]))
  }

  lemma AddTagKeepsValid(slugify: string -> string, s: Shop, id: Id, name: string, slug: string, now: Time)
    requires Valid(s)
    requires AddTag(slugify, s, id, name, slug, now).Success?
    ensures Valid(AddTag(slugify, s, id, name, slug, now).value)
  {
    var t := AddTag(slugify, s, id, name, slug, now).value;
    forall a, b | a in t.tags && b in t.tags && a != b
      ensures t.tags[a].named.slug != t.tags[b].named.slug
    {
      if a == id {
        assert t.tags[b] == s.tags[b];
      } else if b == id {
        assert t.tags[a] == s.tags[a];
      }
    }
  }

  predicate ProductSlugTaken(products: map<Id, Product>, slug: string) {
    exists k | k in products :: products[k].named.slug == slug
  }

  /** The product row saved for a new key: `p` with a fresh stamp and its
      slug derived from its name when empty. */
  function NewProduct(slugify: string -> string, id: Id, p: Product, now: Time): Product {
    p.(named := NewNamed(slugify, id, p.named.name, p.named.slug, now))
  }

  /** Saving a new product at `now`, with its tags attached. */
  function AddProduct(slugify: string -> string, s: Shop, id: Id, p: Product, now: Time)
    : (r: Result<Shop, ShopError>)
    ensures var row := NewProduct(slugify, id, p, now);
            r.Success? <==> && id !in s.products && !ProductSlugTaken(s.products, row.named.slug)
                            && (p.category.Some? ==> p.category.value in s.categories)
                            && p.tags <= s.tags.Keys && ProductStorable(row)
    ensures r.Success? ==> && r.value.products.Keys == s.products.Keys + {id}
                           && r.value.products[id] == NewProduct(slugify, id, p, now)
                           && (forall k | k in s.products :: r.value.products[k] == s.products[k])
                           && r.value.(products := s.products) == s
  {
    var row := NewProduct(slugify, id, p, now);
    if id in s.products then Failure(IdTaken)
    else if ProductSlugTaken(s.products, row.named.slug) then Failure(SlugTaken)
    else if p.category.Some? && p.category.value !in s.categories then Failure(CategoryMissing)
    else if !(p.tags <= s.tags.Keys) then Failure(TagMissing)
    else if !ProductStorable(row) then Failure(TooLong)
    else Success(s.(products := s.products[id := row]))
  }

  lemma AddProductKeepsValid(slugify: string -> string, s: Shop, id: Id, p: Product, now: Time)
    requires Valid(s)
    requires AddProduct(slugify, s, id, p, now).Success?
    ensures Valid(AddProduct(slugify, s, id, p, now).value)
  {
    var row := NewProduct(slugify, id, p, now);
    ProductInsertKeepsValid(s.products, s.categories, s.tags, id, row);
    ProductInsertKeepsDependents(s, id, row);
  }

  lemma ProductInsertKeepsValid(ps: map<Id, Product>, cats: map<Id, Category>, tags: map<Id, Tag>,
                                id: Id, row: Product)
    requires ProductsValid(ps, cats, tags) && id !in ps && row.named.stamp.id == id
    requires !ProductSlugTaken(ps, row.named.slug) && ProductStorable(row)
    requires (row.category.Some? ==> row.category.value in cats) && row.tags <= tags.Keys
    ensures ProductsValid(ps[id := row], cats, tags)
  {
    var t := ps[id := row];
    forall a, b | a in t && b in t && a != b
      ensures t[a].named.slug != t[b].named.slug
    {
      if a == id {
        assert t[b] == ps[b];
      } else if b == id {
        assert t[a] == ps[a];
      }
    }
  }

  /** Rows that refer to products stay valid when a product is added. */
  lemma ProductInsertKeepsDependents(s: Shop, id: Id, row: Product)
    requires VariantsValid(s.variants, s.products)
    requires ImagesValid(s.images, s.products)
    requires ReviewsValid(s.reviews, s.products)
    ensures VariantsValid(s.variants, s.products[id := row])
    ensures ImagesValid(s.images, s.products[id := row])
    ensures ReviewsValid(s.reviews, s.products[id := row])
  {
  }

  predicate SkuTakenIn(variants: map<Id, Variant>, sku: string) {
    exists k | k in variants :: variants[k].sku == sku
  }

  predicate CombinationTakenIn(variants: map<Id, Variant>, v: Variant) {
    exists k | k in variants :: SameCombination(variants[k], v)
  }

  /** The product already has a default variant. */
  predicate HasDefault(variants: map<Id, Variant>, product: Id) {
    exists k | k in variants :: variants[k].product == product && variants[k].isDefault
  }

  /** Saving a new variant at `now`. The insert is refused when the SKU is in
      use, when the product already has a variant of that size and colour,
      or when the variant is a default and the product already has one. */
  function AddVariant(s: Shop, id: Id, v: Variant, now: Time): (r: Result<Shop, ShopError>)
    ensures r.Success? <==> && id !in s.variants && v.product in s.products
                            && !SkuTakenIn(s.variants, v.sku) && !CombinationTakenIn(s.variants, v)
                            && !(v.isDefault && HasDefault(s.variants, v.product))
                            && VariantStorable(v)
    ensures r.Success? ==> && r.value.variants.Keys == s.variants.Keys + {id}
                           && r.value.variants[id] == v.(stamp := Inserted(id, now))
                           && (forall k | k in s.variants :: r.value.variants[k] == s.variants[k])
                           && r.value.(variants := s.variants) == s
  {
    if id in s.variants then Failure(IdTaken)
    else if v.product !in s.products then Failure(ProductMissing)
    else if SkuTakenIn(s.variants, v.sku) then Failure(SkuTaken)
    else if CombinationTakenIn(s.variants, v) then Failure(CombinationTaken)
    else if v.isDefault && HasDefault(s.variants, v.product) then Failure(DefaultTaken)
    else if !VariantStorable(v) then Failure(TooLong)
    else Success(s.(variants := s.variants[id := v.(stamp := Inserted(id, now))]))
  }

  lemma AddVariantKeepsValid(s: Shop, id: Id, v: Variant, now: Time)
    requires Valid(s)
    requires AddVariant(s, id, v, now).Success?
    ensures Valid(AddVariant(s, id, v, now).value)
  {
    VariantInsertKeepsValid(s.variants, s.products, id, v.(stamp := Inserted(id, now)));
  }

  lemma VariantInsertKeepsValid(vs: map<Id, Variant>, ps: map<Id, Product>, id: Id, row: Variant)
    requires VariantsValid(vs, ps) && id !in vs && row.stamp.id == id
    requires row.product in ps && VariantStorable(row)
    requires !SkuTakenIn(vs, row.sku) && !CombinationTakenIn(vs, row)
    requires !(row.isDefault && HasDefault(vs, row.product))
    ensures VariantsValid(vs[id := row], ps)
  {
    var t := vs[id := row];
    forall a, b | a in t && b in t && a != b
      ensures t[a].sku != t[b].sku
      ensures !SameCombination(t[a], t[b])
      ensures t[a].isDefault && t[b].isDefault ==> t[a].product != t[b].product
    {
      if a == id {
        assert t[b] == vs[b];
      } else if b == id {
        assert t[a] == vs[a];
      }
    }
  }

  /** A second default variant for the same product is refused, whatever
      else it carries. */
  lemma SecondDefaultRefused(s: Shop, id: Id, v: Variant, now: Time)
    requires v.isDefault && HasDefault(s.variants, v.product)
    ensures AddVariant(s, id, v, now).Failure?
  {
  }

  /** Saving a new image at `now`. */
  function AddImage(s: Shop, id: Id, img: Image, now: Time): (r: Result<Shop, ShopError>)
    ensures r.Success? <==> && id !in s.images && img.product in s.products
                            && |img.image| <= FilePathMax && |img.altText| <= AltTextMax
    ensures r.Success? ==> && r.value.images.Keys == s.images.Keys + {id}
                           && r.value.images[id] == img.(stamp := Inserted(id, now))
                           && (forall k | k in s.images :: r.value.images[k] == s.images[k])
                           && r.value.(images := s.images) == s
  {
    if id in s.images then Failure(IdTaken)
    else if img.product !in s.products then Failure(ProductMissing)
    else if |img.image| > FilePathMax || |img.altText| > AltTextMax then Failure(TooLong)
    else Success(s.(images := s.images[id := img.(stamp := Inserted(id, now))]))
  }

  lemma AddImageKeepsValid(s: Shop, id: Id, img: Image, now: Time)
    requires Valid(s)
    requires AddImage(s, id, img, now).Success?
    ensures Valid(AddImage(s, id, img, now).value)
  {
  }

  predicate Reviewed(reviews: map<Id, Review>, product: Id, user: Id) {
    exists k | k in reviews :: reviews[k].product == product && reviews[k].user == user
  }

  /** `MinValueValidator(1)` and `MaxValueValidator(5)` on the rating. Django
      runs model validators in `full_clean` only, never in `save()`. */
  predicate RatingValidated(rating: int) {
    1 <= rating <= 5
  }

  /** Every stored rating passed the validators. */
  predicate RatingsValidated(reviews: map<Id, Review>) {
    forall k | k in reviews :: RatingValidated(reviews[k].rating)
  }

  /** Saving a new review at `now`. `save()` runs no validators: any rating
      the column holds is stored, 0 and 6 included; a user reviews a product
      once. */
  function AddReview(s: Shop, id: Id, rv: Review, now: Time): (r: Result<Shop, ShopError>)
    ensures r.Success? <==> && id !in s.reviews && rv.product in s.products && 0 <= rv.rating <= RatingMax
                            && !Reviewed(s.reviews, rv.product, rv.user)
    ensures r.Success? ==> && r.value.reviews.Keys == s.reviews.Keys + {id}
                           && r.value.reviews[id] == rv.(stamp := Inserted(id, now))
                           && (forall k | k in s.reviews :: r.value.reviews[k] == s.reviews[k])
                           && r.value.(reviews := s.reviews) == s
  {
    if id in s.reviews then Failure(IdTaken)
    else if rv.product !in s.products then Failure(ProductMissing)
    else if !(0 <= rv.rating <= RatingMax) then Failure(RatingOutOfRange)
    else if Reviewed(s.reviews, rv.product, rv.user) then Failure(AlreadyReviewed)
    else Success(s.(reviews := s.reviews[id := rv.(stamp := Inserted(id, now))]))
  }

  /** `full_clean()` and then `save()`: the rating validators refuse what is
      not 1 to 5 before anything is written; otherwise the save decides. */
  function AddValidatedReview(s: Shop, id: Id, rv: Review, now: Time): (r: Result<Shop, ShopError>)
    ensures r.Success? <==> RatingValidated(rv.rating) && AddReview(s, id, rv, now).Success?
    ensures r.Success? ==> r == AddReview(s, id, rv, now)
    ensures !RatingValidated(rv.rating) ==> r == Failure(RatingOutOfRange)
  {
    if !RatingValidated(rv.rating) then Failure(RatingOutOfRange) else AddReview(s, id, rv, now)
  }

  /** Validated saves keep every stored rating within 1 to 5. */
  lemma ValidatedReviewsStayRated(s: Shop, id: Id, rv: Review, now: Time)
    requires RatingsValidated(s.reviews)
    requires AddValidatedReview(s, id, rv, now).Success?
    ensures RatingsValidated(AddValidatedReview(s, id, rv, now).value.reviews)
  {
    var t := AddValidatedReview(s, id, rv, now).value.reviews;
    forall k | k in t
      ensures RatingValidated(t[k].rating)
    {
      if k != id {
        assert t[k] == s.reviews[k];
      }
    }
  }

  lemma AddReviewKeepsValid(s: Shop, id: Id, rv: Review, now: Time)
    requires Valid(s)
    requires AddReview(s, id, rv, now).Success?
    ensures Valid(AddReview(s, id, rv, now).value)
  {
    ReviewInsertKeepsValid(s.reviews, s.products, id, rv.(stamp := Inserted(id, now)));
  }

  lemma ReviewInsertKeepsValid(rs: map<Id, Review>, ps: map<Id, Product>, id: Id, row: Review)
    requires ReviewsValid(rs, ps) && id !in rs && row.stamp.id == id
    requires row.product in ps && 0 <= row.rating <= RatingMax && !Reviewed(rs, row.product, row.user)
    ensures ReviewsValid(rs[id := row], ps)
  {
    var t := rs[id := row];
    forall a, b | a in t && b in t && a != b
      ensures (t[a].product, t[a].user) != (t[b].product, t[b].user)
    {
      if a == id {
        assert t[b] == rs[b];
      } else if b == id {
        assert t[a] == rs[a];
      }
    }
  }

  /** A user who reviewed a product cannot review it again: the second
      attempt is refused and the first review stays. */
  lemma SecondReviewRefused(s: Shop, id1: Id, id2: Id, rv1: Review, rv2: Review, now1: Time, now2: Time)
    requires AddReview(s, id1, rv1, now1).Success?
    requires rv2.product == rv1.product && rv2.user == rv1.user
    ensures AddReview(AddReview(s, id1, rv1, now1).value, id2, rv2, now2).Failure?
  {
    var t := AddReview(s, id1, rv1, now1).value;
    assert t.reviews[id1].product == rv1.product && t.reviews[id1].user == rv1.user;
  }
}

=== FILE: shop_delete.dfy ===
/** Deleting shop rows and what the foreign keys do about it
    (`shop/models.py`): a product takes its variants, images and reviews with
    it (`CASCADE`); a category takes its child categories with it, all the way
    down (`CASCADE` on `parent`), and leaves its products without a category
    (`SET_NULL`); a tag disappears from every product; deleting a user takes
    that user's reviews. */
module ShopDelete {
  import opened Wrappers
  import opened Base
  import opened Shop

  /** `d` holds every child of each of its members. */
  predicate ChildClosed(cats: map<Id, Category>, d: set<Id>) {
    forall c | c in cats && cats[c].parent.Some? && cats[c].parent.value in d :: c in d
  }

  /** The children of the members of `d`. */
  function Children(cats: map<Id, Category>, d: set<Id>): (r: set<Id>)
    ensures r <= cats.Keys
  {
    set c | c in cats && cats[c].parent.Some? && cats[c].parent.value in d
  }

  /** The categories a cascading delete of `d` removes: `d` and, repeatedly,
      the children of what is removed, until nothing new is found. */
  function Cascade(cats: map<Id, Category>, d: set<Id>): (r: set<Id>)
    requires d <= cats.Keys
    ensures d <= r <= cats.Keys
    ensures ChildClosed(cats, r)
    decreases |cats.Keys - d|
  {
    var next := d + Children(cats, d);
    if next == d then d
    else
      FewerLeft(cats.Keys, d, next);
      Cascade(cats, next)
  }

  lemma FewerLeft(keys: set<Id>, d: set<Id>, next: set<Id>)
    requires d <= next <= keys && next != d
    ensures |keys - next| < |keys - d|
  {
    var x :| x in next && x !in d;
    assert keys - d == (keys - next) + (next - d);
    assert (keys - next) !! (next - d);
    assert x in next - d;
  }

  /** The cascade removes no more than it must: it lies inside every
      child-closed set that contains the deleted categories. */
  lemma {:induction false} CascadeLeast(cats: map<Id, Category>, d: set<Id>, closed: set<Id>)
    requires d <= cats.Keys && d <= closed && ChildClosed(cats, closed)
    ensures Cascade(cats, d) <= closed
    decreases |cats.Keys - d|
  {
    var next := d + Children(cats, d);
    if next != d {
      FewerLeft(cats.Keys, d, next);
      CascadeLeast(cats, next, closed);
    }
  }

  /** The categories deleting category `id` removes. */
  function Doomed(s: Shop, id: Id): (r: set<Id>)
    ensures r <= s.categories.Keys
    ensures id in s.categories ==> id in r
    ensures id !in s.categories ==> r == {}
  {
    if id in s.categories then Cascade(s.categories, {id}) else {}
  }

  /** The product after its category is deleted. */
  function Unlinked(p: Product, doomed: set<Id>): Product {
    if p.category.Some? && p.category.value in doomed then p.(category := None) else p
  }

  /** The categories that are not in `d`. */
  function Without(cats: map<Id, Category>, d: set<Id>): (r: map<Id, Category>)
    ensures r.Keys == cats.Keys - d
    ensures forall k | k in r :: r[k] == cats[k]
  {
    map k | k in cats && k !in d :: cats[k]
  }

  /** The products, none of them left in a category of `d`. */
  function UnlinkAll(products: map<Id, Product>, d: set<Id>): (r: map<Id, Product>)
    ensures r.Keys == products.Keys
    ensures forall k | k in products ::
              (products[k].category.Some? && products[k].category.value in d ==>
                 r[k] == products[k].(category := None))
              && (products[k].category.None? || products[k].category.value !in d ==>
                    r[k] == products[k])
  {
    map k | k in products :: Unlinked(products[k], d)
  }

  /** Deleting category `id`. */
  function DeleteCategory(s: Shop, id: Id): (r: Shop)
    ensures r.categories == Without(s.categories, Doomed(s, id))
    ensures r.products == UnlinkAll(s.products, Doomed(s, id))
    ensures r.tags == s.tags && r.variants == s.variants && r.images == s.images
    ensures r.reviews == s.reviews
  {
    var d := Doomed(s, id);
    s.(categories := Without(s.categories, d), products := UnlinkAll(s.products, d))
  }

  /** The category, its children, their children and so on are gone: a
      category whose parent is removed is removed too. No product is left in
      a removed category. */
  lemma DeleteCategoryRemovesSubtree(s: Shop, id: Id)
    requires id in s.categories
    ensures var r := DeleteCategory(s, id);
            && id !in r.categories
            && (forall c | c in s.categories && s.categories[c].parent.Some?
                           && s.categories[c].parent.value in s.categories
                           && s.categories[c].parent.value !in r.categories :: c !in r.categories)
            && (forall k | k in r.products && r.products[k].category.Some?
                           && r.products[k].category.value in s.categories ::
                  r.products[k].category.value in r.categories)
  {
    assert ChildClosed(s.categories, Doomed(s, id));
  }

  /** A child-closed set of categories can be removed without leaving a
      category whose parent is gone. */
  lemma RemoveClosedKeepsValid(cats: map<Id, Category>, d: set<Id>)
    requires CategoriesValid(cats) && ChildClosed(cats, d)
    ensures CategoriesValid(Without(cats, d))
  {
    var r := Without(cats, d);
    forall k | k in r && r[k].parent.Some?
      ensures r[k].parent.value in r
    {
      assert cats[k].parent.value in cats;
    }
  }

  /** Products that keep their names, slugs and stamps keep the product
      table's own constraints. */
  lemma SameNamesKeepUnique(ps: map<Id, Product>, r: map<Id, Product>)
    requires forall k | k in ps :: ps[k].named.stamp.id == k && ProductStorable(ps[k])
    requires forall a, b | a in ps && b in ps && a != b :: ps[a].named.slug != ps[b].named.slug
    requires r.Keys == ps.Keys
    requires forall k | k in r :: r[k].named == ps[k].named && r[k].metaTitle == ps[k].metaTitle
                                  && r[k].metaDescription == ps[k].metaDescription
    ensures forall k | k in r :: r[k].named.stamp.id == k && ProductStorable(r[k])
    ensures forall a, b | a in r && b in r && a != b :: r[a].named.slug != r[b].named.slug
  {
    forall a, b | a in r && b in r && a != b
      ensures r[a].named.slug != r[b].named.slug
    {
      assert r[a].named == ps[a].named && r[b].named == ps[b].named;
    }
  }

  /** Setting the category of the products of deleted categories to null
      leaves no product in a deleted category. */
  lemma UnlinkKeepsValid(ps: map<Id, Product>, cats: map<Id, Category>, tags: map<Id, Tag>, d: set<Id>)
    requires ProductsValid(ps, cats, tags)
    ensures ProductsValid(UnlinkAll(ps, d), Without(cats, d), tags)
  {
    var r := UnlinkAll(ps, d);
    SameNamesKeepUnique(ps, r);
    forall k | k in r && r[k].category.Some?
      ensures r[k].category.value in Without(cats, d)
    {
      assert r[k] == ps[k];
    }
    forall k | k in r
      ensures r[k].tags <= tags.Keys
    {
      assert r[k].tags == ps[k].tags;
    }
  }

  /** Rows that refer to products only look at which products exist. */
  lemma SameProductKeysKeepDependents(s: Shop, ps: map<Id, Product>)
    requires VariantsValid(s.variants, s.products)
    requires ImagesValid(s.images, s.products)
    requires ReviewsValid(s.reviews, s.products)
    requires ps.Keys == s.products.Keys
    ensures VariantsValid(s.variants, ps)
    ensures ImagesValid(s.images, ps)
    ensures ReviewsValid(s.reviews, ps)
  {
  }

  /** Deleting a category keeps every constraint of the shop. */
  lemma DeleteCategoryKeepsValid(s: Shop, id: Id)
    requires Valid(s)
    ensures Valid(DeleteCategory(s, id))
  {
    var d := Doomed(s, id);
    assert ChildClosed(s.categories, d);
    RemoveClosedKeepsValid(s.categories, d);
    UnlinkKeepsValid(s.products, s.categories, s.tags, d);
    SameProductKeysKeepDependents(s, UnlinkAll(s.products, d));
  }

  /** Deleting product `id`. */
  function DeleteProduct(s: Shop, id: Id): (r: Shop)
    ensures r.products.Keys == s.products.Keys - {id}
    ensures forall k | k in r.products :: r.products[k] == s.products[k]
    ensures forall k | k in s.variants :: k in r.variants <==> s.variants[k].product != id
    ensures forall k | k in s.images :: k in r.images <==> s.images[k].product != id
    ensures forall k | k in s.reviews :: k in r.reviews <==> s.reviews[k].product != id
    ensures r.variants.Keys <= s.variants.Keys && r.images.Keys <= s.images.Keys
    ensures r.reviews.Keys <= s.reviews.Keys
    ensures forall k | k in r.variants :: r.variants[k] == s.variants[k]
    ensures forall k | k in r.images :: r.images[k] == s.images[k]
    ensures forall k | k in r.reviews :: r.reviews[k] == s.reviews[k]
    ensures r.categories == s.categories && r.tags == s.tags
  {
    s.(products := map k | k in s.products && k != id :: s.products[k],
       variants := map k | k in s.variants && s.variants[k].product != id :: s.variants[k],
       images := map k | k in s.images && s.images[k].product != id :: s.images[k],
       reviews := map k | k in s.reviews && s.reviews[k].product != id :: s.reviews[k])
  }

  /** Deleting a product keeps every constraint of the shop: nothing is left
      pointing at it. */
  lemma DeleteProductKeepsValid(s: Shop, id: Id)
    requires Valid(s)
    ensures Valid(DeleteProduct(s, id))
  {
    var r := DeleteProduct(s, id);
    assert ProductsValid(r.products, r.categories, r.tags);
    assert VariantsValid(r.variants, r.products);
    assert ImagesValid(r.images, r.products);
    assert ReviewsValid(r.reviews, r.products);
  }

  /** The products, none of them tagged `id`. */
  function UntagAll(products: map<Id, Product>, id: Id): (r: map<Id, Product>)
    ensures r.Keys == products.Keys
    ensures forall k | k in products :: r[k] == products[k].(tags := products[k].tags - {id})
  {
    map k | k in products :: products[k].(tags := products[k].tags - {id})
  }

  /** The tags other than `id`. */
  function TagsWithout(tags: map<Id, Tag>, id: Id): (r: map<Id, Tag>)
    ensures r.Keys == tags.Keys - {id}
    ensures forall k | k in r :: r[k] == tags[k]
  {
    map k | k in tags && k != id :: tags[k]
  }

  /** Deleting tag `id`: the tag and its links to products are gone. */
  function DeleteTag(s: Shop, id: Id): (r: Shop)
    ensures r.tags == TagsWithout(s.tags, id)
    ensures r.products == UntagAll(s.products, id)
    ensures r.categories == s.categories && r.variants == s.variants
    ensures r.images == s.images && r.reviews == s.reviews
  {
    s.(tags := TagsWithout(s.tags, id), products := UntagAll(s.products, id))
  }

  lemma UntagKeepsValid(ps: map<Id, Product>, cats: map<Id, Category>, tags: map<Id, Tag>, id: Id)
    requires ProductsValid(ps, cats, tags)
    ensures ProductsValid(UntagAll(ps, id), cats, TagsWithout(tags, id))
  {
    SameNamesKeepUnique(ps, UntagAll(ps, id));
  }

  lemma DeleteTagKeepsValid(s: Shop, id: Id)
    requires Valid(s)
    ensures Valid(DeleteTag(s, id))
  {
    assert TagsValid(TagsWithout(s.tags, id));
    UntagKeepsValid(s.products, s.categories, s.tags, id);
    SameProductKeysKeepDependents(s, UntagAll(s.products, id));
  }

  /** Deleting user `user`: the user's reviews go with them. */
  function DeleteReviewer(s: Shop, user: Id): (r: Shop)
    ensures forall k | k in s.reviews :: k in r.reviews <==> s.reviews[k].user != user
    ensures r.reviews.Keys <= s.reviews.Keys
    ensures forall k | k in r.reviews :: r.reviews[k] == s.reviews[k]
    ensures r.(reviews := s.reviews) == s
  {
    s.(reviews := map k | k in s.reviews && s.reviews[k].user != user :: s.reviews[k])
  }

  lemma DeleteReviewerKeepsValid(s: Shop, user: Id)
    requires Valid(s)
    ensures Valid(DeleteReviewer(s, user))
  {
    assert ReviewsValid(DeleteReviewer(s, user).reviews, s.products);
  }
}

=== FILE: shop_schema.dfy ===
/** What a product shows about itself: the variant it presents, its JSON-LD
    description for search engines (`Product.get_schema_json`) and the
    display name of a variant (`ProductVariant.__str__`). */
module ShopSchema {
  import opened Wrappers
  import opened Text
  import opened Base
  import opened Shop

  /** The variant order `["size", "color"]`. */
  predicate AttrLeq(v: Variant, w: Variant) {
    if v.size == w.size then LexLeq(v.color, w.color) else LexLeq(v.size, w.size)
  }

  lemma AttrLeqTotal(v: Variant, w: Variant)
    ensures AttrLeq(v, w) || AttrLeq(w, v)
  {
    LexLeqTotal(v.size, w.size);
    LexLeqTotal(v.color, w.color);
  }

  lemma AttrLeqTransitive(u: Variant, v: Variant, w: Variant)
    requires AttrLeq(u, v) && AttrLeq(v, w)
    ensures AttrLeq(u, w)
  {
    if u.size == v.size && v.size == w.size {
      LexLeqTransitive(u.color, v.color, w.color);
    } else if u.size != v.size && v.size != w.size {
      LexLeqTransitive(u.size, v.size, w.size);
      if u.size == w.size {
        LexLeqAntisymmetric(u.size, v.size);
      }
    }
  }

  /** Two variants that are each no later than the other have the same size
      and colour. */
  lemma AttrLeqAntisymmetric(v: Variant, w: Variant)
    requires AttrLeq(v, w) && AttrLeq(w, v)
    ensures v.size == w.size && v.color == w.color
  {
    if v.size == w.size {
      LexLeqAntisymmetric(v.color, w.color);
    } else {
      LexLeqAntisymmetric(v.size, w.size);
    }
  }

  /** The variants of product `product`. */
  function VariantsOf(variants: map<Id, Variant>, product: Id): (r: set<Id>)
    ensures r <= variants.Keys
  {
    set k | k in variants && variants[k].product == product
  }

  /** `m` is the first variant of `product` in the variant order. */
  predicate IsFirst(variants: map<Id, Variant>, product: Id, m: Id) {
    && m in variants && variants[m].product == product
    && forall k | k in variants && variants[k].product == product :: AttrLeq(variants[m], variants[k])
  }

  /** `m` comes no later than any member of `ks`. */
  predicate LeastIn(variants: map<Id, Variant>, ks: set<Id>, m: Id)
    requires ks <= variants.Keys
  {
    m in ks && forall k | k in ks :: AttrLeq(variants[m], variants[k])
  }

  /** Adding `x` to a set whose least member is `m` makes `x` or `m` least. */
  lemma LeastOfAddition(variants: map<Id, Variant>, rest: set<Id>, x: Id, m: Id)
    requires rest + {x} <= variants.Keys && LeastIn(variants, rest, m)
    ensures LeastIn(variants, rest + {x}, x) || LeastIn(variants, rest + {x}, m)
  {
    AttrLeqTotal(variants[x], variants[m]);
    AttrLeqTotal(variants[x], variants[x]);
    if AttrLeq(variants[x], variants[m]) {
      forall k | k in rest
        ensures AttrLeq(variants[x], variants[k])
      {
        AttrLeqTransitive(variants[x], variants[m], variants[k]);
      }
    }
  }

  /** Every non-empty set of variants has a first member. */
  lemma {:induction false} FirstExists(variants: map<Id, Variant>, ks: set<Id>)
    requires ks != {} && ks <= variants.Keys
    ensures exists m :: LeastIn(variants, ks, m)
    decreases |ks|
  {
    var x :| x in ks;
    var rest := ks - {x};
    assert ks == rest + {x};
    if rest == {} {
      AttrLeqTotal(variants[x], variants[x]);
      assert LeastIn(variants, ks, x);
    } else {
      FirstExists(variants, rest);
      var m :| LeastIn(variants, rest, m);
      LeastOfAddition(variants, rest, x, m);
    }
  }

  /** A product with variants has a first one. */
  lemma HasFirst(variants: map<Id, Variant>, product: Id)
    requires VariantsOf(variants, product) != {}
    ensures exists m :: IsFirst(variants, product, m)
  {
    var ks := VariantsOf(variants, product);
    FirstExists(variants, ks);
    var m :| LeastIn(variants, ks, m);
    assert IsFirst(variants, product, m);
  }

  /** Distinct variants of one product differ in size or colour, so there
      is only one first variant. */
  lemma FirstUnique(variants: map<Id, Variant>, products: map<Id, Product>, product: Id)
    requires VariantsValid(variants, products)
    ensures forall m1, m2 | IsFirst(variants, product, m1) && IsFirst(variants, product, m2) :: m1 == m2
  {
    forall m1, m2 | IsFirst(variants, product, m1) && IsFirst(variants, product, m2)
      ensures m1 == m2
    {
      AttrLeqAntisymmetric(variants[m1], variants[m2]);
    }
  }

  /** The variant a product presents: its default variant, or else its first
      variant in the variant order, or none when it has no variants. */
  function ChosenVariant(variants: map<Id, Variant>, products: map<Id, Product>, product: Id): (r: Option<Id>)
    requires VariantsValid(variants, products)
    ensures r.None? <==> VariantsOf(variants, product) == {}
    ensures r.Some? ==> r.value in variants && variants[r.value].product == product
    ensures r.Some? && HasDefault(variants, product) ==> variants[r.value].isDefault
    ensures r.Some? && !HasDefault(variants, product) ==> IsFirst(variants, product, r.value)
  {
    if HasDefault(variants, product) then
      var d :| d in variants && variants[d].product == product && variants[d].isDefault;
      assert d in VariantsOf(variants, product);
      Some(d)
    else if VariantsOf(variants, product) == {} then None
    else
      HasFirst(variants, product);
      FirstUnique(variants, products, product);
      var m :| IsFirst(variants, product, m);
      Some(m)
  }

  /** A default variant is always the one presented. */
  lemma DefaultIsChosen(variants: map<Id, Variant>, products: map<Id, Product>, product: Id, d: Id)
    requires VariantsValid(variants, products)
    requires d in variants && variants[d].product == product && variants[d].isDefault
    ensures ChosenVariant(variants, products, product) == Some(d)
  {
    assert d in VariantsOf(variants, product);
  }

  /** Without a default, the variant presented comes no later in the variant
      order than any other variant of the product. */
  lemma FirstIsChosen(variants: map<Id, Variant>, products: map<Id, Product>, product: Id, k: Id)
    requires VariantsValid(variants, products) && !HasDefault(variants, product)
    requires k in variants && variants[k].product == product
    ensures ChosenVariant(variants, products, product).Some?
    ensures AttrLeq(variants[ChosenVariant(variants, products, product).value], variants[k])
  {
    assert k in VariantsOf(variants, product);
  }

  /** The reviews of product `product`. */
  function ReviewsOf(reviews: map<Id, Review>, product: Id): (r: set<Id>)
    ensures r <= reviews.Keys
  {
    set k | k in reviews && reviews[k].product == product
  }

  /** The average rating is present and non-zero. Ratings are never
      negative in the column, so the average is non-zero exactly when some
      rating is. */
  predicate RatingTruthy(reviews: map<Id, Review>, product: Id) {
    exists k | k in reviews && reviews[k].product == product :: reviews[k].rating != 0
  }

  /** With validated ratings, from 1 to 5, the average is non-zero exactly
      when there is a review. */
  lemma RatingTruthyIffReviewed(reviews: map<Id, Review>, product: Id)
    requires RatingsValidated(reviews)
    ensures RatingTruthy(reviews, product) <==> |ReviewsOf(reviews, product)| > 0
  {
    if |ReviewsOf(reviews, product)| > 0 {
      var k :| k in ReviewsOf(reviews, product);
      assert reviews[k].rating != 0;
    }
    if RatingTruthy(reviews, product) {
      var k :| k in reviews && reviews[k].product == product && reviews[k].rating != 0;
      assert k in ReviewsOf(reviews, product);
    }
  }

  datatype Availability = InStock | OutOfStock

  /** The schema.org URL an availability is written as. */
  function AvailabilityUrl(a: Availability): string {
    match a
    case InStock => "https://schema.org/InStock"
    case OutOfStock => "https://schema.org/OutOfStock"
  }

  /** A product's JSON-LD document: `{}`, a `Product` with its offer (price
      in hundredths) and, in the corrected form, its aggregate rating as the
      number of reviews; or, as written, a bare `AggregateRating`. */
  datatype Schema =
    | NoSchema
    | ProductSchema(name: string, description: string, sku: string, price: int,
                    availability: Availability, reviewCount: Option<nat>)
    | AggregateRating(count: nat)

  /** `short_description or long_description`. */
  function Description(p: Product): (r: string)
    ensures p.shortDescription != "" ==> r == p.shortDescription
    ensures p.shortDescription == "" ==> r == p.longDescription
  {
    if p.shortDescription != "" then p.shortDescription else p.longDescription
  }

  /** The `Product` document for product `id` offering variant `v`. */
  function Offered(p: Product, v: Variant, reviewCount: Option<nat>): (r: Schema)
    ensures r.ProductSchema? && r.name == p.named.name && r.sku == v.sku && r.price == v.price
    ensures r.availability == InStock <==> p.isAvailable && v.stock > 0
    ensures r.description == Description(p) && r.reviewCount == reviewCount
  {
    ProductSchema(p.named.name, Description(p), v.sku, v.price,
                  if p.isAvailable && v.stock > 0 then InStock else OutOfStock, reviewCount)
  }

  /** The document as the code builds it: once the product has a rated
      review, the `Product` document is thrown away and replaced by the
      rating on its own. */
  function SchemaAsWritten(s: Shop, id: Id): (r: Schema)
    requires VariantsValid(s.variants, s.products) && id in s.products
    ensures r == NoSchema <==> VariantsOf(s.variants, id) == {}
  {
    var chosen := ChosenVariant(s.variants, s.products, id);
    if chosen.None? then NoSchema
    else
      var count := |ReviewsOf(s.reviews, id)|;
      if RatingTruthy(s.reviews, id) && count > 0 then AggregateRating(count)
      else Offered(s.products[id], s.variants[chosen.value], None)
  }

  /** The document with the rating nested in it, as schema.org's
      `aggregateRating` property of a `Product`. */
  function ProductSchemaOf(s: Shop, id: Id): (r: Schema)
    requires VariantsValid(s.variants, s.products) && id in s.products
    ensures r == NoSchema <==> VariantsOf(s.variants, id) == {}
    ensures r != NoSchema ==> r.ProductSchema?
  {
    var chosen := ChosenVariant(s.variants, s.products, id);
    if chosen.None? then NoSchema
    else
      var count := |ReviewsOf(s.reviews, id)|;
      Offered(s.products[id], s.variants[chosen.value],
              if RatingTruthy(s.reviews, id) && count > 0 then Some(count) else None)
  }

  /** As written, a product with a variant and a non-zero rating (every
      validated rating is one) loses its name, SKU, price and availability
      from its document. */
  lemma ReviewHidesProduct(s: Shop, id: Id, v: Id, rv: Id)
    requires Valid(s) && id in s.products
    requires v in s.variants && s.variants[v].product == id
    requires rv in s.reviews && s.reviews[rv].product == id && s.reviews[rv].rating != 0
    ensures SchemaAsWritten(s, id) == AggregateRating(|ReviewsOf(s.reviews, id)|)
    ensures !SchemaAsWritten(s, id).ProductSchema?
  {
    assert v in VariantsOf(s.variants, id);
    assert rv in ReviewsOf(s.reviews, id);
  }

  /** Ratings of 0 can be saved, and a product whose reviews all rate 0 has a
      falsy average, so no rating is published for it although it has
      reviews. */
  lemma ZeroRatingsAreFalsy(reviews: map<Id, Review>, product: Id)
    requires forall k | k in reviews && reviews[k].product == product :: reviews[k].rating == 0
    ensures !RatingTruthy(reviews, product)
  {
  }

  /** In the corrected form, a product with a variant always describes
      itself: its name, the presented variant's SKU and price, and whether it
      can be bought; the rating, when the average is non-zero, counts the
      reviews, which with validated ratings is exactly when there are some. */
  lemma SchemaDescribesProduct(s: Shop, id: Id)
    requires Valid(s) && id in s.products && VariantsOf(s.variants, id) != {}
    ensures var r := ProductSchemaOf(s, id);
            var v := s.variants[ChosenVariant(s.variants, s.products, id).value];
            && r.ProductSchema? && r.name == s.products[id].named.name
            && r.sku == v.sku && r.price == v.price && v.product == id
            && (r.availability == InStock <==> s.products[id].isAvailable && v.stock > 0)
            && (r.reviewCount.Some? <==> RatingTruthy(s.reviews, id))
            && (RatingsValidated(s.reviews) ==> (r.reviewCount.Some? <==> |ReviewsOf(s.reviews, id)| > 0))
            && (r.reviewCount.Some? ==> r.reviewCount.value == |ReviewsOf(s.reviews, id)|)
  {
    if RatingTruthy(s.reviews, id) {
      var k :| k in s.reviews && s.reviews[k].product == id && s.reviews[k].rating != 0;
      assert k in ReviewsOf(s.reviews, id);
    }
    if RatingsValidated(s.reviews) {
      RatingTruthyIffReviewed(s.reviews, id);
    }
  }

  /** The two forms agree on products nobody has reviewed. */
  lemma SchemaAgreesWithoutReviews(s: Shop, id: Id)
    requires VariantsValid(s.variants, s.products) && id in s.products
    requires ReviewsOf(s.reviews, id) == {}
    ensures SchemaAsWritten(s, id) == ProductSchemaOf(s, id)
  {
  }

  /** `__str__` of a variant: the product's name and, in brackets, the
      non-empty ones of size and colour, comma-separated. */
  function VariantLabel(productName: string, v: Variant): (r: string)
    ensures |r| >= |productName| + 3
    ensures r[..|productName|] == productName
  {
    productName + " (" + Join(", ", NonEmpty([v.size, v.color])) + ")"
  }

  /** The attributes of `v` that are set. */
  lemma LabelParts(v: Variant)
    ensures v.size != "" && v.color != "" ==> NonEmpty([v.size, v.color]) == [v.size, v.color]
    ensures v.size != "" && v.color == "" ==> NonEmpty([v.size, v.color]) == [v.size]
    ensures v.size == "" && v.color != "" ==> NonEmpty([v.size, v.color]) == [v.color]
    ensures v.size == "" && v.color == "" ==> NonEmpty([v.size, v.color]) == []
  {
    assert [v.size, v.color][1..] == [v.color];
    assert [v.color][1..] == [];
  }

  /** A variant with both attributes shows both; one without any shows
      empty brackets. */
  lemma LabelShowsAttributes(name: string, v: Variant)
    ensures v.size != "" && v.color != "" ==>
              VariantLabel(name, v) == name + " (" + v.size + ", " + v.color + ")"
    ensures v.size != "" && v.color == "" ==> VariantLabel(name, v) == name + " (" + v.size + ")"
    ensures v.size == "" && v.color != "" ==> VariantLabel(name, v) == name + " (" + v.color + ")"
    ensures v.size == "" && v.color == "" ==> VariantLabel(name, v) == name + " ()"
  {
    LabelParts(v);
    var parts := [v.size, v.color];
    if v.size != "" && v.color != "" {
      assert NonEmpty(parts)[1..] == [v.color];
    }
  }

  /** The label does not tell a size from a colour: a variant of size `x`
      and no colour and one of colour `x` and no size are two allowed
      combinations with the same label. */
  lemma LabelsCollide(name: string, v: Variant, x: string)
    requires x != ""
    ensures var a := v.(size := x, color := "");
            var b := v.(size := "", color := x);
            !SameCombination(a, b) && VariantLabel(name, a) == VariantLabel(name, b)
  {
    LabelShowsAttributes(name, v.(size := x, color := ""));
    LabelShowsAttributes(name, v.(size := "", color := x));
  }
}

=== FILE: text.dfy ===
/** String helpers shared by the model: lower-casing (`str.lower()`), whitespace
    trimming (what a serializer `CharField` does to its input), case-insensitive
    substring search (`icontains`), the code-point order used for sorting text
    columns, and `", ".join(filter(None, parts))`.

    Only ASCII letters change case and only the ASCII characters Python counts
    as whitespace are trimmed; see the README for what that leaves out. */
module Text {

  predicate IsUpper(c: char) {
    'A' <= c <= 'Z'
  }

  function LowerChar(c: char): (r: char)
    ensures !IsUpper(r)
    ensures !IsUpper(c) ==> r == c
  {
    if IsUpper(c) then (c as int + 32) as char else c
  }

  /** No character of `s` is an upper-case letter. */
  predicate IsLower(s: string) {
    forall i :: 0 <= i < |s| ==> !IsUpper(s[i])
  }

  /** `s.lower()`. */
  function Lower(s: string): (r: string)
    ensures |r| == |s|
    ensures forall i :: 0 <= i < |s| ==> r[i] == LowerChar(s[i])
    ensures IsLower(r)
    ensures IsLower(s) ==> r == s
  {
    if s == [] then [] else [LowerChar(s[0])] + Lower(s[1..])
  }

  /** Lower-casing twice is lower-casing once. */
  lemma LowerIdempotent(s: string)
    ensures Lower(Lower(s)) == Lower(s)
  {
  }

  /** The ASCII characters Python's `str.strip()` removes: the space, tab,
      line feed, vertical tab, form feed and carriage return (9 to 13), and the
      file, group, record and unit separators (28 to 31). */
  predicate IsSpace(c: char) {
    c == ' ' || 9 <= c as int <= 13 || 28 <= c as int <= 31
  }

  predicate IsBlank(s: string) {
    forall i :: 0 <= i < |s| ==> IsSpace(s[i])
  }

  /** `s.lstrip()`. */
  function StripStart(s: string): (r: string)
    ensures |r| <= |s| && r == s[|s| - |r|..]
    ensures IsBlank(s[..|s| - |r|])
    ensures r == [] || !IsSpace(r[0])
  {
    if s != [] && IsSpace(s[0]) then
      LeadingSpace(s, StripStart(s[1..]));
      StripStart(s[1..])
    else s
  }

  /** A space in front of a blank prefix makes a longer blank prefix. */
  lemma LeadingSpace(s: string, r: string)
    requires s != [] && IsSpace(s[0]) && |r| <= |s| - 1
    requires r == s[1..][|s| - 1 - |r|..] && IsBlank(s[1..][..|s| - 1 - |r|])
    ensures r == s[|s| - |r|..] && IsBlank(s[..|s| - |r|])
  {
    forall i | 0 < i < |s| - |r|
      ensures IsSpace(s[i])
    {
      assert s[i] == s[1..][..|s| - 1 - |r|][i - 1];
    }
  }

  /** `s.rstrip()`. */
  function StripEnd(s: string): (r: string)
    ensures |r| <= |s| && r == s[..|r|]
    ensures IsBlank(s[|r|..])
    ensures r == [] || !IsSpace(r[|r| - 1])
  {
    if s != [] && IsSpace(s[|s| - 1]) then
      TrailingSpace(s, StripEnd(s[..|s| - 1]));
      StripEnd(s[..|s| - 1])
    else s
  }

  /** A space after a blank suffix makes a longer blank suffix. */
  lemma TrailingSpace(s: string, r: string)
    requires s != [] && IsSpace(s[|s| - 1]) && |r| <= |s| - 1
    requires r == s[..|s| - 1][..|r|] && IsBlank(s[..|s| - 1][|r|..])
    ensures r == s[..|r|] && IsBlank(s[|r|..])
  {
    forall i | |r| <= i < |s| - 1
      ensures IsSpace(s[i])
    {
      assert s[i] == s[..|s| - 1][|r|..][i - |r|];
    }
  }

  /** `s.strip()`: what a serializer `CharField` keeps of its input. */
  function Trim(s: string): (r: string)
    ensures |r| <= |s|
    ensures r == [] || (!IsSpace(r[0]) && !IsSpace(r[|r| - 1]))
    ensures r == [] <==> IsBlank(s)
    ensures (s == [] || (!IsSpace(s[0]) && !IsSpace(s[|s| - 1]))) ==> r == s
  {
    var a := StripStart(s);
    var r := StripEnd(a);
    TrimEmptyIffBlank(s, a, r);
    r
  }

  /** Trimming only cuts white space from the two ends: what it keeps is a
      piece of the input with nothing but white space around it. */
  lemma TrimStrips(s: string)
    ensures Strips(s, Trim(s))
  {
    var a := StripStart(s);
    var r := StripEnd(a);
    var i := |s| - |a|;
    assert a == s[i..];
    assert s[i..i + |r|] == r;
    assert s[i + |r|..] == a[|r|..];
  }

  /** `r` is a piece of `s` with only white space around it. */
  predicate Strips(s: string, r: string) {
    exists i | 0 <= i <= |s| - |r| :: s[i..i + |r|] == r && IsBlank(s[..i]) && IsBlank(s[i + |r|..])
  }

  /** Trimming twice is trimming once. */
  lemma TrimIdempotent(s: string)
    ensures Trim(Trim(s)) == Trim(s)
  {
  }

  lemma TrimEmptyIffBlank(s: string, a: string, r: string)
    requires a == StripStart(s) && r == StripEnd(a)
    ensures r == [] <==> IsBlank(s)
    ensures r != [] ==> a[0] == r[0]
  {
    if r == [] {
      assert a == a[|r|..];
      assert s == s[..|s| - |a|] + a;
    }
  }

  /** `n` occurs as a contiguous piece of `h`. */
  predicate IsSubstring(n: string, h: string) {
    exists i | 0 <= i <= |h| - |n| :: OccursAt(n, h, i)
  }

  predicate OccursAt(n: string, h: string, i: int) {
    0 <= i <= |h| - |n| && h[i..i + |n|] == n
  }

  /** `n` occurs in `h` ignoring case: the `icontains` lookup. */
  predicate ContainsIgnoringCase(h: string, n: string) {
    IsSubstring(Lower(n), Lower(h))
  }

  /** Lexicographic order on code points: the order a text column sorts in
      under a byte-wise collation. */
  predicate LexLeq(a: string, b: string) {
    if a == [] then true
    else if b == [] then false
    else if a[0] != b[0] then a[0] < b[0]
    else LexLeq(a[1..], b[1..])
  }

  lemma {:induction false} LexLeqTotal(a: string, b: string)
    ensures LexLeq(a, b) || LexLeq(b, a)
  {
    if a != [] && b != [] && a[0] == b[0] {
      LexLeqTotal(a[1..], b[1..]);
    }
  }

  lemma {:induction false} LexLeqTransitive(a: string, b: string, c: string)
    requires LexLeq(a, b) && LexLeq(b, c)
    ensures LexLeq(a, c)
  {
    if a != [] && b != [] && c != [] && a[0] == b[0] && b[0] == c[0] {
      LexLeqTransitive(a[1..], b[1..], c[1..]);
    }
  }

  lemma {:induction false} LexLeqAntisymmetric(a: string, b: string)
    requires LexLeq(a, b) && LexLeq(b, a)
    ensures a == b
  {
    if a != [] && b != [] {
      LexLeqAntisymmetric(a[1..], b[1..]);
      assert a == [a[0]] + a[1..] && b == [b[0]] + b[1..];
    }
  }

  /** `filter(None, parts)`: the non-empty strings of `parts`, in order. */
  function NonEmpty(parts: seq<string>): (r: seq<string>)
    ensures |r| <= |parts|
    ensures forall i :: 0 <= i < |r| ==> r[i] != [] && r[i] in parts
    ensures forall i :: 0 <= i < |parts| && parts[i] != [] ==> parts[i] in r
  {
    if parts == [] then []
    else if parts[0] == [] then NonEmpty(parts[1..])
    else [parts[0]] + NonEmpty(parts[1..])
  }

  /** `sep.join(parts)`. */
  function Join(sep: string, parts: seq<string>): (r: string)
    ensures parts == [] ==> r == []
    ensures |parts| == 1 ==> r == parts[0]
    ensures parts != [] ==> |r| >= |parts[0]| && r[..|parts[0]|] == parts[0]
  {
    if parts == [] then []
    else if |parts| == 1 then parts[0]
    else parts[0] + sep + Join(sep, parts[1..])
  }

  /** `s.split(sep)` for a one-character separator: the pieces between the
      separators, in order. There is always at least one piece, and no piece
      holds the separator. */
  function Split(s: string, sep: char): (r: seq<string>)
    ensures |r| >= 1
    ensures forall i :: 0 <= i < |r| ==> sep !in r[i]
    decreases |s|
  {
    if s == [] then [[]]
    else if s[0] == sep then [[]] + Split(s[1..], sep)
    else [[s[0]] + Split(s[1..], sep)[0]] + Split(s[1..], sep)[1..]
  }

  /** Joining the pieces with the separator gives the string back. */
  lemma {:induction false} JoinSplit(s: string, sep: char)
    ensures Join([sep], Split(s, sep)) == s
    decreases |s|
  {
    if s != [] {
      var rest := Split(s[1..], sep);
      JoinSplit(s[1..], sep);
      if s[0] == sep {
        assert ([[]] + rest)[1..] == rest;
      } else {
        var r := [[s[0]] + rest[0]] + rest[1..];
        if |rest| > 1 {
          assert r[1..] == rest[1..];
        }
      }
      assert s == [s[0]] + s[1..];
    }
  }

  /** Splitting pieces that do not hold the separator, once joined with it,
      gives the pieces back. */
  lemma {:induction false} SplitJoin(parts: seq<string>, sep: char)
    requires |parts| >= 1
    requires forall i :: 0 <= i < |parts| ==> sep !in parts[i]
    ensures Split(Join([sep], parts), sep) == parts
  {
    if |parts| == 1 {
      SplitNoSeparator(parts[0], sep);
    } else {
      SplitJoin(parts[1..], sep);
      SplitPiece(parts[0], Join([sep], parts[1..]), sep);
      assert parts == [parts[0]] + parts[1..];
    }
  }

  lemma {:induction false} SplitNoSeparator(p: string, sep: char)
    requires sep !in p
    ensures Split(p, sep) == [p]
    decreases |p|
  {
    if p != [] {
      SplitNoSeparator(p[1..], sep);
      assert p == [p[0]] + p[1..];
    }
  }

  lemma {:induction false} SplitPiece(p: string, rest: string, sep: char)
    requires sep !in p
    ensures Split(p + [sep] + rest, sep) == [p] + Split(rest, sep)
    decreases |p|
  {
    var s := p + [sep] + rest;
    if p == [] {
      assert s[1..] == rest;
    } else {
      assert s[1..] == p[1..] + [sep] + rest;
      SplitPiece(p[1..], rest, sep);
      assert p == [p[0]] + p[1..];
    }
  }
}

=== FILE: wrappers.dfy ===
/** Option and Result, the failure-carrying datatypes the rest of the model returns
    instead of raising exceptions. */
module Wrappers {

  datatype Option<+T> = None | Some(value: T) {

    /** The value, or `default` when there is none (Python's `x or default`
        for a nullable field). */
    function GetOr(default: T): T {
      match this
      case Some(v) => v
      case None => default
    }
  }

  datatype Result<+R, +E> = Success(value: R) | Failure(error: E) {

    predicate IsFailure() {
      Failure?
    }

    function PropagateFailure<U>(): Result<U, E>
      requires Failure?
    {
      Failure(error)
    }

    function Extract(): R
      requires Success?
    {
      value
    }
  }
}
